=== FILE: README.md ===
# tpc_benchmark text and path core, in Dafny

The tpc_benchmark repository runs the TPC-DS and TPC-H benchmarks on
BigQuery and Snowflake. Most of it is glue around cloud clients, `subprocess`
and pandas. Under that glue sit small, deterministic functions from strings
and line lists to strings and line lists. This project models those functions
and proves what they promise.

The modelled functions are:

- the table name read off a generated data file name (`extract_table_name` in
  tools.py, bqa.py and tpcds_bq.py);
- the GCS stage path classifier and the per-table grouping in threaded_upload.py;
- the result-file number and the attribute filter in compare.py;
- the schema DDL line passes of schema.py, tpcds_bq.py, h_setup.py and h_bq.py;
- SQL statement splitting and the capture choice of `BQTPC.query_n`, and
  `add_view`;
- the Snowflake query clean-up and the `Connector.query` guards of sfa.py;
- the trimming of `qgen` output;
- the argv built for `dsdgen`, `dsqgen`, `dbgen` and `qgen`;
- the makefile rewrite and the `sqlserver.tpl` patch;
- the generated `dsdgen` bash scripts and their file names;
- the rename plan and the `gsutil` progress parser of gcs.py;
- the dataset, database and label names;
- the TPC-H stream-order reader;
- the TPC-H refresh script refresh.py;
- the TPC-DS refresh script ds_refresh.py.

File contents are input strings or line lists. Command lines are
`seq<string>`. Python exceptions become `Wrappers.Result` errors named after
the exception (`IndexError`, `ValueError`, `KeyError`, `AssertionError`).
`int()` failing is `None` from `Text.ParseInt`.

Modules, one per concern:

- `Wrappers`: `Option` and `Result`.
- `Text`: Python's `split`, `join`, `strip`/`lstrip`/`rstrip` (for the
  character sets the code uses), whitespace `split()`, `lower()`, `replace`,
  `str(n)` and `int(x)`.
- `TableNames`: tools.py, bqa.py and tpcds_bq.py `extract_table_name`;
  threaded_upload.py.
- `Compare`: compare.py `splitter` and `QueryCompare.values`.
- `StreamOrder`: tools.py `parse_h_stream_seq`.
- `SchemaRewrite`: the schema line passes.
- `SqlText`: statement splitting, `query_n`, `add_view`, the Snowflake
  clean-up, `qgen` output trimming and the `Connector.query` guard.
- `Naming`: dataset, database, label and directory names.
- `Commands`: the argv builders, `create_makefile` and `sqlserver_defines`.
- `BashScripts`: tpcds_setup.py.
- `Gcs`: gcs.py.
- `Refresh`: refresh.py.
- `DsRefresh`: ds_refresh.py.

Two behaviours of the code are kept as written, although they may not be what
the authors meant:

- `run_dsdgen` appends `-VALIDATE` whenever `validate` is not `None`. This
  includes the default `False`.
- `dsqgen` emits `-STREAM` for the `streams` argument, while its help text
  names the option `STREAMS`.

## Model

| member | source | states |
|---|---|---|
| TableNames.NonIntTokens | tools.py:98-104 | every kept token is one `int()` rejects and every such token is kept; nothing is dropped when no token parses |
| TableNames.RejectAppend | tools.py:99-104 | the filter loop distributes over concatenation: the survivors of `xs + ys` are those of `xs` followed by those of `ys` |
| TableNames.NonIntTokensOrder | tools.py:98-104 | a token keeps its place among the survivors: around any token `x`, the result is the survivors before it, then `x` unless it parses, then the survivors after it |
| TableNames.ExtractTableName | tools.py:97-105 | the name holds no dot; none of its `_`-tokens parses as an integer; a stem with no numeric token comes back unchanged |
| TableNames.ExtractTableNameTokens | tools.py:98-105 | when some token survives, splitting the name on `_` gives exactly the non-integer tokens of the stem, in order |
| TableNames.EmptyTokenKept | tools.py:100-104 | an empty token from `__` or an edge `_` is kept, since `int("")` fails |
| TableNames.ExtractTableNameIdempotent | tools.py:97-105 | extracting twice equals extracting once |
| TableNames.ExtractTableNameFromPath | bqa.py:183-192 | the name holds no dot; a path without the separator gets the tools.py rule |
| TableNames.DirectoryIgnored | bqa.py:183 | the directory in front of the last separator never changes the table name |
| TableNames.BareExceptAgrees | tpcds_bq.py:200-210 | keeping a token on any exception gives the same names as keeping it on `ValueError` only |
| TableNames.FailingTokensAgree | tpcds_bq.py:203-208 | on strings, the tokens on which `int()` raises anything are the tokens it rejects |
| TableNames.GcsFilePathTable | threaded_upload.py:19-44 | no match exactly when the path lacks the `ds_100GB_` prefix; `IndexError` exactly when the rest has no `_`; a match is the first token, plus the second when that one is not an integer |
| TableNames.DataGuardSubsumed | threaded_upload.py:23-33 | a path with the data-set prefix never trips the `_data_` guard |
| TableNames.GcsTableTokenCount | threaded_upload.py:36-44 | a matched table name has one or two `_`-tokens |
| TableNames.ListIntegration | threaded_upload.py:63-93 | fails exactly when some path raises; a table is a key exactly when it is known and some path maps to it; each group is the matching paths in listing order; matched paths of unknown tables are only logged |
| TableNames.Group | threaded_upload.py:66-90 | the grouping loop keeps the same per-table and logged-path results for any path classifier |
| Compare.ResultNumber | compare.py:17-20 | `IndexError` exactly when the path has no dot; the number holds neither `.` nor `_` |
| Compare.ResultNumberOfName | compare.py:17-20 | a path `<dir><stem>_<n>.<ext>` gives back `n` whatever directory, dotted or not, comes before it |
| Compare.Values | compare.py:222-227 | `IndexError` exactly when some attribute name is empty; reports every attribute not starting with `_` and not a raw result, and nothing else |
| StreamOrder.ParseStreamOrder | tools.py:337-347 | keeps every line except lines 0, 1 and 3, in order, each stripped and split on tabs |
| SchemaRewrite.DsLine | schema.py:62-72 | a primary-key line is dropped; a create line with fewer than three words raises; any line that is neither a key line nor, with `prefix`, a create line is copied; a prefixed create line becomes its first two words and the qualified table name, joined by single spaces |
| SchemaRewrite.DsLines | schema.py:59-72 | fails exactly when some line raises; output line `i` is the line rule applied to the `i`-th line without a primary key; without `prefix` the kept lines are copied unchanged |
| SchemaRewrite.RewriteDsSchema | schema.py:59-74 | errors exactly as the line pass; without `prefix` the text is its primary-key-free lines rejoined; with a space-free dataset, line `i` of the output is the line rule applied to the `i`-th kept line |
| SchemaRewrite.TpcdsBqRewrite | tpcds_bq.py:92-107 | raises exactly when a kept create line has fewer than three words; otherwise one line per line without a primary key, other lines copied unchanged and in order, each create line exactly its first two words and the table qualified by the dataset, joined by single spaces, later words dropped |
| SchemaRewrite.TpcdsBqUntouched | tpcds_bq.py:92-107 | a schema with no primary-key and no create lines comes back unchanged from the prefixed pass |
| SchemaRewrite.HLine | schema.py:131-142 | raises exactly for a prefixed create line with fewer than three words; other lines are copied or lower-cased; with `lower` the result is lower-case; without `lower` a prefixed create line is its words, word 2 qualified, joined by single spaces |
| SchemaRewrite.HLineLowered | schema.py:131-143 | lower-casing comes last: the lowered rule fails on the same lines and otherwise gives the lower-cased result of the plain rule |
| SchemaRewrite.HLines | schema.py:124-143 | one output line per input line, each the line rule applied to its line; fails exactly when some line raises |
| SchemaRewrite.HLinesPlain | schema.py:137-142 | without `prefix` the pass is the identity or lower-casing |
| SchemaRewrite.RewriteHSchema | schema.py:124-145 | fails exactly when some line fails; with `lower` the text is lower-case; for a dataset without whitespace, the output lines are exactly the per-line rewrites of the input lines, for every combination of `lower` and `prefix` |
| SchemaRewrite.HPlainIsLower | schema.py:124-145 | without `prefix` the pass never fails and only lower-cases |
| SchemaRewrite.HSetupRewrite | h_setup.py:289-312 | each output line is the input line, or, for a create line, exactly its words with word 2 qualified by the dataset, joined by single spaces |
| SqlText.BlankStrip | bqa.py:786 | a piece is all whitespace exactly when `strip()` empties it |
| SqlText.SplitStatements | bqa.py:786 | each statement is a non-blank body without `;` followed by one `;` |
| SqlText.SplitStatementsOfScript | bqa.py:786 | a script of non-blank statements each ended by `;` splits back into those statements |
| SqlText.SchemaStatements | sfa.py:330 | one statement per statement `query_n` splits out; each is non-blank with a single `;` at its end, its body is stripped and lies inside the body of the statement it comes from |
| SqlText.SchemaStatementsOfScript | sfa.py:330 | a script of statements gives each statement stripped and ended by `;` |
| SqlText.QueryN | bqa.py:761-818 | other tests give nothing; two or three statements are all submitted and the second is captured; any other count submits the whole text once |
| SqlText.ViewQueryCaptured | bqa.py:789-800 | a create-view, select, drop-view script submits the three statements in order and captures the select |
| SqlText.SingleQuerySubmittedWhole | bqa.py:813-815 | a single statement is submitted as the unsplit text |
| SqlText.AddViewQualifies | bqa.py:641-642 | one placeholder is replaced by `project.dataset.` and the rest of the text is unchanged |
| SqlText.AddViewAbsent | bqa.py:641-642 | text without the placeholder is unchanged |
| SqlText.CleanQuery | sfa.py:33-41 | the result never starts with whitespace and is no longer than the rewritten text |
| SqlText.Rewritten | sfa.py:34-36 | after the three replacements and strips, neither end is whitespace |
| SqlText.RewrittenRowcount | sfa.py:34-36 | in stripped text, one `set rowcount` whose surroundings hold none of the three forms becomes `LIMIT`, and nothing else changes |
| SqlText.RewrittenTop | sfa.py:34-36 | in stripped text holding no `set rowcount`, one `top 100;` whose surroundings hold none of the three forms becomes `LIMIT 100;`, and nothing else changes |
| SqlText.RewrittenTopLine | sfa.py:34-36 | in stripped text holding no `set rowcount` and no `top 100;`, one line break and ` top 100` whose surroundings hold none of the three forms becomes a line break and ` LIMIT 100`, and nothing else changes |
| SqlText.CleanQueryClean | sfa.py:33-41 | stripped text without the three SQL Server forms and not ending in `go` is returned unchanged |
| SqlText.CleanQueryDropsGo | sfa.py:38-39 | a trailing `go` line loses exactly those two characters |
| SqlText.FromSelectNone | h_setup.py:224-232 | nothing is kept exactly when no line equals `select` |
| SqlText.FromSelectAt | h_setup.py:224-232 | the kept lines are those from the first `select` line to the end |
| SqlText.TrimQgenOutput | h_setup.py:222-233 | the output is the cleaned lines from the first `select` on, joined by line breaks; it is empty without a `select` line and starts with `select` otherwise |
| SqlText.KeepFromSelect | h_setup.py:224-231 | the flag loop keeps exactly the lines from the first `select` on |
| SqlText.ConnectorQuery | sfa.py:140-143 | `AssertionError` exactly without a connection; nothing is run exactly when connected in dry-run mode; otherwise the text is run |
| Naming.DatasetNameParts | bqa.py:583 | the dataset name splits on `_` into test, scale tag and id, and the scale reads back from the tag |
| Naming.LabelBase | bqa.py:598-599 | the base label is lower-case and has the dataset, `-xx-` and the description in length |
| Naming.LabelBaseParts | bqa.py:598-599 | the base label splits on `-` into the lower-cased dataset, `xx` and the lower-cased description |
| Naming.QueryLabel | bqa.py:895-896 | every query label is lower-case |
| Naming.QueryLabelParts | bqa.py:885-896 | a label splits on `-` into the lower-cased dataset, `q<n>`, the stream tag and the lower-cased description |
| Naming.StorageIntegration | sfa.py:255 | the integration name is the database name followed by `_gcs_integration`, and nothing between them |
| Naming.StorageIntegrationInjective | sfa.py:253-255 | distinct databases never share an integration name |
| Naming.ScaleDirLast | gcs.py:21 | the last path component of a scale directory is its scale tag |
| Naming.UploadPrefix | gcs.py:34 | the rename prefix is the dataset name of the same test and scale up to its id: every such dataset name is the prefix followed by the id |
| Gcs.DataTestScale | gcs.py:20-21 | `KeyError` exactly for a test other than `h` and `ds`; otherwise that test's scale directory |
| Gcs.Pending | gcs.py:39-43 | holds exactly the listed names without the prefix |
| Gcs.PendingAppend | gcs.py:39-43 | the filter loop distributes over concatenation of the listing |
| Gcs.PendingOrder | gcs.py:39-43 | around any listed name, the pending names before it, then the name unless it has the prefix, then those after it: listing order and multiplicity are kept |
| Gcs.RenameData | gcs.py:39-51 | returns `True` exactly when some file lacks the prefix; each such file is renamed to the prefix plus its name in the same directory |
| Gcs.RenameDataPlan | gcs.py:39-51 | a file with the prefix is never a rename source; every other file is renamed from its listed name to its `Renamed` name in the same directory |
| Gcs.RenameDataIdempotent | gcs.py:39-51 | over the `Renamed` names (the names after the renames of `RenameDataPlan`), a second call renames nothing and returns `False` |
| Gcs.RenamedNames | gcs.py:48-50 | each name after the renames of `RenameDataPlan` carries the prefix and is its old name or the prefix plus its old name |
| Gcs.RenamedDistinct | gcs.py:48-50 | when no file is renamed onto a listed name, distinct files keep distinct names after the renames, so the names are the directory listing |
| Gcs.RenamedCollision | gcs.py:48-50 | for the listing `["x", prefix + "x"]` the rename of `x` lands on the other file: both end up named `prefix + "x"` |
| Gcs.ParseStdErr | gcs.py:25-29 | `IndexError` exactly when the last 200 characters have fewer than three `\r`-pieces; both results are stripped |
| Gcs.ParseStdErrOfProgress | gcs.py:25-29 | three progress updates give back the first and the last |
| Gcs.ParseStdErrTail | gcs.py:27 | output before the last 200 characters is ignored |
| Commands.DsdgenBase | ds_setup.py:128-137 | the fixed nine words, then `-RNGSEED` and the seed when given, then `-VALIDATE` when `validate` is not `None` |
| Commands.DsdgenSeed | ds_setup.py:133-134 | the word after `-RNGSEED` reads back through `int()` as the seed |
| Commands.DsdgenFlags | ds_setup.py:133-137 | `-RNGSEED` appears exactly when a seed is given; `-VALIDATE` exactly when `validate` is not `None` |
| Commands.DsdgenArgvs | ds_setup.py:125-150 | `ValueError` exactly for a scale outside the scale factors; otherwise one argv per child, the shared words then `-PARALLEL total -CHILD n` |
| Commands.DsdgenChildNumbers | ds_setup.py:146-150 | each child's argv reads back its own number and the total |
| Commands.DbgenArgvs | h_setup.py:145-161 | `ValueError` exactly for a scale outside `tpc_scale`; otherwise one argv per child 1..cpu_count |
| Commands.DbgenArgvParses | h_setup.py:151-161 | each `dbgen` argv reads back its scale, the total and its child number |
| Commands.QgenArgvParses | h_setup.py:195-200 | the last word reads back as the query number; `-r` and the seed appear exactly when a seed is given |
| Commands.QgenArg | ds_setup.py:318-396 | bare flags come only from the flag options and values only from the value options |
| Commands.ParseEmit | ds_setup.py:316-401 | with distinct option names in a fixed order, reading the emitted words back gives the arguments |
| Commands.DsqgenRoundTrip | ds_setup.py:316-401 | a `dsqgen` command line reads back as the given keyword arguments |
| Commands.QgenArgMeaning | ds_setup.py:322-396 | `-VERBOSE` appears whenever `verbose` is not `None`; `-STREAM` carries `str(streams)`; `-QUALIFY` only when `qualify` is `True`; `-COUNT` carries the count |
| Commands.DsqgenDefaults | ds_setup.py:400-401 | with every argument `None` the command is just `./dsqgen` |
| Commands.HeldKeys | h_setup.py:99-100 | the positions of the keys a line contains, each once, in increasing dict order, and exactly those |
| Commands.Hits | h_setup.py:99-106 | one value per key the line contains, in dict order: value `i` is the value of the `i`-th contained key; nothing exactly when the line contains no key |
| Commands.MakefileLine | h_setup.py:96-108 | a line without a key is emitted unchanged without its line break; a line with keys is replaced by one value per contained key, in dict order |
| Commands.Makefile | h_setup.py:93-112 | every input line yields at least one output line |
| Commands.MakefileAppend | h_setup.py:93-112 | the makefile is produced line by line: the output for concatenated input is the concatenated outputs, so with `MakefileLine` each input line contributes its own lines in order |
| Commands.MakefileUntouched | h_setup.py:95-112 | a makefile without any key is copied line for line |
| Commands.SqlServerDefines | ds_setup.py:224-234 | a template already defining `_END` is unchanged; otherwise the definition is appended and the text then defines `_END` |
| Commands.SqlServerDefinesOnce | ds_setup.py:224-234 | a second call appends nothing more |
| BashScripts.BashText | tpcds_setup.py:99-121 | `ValueError` exactly for a scale outside `tpc_scale`; the script starts with a line break |
| BashScripts.BashTextLines | tpcds_setup.py:102-121 | read back line by line, the script is the fixed lines with the scale directory, then the optional lines |
| BashScripts.BashOptionalLines | tpcds_setup.py:114-120 | the seed line appears exactly when a seed is given; the `-CHILD` line exactly when more than one cpu is used |
| BashScripts.ScriptNameParts | tpcds_setup.py:172-176 | a script name splits on `_` into its words, the cpu count and the scale file part |
| BashScripts.ScriptNameInjective | tpcds_setup.py:165-176 | different (cpu, scale) pairs get different script names, so no script overwrites another |
| BashScripts.DataOut | tpcds_setup.py:147-159 | a given directory wins; otherwise the mounted disk when it exists, else the local directory |
| BashScripts.DsdgenBashScripts | tpcds_setup.py:142-178 | one script per cpu count and scale, at the named path, whose text is the seeded bash text |
| BashScripts.Grid | tpcds_setup.py:165-166 | row `a`, column `b` of the nested loops holds the result for cpu `a` and scale `b` |
| Refresh.LoadOrders | refresh.py:11-23 | `ValueError` exactly when some orders line has a key `int()` rejects |
| Refresh.LoadOrdersTable | refresh.py:14-23 | the table is a dict holding every key of the file, each entry with the columns of the first line with that key, no line items and no delete mark |
| Refresh.LoadOrdersFirstSeen | refresh.py:17-23 | entries are in order of the first line with each key |
| Refresh.AttachItems | refresh.py:31-39 | fails exactly when some line-item key does not parse or is not a loaded order; with every key parsing the error is `KeyError`, with every parsed key loaded it is `ValueError`; the keys do not change |
| Refresh.AttachItemsContents | refresh.py:31-39 | each order gains exactly the line-item rows with its key, in file order |
| Refresh.AttachItemsCount | refresh.py:31-39 | every line-item row lands in exactly one order |
| Refresh.MarkDeletes | refresh.py:52-57 | `ValueError` exactly when some delete key does not parse; an order is marked exactly when its key is listed; nothing else changes |
| Refresh.OrderInsert | refresh.py:70-82 | `IndexError` exactly for fewer than nine columns; otherwise the order INSERT of the nine values |
| Refresh.OrderInsertFields | refresh.py:70-82 | the INSERT reads back column by column: the key as the integer, status quoted, date wrapped in `to_date` |
| Refresh.ItemValues | refresh.py:88-96 | sixteen values: the first eight columns unchanged, columns 10-12 wrapped in `to_date`, columns 8, 9 and 13-15 quoted |
| Refresh.ItemInsert | refresh.py:87-98 | `IndexError` exactly for fewer than sixteen columns; otherwise the lineitem INSERT of the sixteen values |
| Refresh.ItemInsertFields | refresh.py:87-98 | the lineitem INSERT reads back column by column: the first eight as they are, the dates wrapped, the flags and texts quoted |
| Refresh.ItemInserts | refresh.py:87-98 | `IndexError` exactly when some row has fewer than sixteen columns; one INSERT per row, in order |
| Refresh.Inserts | refresh.py:68-100 | `IndexError` exactly when some order is malformed; one INSERT per order and per line item; the first is the first order's |
| Refresh.InsertsOne | refresh.py:68-100 | a well-formed order's INSERT is immediately followed by its line items' INSERTs |
| Refresh.InsertsAppend | refresh.py:68-100 | the statements of two tables in a row are those of the first followed by those of the second, so orders keep table order; either failing fails both |
| Refresh.InsertsIgnoreDelete | refresh.py:53-61 | delete marks do not change the INSERTs |
| Refresh.Deletes | refresh.py:104-108 | for each delete key, in order, a DELETE from orders and then one from lineitem |
| Refresh.RefreshInsertCount | refresh.py:11-100 | a successful run prints one INSERT per distinct order key and one per line item |
| Refresh.RefreshStatements | refresh.py:11-108 | an unparsable order key fails with `ValueError`; two DELETEs per delete line |
| DsRefresh.TableKeyOfEnding | ds_refresh.py:18 | a name with any six-character ending has the rest as its key; the ending is not checked |
| DsRefresh.TableKeyShort | ds_refresh.py:18 | a name shorter than the suffix is cut at the negative stop Python resolves |
| DsRefresh.MappedKeys | ds_refresh.py:17-20 | a file is mapped exactly when its truncated name starts with `s_` |
| DsRefresh.FileMap | ds_refresh.py:17-20 | keys are distinct; each points at a mapped file with that key |
| DsRefresh.FileMapComplete | ds_refresh.py:17-20 | every mapped file's key is present and points at the last file with that key |
| DsRefresh.LaterFileWins | ds_refresh.py:17-20 | of two files of one table, only the later is read |
| DsRefresh.InsertOfDataLine | ds_refresh.py:27-38 | a data line ending in a separator gives an INSERT of its quoted fields |
| DsRefresh.InsertOfBareSeparator | ds_refresh.py:31-38 | a line holding only the separator inserts one empty value |
| DsRefresh.InsertDropsLastField | ds_refresh.py:36 | a line without the trailing separator loses its last field |
| DsRefresh.Script | ds_refresh.py:23-39 | per mapped table, in map order, the processing comment then one INSERT per line |
| Text.JoinSplit | tpcds_bq.py:92-107 | joining the pieces of a split gives back the text |
| Text.SplitJoin | schema.py:59-74 | splitting a join of separator-free pieces gives back the pieces |
| Text.WsSplitJoin | schema.py:66-69 | `split()` undoes single-space joining of words |
| Text.ParseIntAccepts | tools.py:100-104 | the `int()` parser succeeds exactly on the token grammar: optional whitespace and sign, digits with single underscores |
| Text.IntToStringParses | h_setup.py:151-161 | `int(str(n)) == n` |
| Text.LowerFacts | schema.py:137-142 | lower-casing leaves no upper-case letter, is idempotent and keeps other characters |
| Text.ReplaceFirst | sfa.py:34-36 | `replace` changes the first occurrence and resumes after it |
| Text.ReplaceAbsent | bqa.py:642 | text without the pattern is unchanged by `replace` |
| Text.StripStripped | gcs.py:28 | text whose ends are not stripped characters is unchanged by `strip` |

## Left out

- File reads and writes, directory listings, `os.rename`, and `subprocess` launches. The model takes file contents and listings as arguments and returns the argv, text or rename plan.
- Cloud clients (BigQuery, Snowflake, GCS, reservations). Job submission appears only as the list of texts `query_n` would submit.
- pandas, floating point, timing, and the DataFrame built from the stream-order rows (its column count is not checked).
- The regex datatype substitutions that precede the schema line passes. The passes are modelled on already-substituted text.
- Concurrency: the thread and process fan-out of uploads and data generation.
- Diagnostic `print` and `logging` output. The refresh scripts' SQL output is modelled as lists of statements.
- Partial output written before an exception. An error result replaces all output.
- Configuration constants (`config.sep`, `tpc_scale`, `scale_factors`, `cpu_count`, `p_d_id`, output paths) become parameters. `TABLES` of threaded_upload.py is a parameter too.
- Python's `int()` on non-ASCII digits, and `lower()` outside ASCII letters.
- `strip` with arbitrary character sets. Only the sets the code uses are modelled.
- Key order of the `list_integration` dict. Groups are a Dafny `map`.
- `dsqgen`'s `count` is passed through as text, as the code appends it unconverted.
- tmp/ds_refresh.js is not part of this model.
- BashScripts.BashOptionalLines: requires that the binary path does not start with `-`, since such a path could itself look like an option line.
- Refresh.RefreshStatements: states the orders-file error and the DELETE count; the other error cases are stated on `LoadOrders`, `AttachItems`, `MarkDeletes` and `Inserts`.
- SchemaRewrite.HLine: with both `prefix` and `lower`, its own contract states only that the line is lower-case; `HLineLowered` states that it is the lower-cased line of the plain rule.
- TableNames.NonIntTokens: its own contract states membership only; the order of the kept tokens is stated by `NonIntTokensOrder` and `RejectAppend`.
- SqlText.Rewritten: its own contract states only the trimmed ends; the replacements are stated by `RewrittenRowcount`, `RewrittenTop` and `RewrittenTopLine` for a single occurrence in stripped text, not for text holding several forms at once, whose result depends on how one replacement creates or destroys another form.
- SqlText.CleanQuery: states the leading character and the length; the effect of the replacements is stated by `RewrittenRowcount`, `RewrittenTop` and `RewrittenTopLine` for one occurrence in otherwise clean text, and the `go` removal by `CleanQueryClean` and `CleanQueryDropsGo`.
- Commands.Makefile: its own contract states only the length bound; the lines it writes are stated by `MakefileAppend` together with `MakefileLine`.
- Gcs.Renamed: is the directory listing after the renames only when no file is renamed onto a name already listed (`Collides`); on a collision `os.rename` overwrites a file, which the model shows (`RenamedCollision`) but does not turn into a shorter listing.
- Gcs.ParseStdErr: states the error case and that both parts are stripped; the exact parts are stated by `ParseStdErrOfProgress`.

=== FILE: bash_scripts.dfy ===
/** The bash scripts tpcds_setup.py writes for generating TPC-DS data with
    `xargs`: one script per cpu count and scale factor, each piping
    `seq 1 <cpu>` into parallel `dsdgen` runs. Writing the files is left
    to the caller; the model produces each file's path and text. */
module BashScripts {
  import opened Wrappers
  import opened Text
  import Naming

  /** The lines every script has: a leading empty line, the `mkdir`, the
      `seq | xargs` pipeline and the fixed `dsdgen` options. */
  function BaseLines(cpu: int, bin: string, dir: string, scale: int): (r: seq<string>)
    ensures |r| == 9
  {
    ["", "mkdir " + dir, "seq 1 " + IntToString(cpu) + " \\",
     "    | xargs -t -P" + IntToString(cpu) + " -I__ \\", "    " + bin + " \\",
     "    -DIR " + dir + " \\", "    -SCALE " + IntToString(scale) + " \\",
     "    -DELIMITER \\| \\", "    -TERMINATE N  \\"]
  }

  /** The seed line when a seed is given, then the parallel lines when more
      than one cpu is used. */
  function OptionalLines(cpu: int, seed: Option<int>): (r: seq<string>)
    ensures |r| == (if seed.Some? then 1 else 0) + (if cpu > 1 then 2 else 0)
  {
    (if seed.Some? then ["    -RNGSEED " + IntToString(seed.value) + " \\"] else [])
    + (if cpu > 1 then ["    -PARALLEL " + IntToString(cpu) + " \\", "    -CHILD __  \\"] else [])
  }

  /** The lines of `dsdgen_bash_text`'s result. */
  function BashLines(cpu: int, bin: string, dir: string, scale: int, seed: Option<int>): (r: seq<string>)
    ensures |r| == 9 + (if seed.Some? then 1 else 0) + (if cpu > 1 then 2 else 0)
  {
    BaseLines(cpu, bin, dir, scale) + OptionalLines(cpu, seed)
  }

  /** `dsdgen_bash_text`: `ValueError` for a scale not in the configured
      TPC scales; otherwise the script, whose data directory (both made and
      passed to `-DIR`) is the scale directory under `dataOut`. */
  function BashText(cpu: int, bin: string, dataOut: string, sep: char, scale: int, seed: Option<int>,
                    tpcScale: seq<int>): (r: Result<string>)
    ensures r.Err? <==> scale !in tpcScale
    ensures r.Err? ==> r.error == ValueError
    ensures r.Ok? ==> |r.value| > 0 && r.value[0] == '\n'
  {
    if scale !in tpcScale then Err(ValueError)
    else
      var lines := BashLines(cpu, bin, Naming.ScaleDir(dataOut, sep, scale), scale, seed);
      assert lines[0] == "" && |lines| > 1;
      assert Join(lines, '\n') == "" + ['\n'] + Join(lines[1..], '\n');
      Ok(Join(lines, '\n'))
  }

  /** An integer's text has no line break. */
  lemma IntNoNewline(n: int)
    ensures '\n' !in IntToString(n)
  {
    var s := IntToString(n);
    forall i | 0 <= i < |s|
      ensures s[i] != '\n'
    {
      assert IsDigit(s[i]) || s[i] == '-';
    }
  }

  /** Read back line by line, the script is exactly its lines, provided the
      binary path and the output directory hold no line break. */
  lemma BashTextLines(cpu: int, bin: string, dataOut: string, sep: char, scale: int, seed: Option<int>,
                      tpcScale: seq<int>)
    requires scale in tpcScale
    requires '\n' !in bin && '\n' !in dataOut && sep != '\n'
    ensures Split(BashText(cpu, bin, dataOut, sep, scale, seed, tpcScale).value, '\n')
            == BashLines(cpu, bin, Naming.ScaleDir(dataOut, sep, scale), scale, seed)
  {
    var dir := Naming.ScaleDir(dataOut, sep, scale);
    var lines := BashLines(cpu, bin, dir, scale, seed);
    var base, opt := BaseLines(cpu, bin, dir, scale), OptionalLines(cpu, seed);
    ScaleDirNoNewline(dataOut, sep, scale);
    BaseLinesNoNewline(cpu, bin, dir, scale);
    OptionalLinesNoNewline(cpu, seed);
    assert forall i :: 0 <= i < |opt| ==> lines[i + 9] == opt[i];
    assert forall i :: 0 <= i < 9 ==> lines[i] == base[i];
    SplitJoin(lines, '\n');
  }

  lemma ScaleDirNoNewline(dataOut: string, sep: char, scale: int)
    requires '\n' !in dataOut && sep != '\n'
    ensures '\n' !in Naming.ScaleDir(dataOut, sep, scale)
  {
    IntNoNewline(scale);
    assert Naming.ScaleTag(scale) == IntToString(scale) + "GB";
  }

  lemma BaseLinesNoNewline(cpu: int, bin: string, dir: string, scale: int)
    requires '\n' !in bin && '\n' !in dir
    ensures forall i :: 0 <= i < 9 ==> '\n' !in BaseLines(cpu, bin, dir, scale)[i]
  {
    BaseLinesNoNewlineLow(cpu, bin, dir, scale);
    BaseLinesNoNewlineHigh(cpu, bin, dir, scale);
  }

  lemma BaseLinesNoNewlineLow(cpu: int, bin: string, dir: string, scale: int)
    requires '\n' !in bin && '\n' !in dir
    ensures forall i :: 0 <= i < 5 ==> '\n' !in BaseLines(cpu, bin, dir, scale)[i]
  {
    IntNoNewline(cpu);
  }

  lemma BaseLinesNoNewlineHigh(cpu: int, bin: string, dir: string, scale: int)
    requires '\n' !in dir
    ensures forall i :: 5 <= i < 9 ==> '\n' !in BaseLines(cpu, bin, dir, scale)[i]
  {
    IntNoNewline(scale);
  }

  lemma OptionalLinesNoNewline(cpu: int, seed: Option<int>)
    ensures forall i :: 0 <= i < |OptionalLines(cpu, seed)| ==> '\n' !in OptionalLines(cpu, seed)[i]
  {
    IntNoNewline(cpu);
    IntNoNewline(if seed.Some? then seed.value else 0);
  }

  const SeedOption: string := "    -RNGSEED "
  const ChildLine: string := "    -CHILD __  \\"

  /** None of the fixed lines looks like an optional one, provided the
      binary path does not itself start with an option dash. */
  lemma BaseLinesNotOptional(cpu: int, bin: string, dir: string, scale: int)
    requires |bin| == 0 || bin[0] != '-'
    ensures var base := BaseLines(cpu, bin, dir, scale);
            forall i :: 0 <= i < |base| ==> !StartsWith(base[i], SeedOption) && base[i] != ChildLine
  {
    var base := BaseLines(cpu, bin, dir, scale);
    FirstLinesNotOptional(cpu, bin, dir, scale);
    Unlike(base[5], 5);
    Unlike(base[6], 5);
    Unlike(base[7], 5);
    Unlike(base[8], 5);
  }

  lemma FirstLinesNotOptional(cpu: int, bin: string, dir: string, scale: int)
    requires |bin| == 0 || bin[0] != '-'
    ensures var base := BaseLines(cpu, bin, dir, scale);
            forall i :: 0 <= i < 5 ==> !StartsWith(base[i], SeedOption) && base[i] != ChildLine
  {
    var base := BaseLines(cpu, bin, dir, scale);
    Unlike(base[0], 0);
    Unlike(base[1], 0);
    Unlike(base[2], 0);
    Unlike(base[3], 4);
    Unlike(base[4], 4);
  }

  /** A line that differs from both optional lines at one position is
      neither. */
  lemma Unlike(l: string, k: nat)
    requires k < |SeedOption| && k < |ChildLine|
    requires k < |l| ==> l[k] != SeedOption[k] && l[k] != ChildLine[k]
    ensures !StartsWith(l, SeedOption) && l != ChildLine
  {
  }

  lemma OptionalLinesPresent(cpu: int, seed: Option<int>)
    ensures var opt := OptionalLines(cpu, seed);
            && ((exists i :: 0 <= i < |opt| && StartsWith(opt[i], SeedOption)) <==> seed.Some?)
            && ((exists i :: 0 <= i < |opt| && opt[i] == ChildLine) <==> cpu > 1)
  {
    var opt := OptionalLines(cpu, seed);
    forall i | 0 <= i < |opt|
      ensures StartsWith(opt[i], SeedOption) ==> seed.Some?
      ensures opt[i] == ChildLine ==> cpu > 1
    {
      if seed.None? {
        assert opt[i][5] == 'P' || opt[i][5] == 'C';
      } else if i == 0 {
        assert opt[i][5] == 'R';
      }
    }
    if seed.Some? {
      assert opt[0][..13] == SeedOption;
    }
    if cpu > 1 {
      assert opt[|opt| - 1] == ChildLine;
    }
  }

  /** The seed line is there exactly when a seed is given, and the
      `-PARALLEL`/`-CHILD` lines exactly when more than one cpu is used,
      provided the binary path does not itself start with an option dash. */
  lemma BashOptionalLines(cpu: int, bin: string, dir: string, scale: int, seed: Option<int>)
    requires |bin| == 0 || bin[0] != '-'
    ensures var lines := BashLines(cpu, bin, dir, scale, seed);
            && ((exists i :: 0 <= i < |lines| && StartsWith(lines[i], SeedOption)) <==> seed.Some?)
            && ((exists i :: 0 <= i < |lines| && lines[i] == ChildLine) <==> cpu > 1)
  {
    var base := BaseLines(cpu, bin, dir, scale);
    var opt := OptionalLines(cpu, seed);
    var lines := BashLines(cpu, bin, dir, scale, seed);
    BaseLinesNotOptional(cpu, bin, dir, scale);
    OptionalLinesPresent(cpu, seed);
    assert forall i :: 9 <= i < |lines| ==> lines[i] == opt[i - 9];
    if exists i :: 0 <= i < |opt| && StartsWith(opt[i], SeedOption) {
      var i :| 0 <= i < |opt| && StartsWith(opt[i], SeedOption);
      assert lines[i + 9] == opt[i];
    }
    if exists i :: 0 <= i < |opt| && opt[i] == ChildLine {
      var i :| 0 <= i < |opt| && opt[i] == ChildLine;
      assert lines[i + 9] == opt[i];
    }
  }

  /** The script file name for one cpu count and scale. */
  function ScriptName(cpu: int, scale: int): string {
    "dsdgen_cpu_" + IntToString(cpu) + "_scale_" + IntToString(scale) + "GB.sh"
  }

  lemma IntNoUnderscore(n: int)
    ensures '_' !in IntToString(n)
  {
    var s := IntToString(n);
    forall i | 0 <= i < |s|
      ensures s[i] != '_'
    {
      assert IsDigit(s[i]) || s[i] == '-';
    }
  }

  /** A script name splits on `_` into its words, the cpu count and the
      scale tag, so the cpu count and scale read back from it. */
  lemma ScriptNameParts(cpu: int, scale: int)
    ensures Split(ScriptName(cpu, scale), '_')
            == ["dsdgen", "cpu", IntToString(cpu), "scale", IntToString(scale) + "GB.sh"]
  {
    var parts := ["dsdgen", "cpu", IntToString(cpu), "scale", IntToString(scale) + "GB.sh"];
    ScriptNameJoin(cpu, scale);
    IntNoUnderscore(cpu);
    ScaleFileNoUnderscore(scale);
    SplitJoin(parts, '_');
  }

  lemma ScaleFileNoUnderscore(scale: int)
    ensures '_' !in IntToString(scale) + "GB.sh"
  {
    IntNoUnderscore(scale);
  }

  lemma ScriptNameJoin(cpu: int, scale: int)
    ensures ScriptName(cpu, scale) == Join(["dsdgen", "cpu", IntToString(cpu), "scale", IntToString(scale) + "GB.sh"], '_')
  {
    var parts := ["dsdgen", "cpu", IntToString(cpu), "scale", IntToString(scale) + "GB.sh"];
    assert parts[1..] == ["cpu", IntToString(cpu), "scale", IntToString(scale) + "GB.sh"];
    JoinFour("cpu", IntToString(cpu), "scale", IntToString(scale) + "GB.sh", '_');
    assert Join(parts, '_') == "dsdgen" + "_" + Join(parts[1..], '_');
  }

  /** Distinct (cpu, scale) pairs get distinct script names, so no script
      overwrites another. */
  lemma ScriptNameInjective(cpu1: int, scale1: int, cpu2: int, scale2: int)
    requires ScriptName(cpu1, scale1) == ScriptName(cpu2, scale2)
    ensures cpu1 == cpu2 && scale1 == scale2
  {
    ScriptNameParts(cpu1, scale1);
    ScriptNameParts(cpu2, scale2);
    var t1 := IntToString(scale1) + "GB.sh";
    var t2 := IntToString(scale2) + "GB.sh";
    assert t1 == t2;
    assert IntToString(scale1) == t1[..|t1| - 5];
    assert IntToString(scale2) == t2[..|t2| - 5];
    IntToStringParses(cpu1);
    IntToStringParses(cpu2);
    IntToStringParses(scale1);
    IntToStringParses(scale2);
  }

  /** The data directory `dsdgen_bash_scripts` writes to: the given one, else
      the persistent disk when it exists, else the local output folder. */
  function DataOut(given: Option<string>, mntExists: bool, mnt: string, local: string): (r: string)
    ensures given.Some? ==> r == given.value
    ensures given.None? ==> r == (if mntExists then mnt else local)
  {
    if given.Some? then given.value else if mntExists then mnt else local
  }

  /** One script file: its path and its text. */
  datatype Script = Script(path: string, text: string)

  /** The script for one cpu count and scale, always seeded with 13. */
  function ScriptFor(src: string, sep: char, bin: string, dataOut: string, cpu: int, scale: int): Script {
    Script(src + [sep] + "tools" + [sep] + ScriptName(cpu, scale),
           Join(BashLines(cpu, bin, Naming.ScaleDir(dataOut, sep, scale), scale, Some(13)), '\n'))
  }

  /** `dsdgen_bash_scripts`: one script per cpu count and per scale, in
      that nested order, each the text of `dsdgen_bash_text` for that pair
      with seed 13; since every scale comes from the scale list, none
      raises. */
  method DsdgenBashScripts(src: string, sep: char, given: Option<string>, mntExists: bool, mnt: string,
                           local: string, tpcCpus: seq<int>, tpcScale: seq<int>)
    returns (r: seq<seq<Script>>)
    ensures |r| == |tpcCpus|
    ensures forall a :: 0 <= a < |r| ==> |r[a]| == |tpcScale|
    ensures forall a, b :: 0 <= a < |tpcCpus| && 0 <= b < |tpcScale| ==>
              var dataOut := DataOut(given, mntExists, mnt, local);
              var bin := src + [sep] + "tools" + [sep] + "dsdgen";
              && r[a][b].path == src + [sep] + "tools" + [sep] + ScriptName(tpcCpus[a], tpcScale[b])
              && BashText(tpcCpus[a], bin, dataOut, sep, tpcScale[b], Some(13), tpcScale) == Ok(r[a][b].text)
  {
    var bin := src + [sep] + "tools" + [sep] + "dsdgen";
    var dataOut := DataOut(given, mntExists, mnt, local);
    r := Grid(tpcCpus, tpcScale, (cpu, scale) => ScriptFor(src, sep, bin, dataOut, cpu, scale));
    forall a, b | 0 <= a < |tpcCpus| && 0 <= b < |tpcScale|
      ensures r[a][b].path == src + [sep] + "tools" + [sep] + ScriptName(tpcCpus[a], tpcScale[b])
      ensures BashText(tpcCpus[a], bin, dataOut, sep, tpcScale[b], Some(13), tpcScale) == Ok(r[a][b].text)
    {
      ScriptForText(src, sep, bin, dataOut, tpcCpus[a], tpcScale[b], tpcScale);
    }
  }

  /** The nested loops over cpu counts and scales: row `a`, column `b` holds
      `f` of the `a`-th cpu count and the `b`-th scale. */
  method Grid<T>(cpus: seq<int>, scales: seq<int>, f: (int, int) -> T) returns (r: seq<seq<T>>)
    ensures |r| == |cpus|
    ensures forall a :: 0 <= a < |r| ==> |r[a]| == |scales|
    ensures forall a, b :: 0 <= a < |cpus| && 0 <= b < |scales| ==> r[a][b] == f(cpus[a], scales[b])
  {
    r := [];
    var a := 0;
    while a < |cpus|
      invariant 0 <= a <= |cpus| && |r| == a
      invariant forall x :: 0 <= x < a ==> |r[x]| == |scales|
      invariant forall x, b :: 0 <= x < a && 0 <= b < |scales| ==> r[x][b] == f(cpus[x], scales[b])
    {
      var row := [];
      var b := 0;
      while b < |scales|
        invariant 0 <= b <= |scales| && |row| == b
        invariant forall y :: 0 <= y < b ==> row[y] == f(cpus[a], scales[y])
      {
        row := row + [f(cpus[a], scales[b])];
        b := b + 1;
      }
      r := r + [row];
      a := a + 1;
    }
  }

  lemma ScriptForText(src: string, sep: char, bin: string, dataOut: string, cpu: int, scale: int, tpcScale: seq<int>)
    requires scale in tpcScale
    ensures ScriptFor(src, sep, bin, dataOut, cpu, scale).path == src + [sep] + "tools" + [sep] + ScriptName(cpu, scale)
    ensures BashText(cpu, bin, dataOut, sep, scale, Some(13), tpcScale) == Ok(ScriptFor(src, sep, bin, dataOut, cpu, scale).text)
  {
  }
}

=== FILE: commands.dfy ===
/** The command lines the setup code hands to the TPC kit binaries (`dsdgen`
    and `dsqgen` for TPC-DS in ds_setup.py, `dbgen` and `qgen` for TPC-H in
    h_setup.py) and the two text edits it makes to kit files (the TPC-H
    makefile and the SQL Server query dialect template). Launching the
    processes is left to the caller; each argv is a sequence of strings. */
module Commands {
  import opened Wrappers
  import opened Text
  import Naming

  /** An integer argument is never one of the option names, which all end
      in a letter. */
  lemma IntNotName(x: int, name: string)
    requires |name| > 0 && !IsDigit(name[|name| - 1])
    ensures IntToString(x) != name
  {
  }

  // ---------------------------------------------------------------------
  // ds_setup.run_dsdgen

  /** The argv every `dsdgen` child shares. */
  function DsdgenBase(dsOutput: string, sep: char, scale: int, seed: Option<int>, validate: Option<bool>): (r: seq<string>)
    ensures |r| == 9 + (if seed.Some? then 2 else 0) + (if validate.Some? then 1 else 0)
    ensures r[..9] == ["./dsdgen", "-DIR", Naming.ScaleDir(dsOutput, sep, scale), "-SCALE", IntToString(scale),
                       "-DELIMITER", "|", "-TERMINATE", "N"]
    ensures seed.Some? ==> r[9] == "-RNGSEED" && r[10] == IntToString(seed.value)
    ensures validate.Some? ==> r[|r| - 1] == "-VALIDATE"
  {
    ["./dsdgen", "-DIR", Naming.ScaleDir(dsOutput, sep, scale), "-SCALE", IntToString(scale),
     "-DELIMITER", "|", "-TERMINATE", "N"]
    + (if seed.Some? then ["-RNGSEED", IntToString(seed.value)] else [])
    + (if validate.Some? then ["-VALIDATE"] else [])
  }

  /** "-RNGSEED" appears exactly when a seed is given, and "-VALIDATE"
      exactly when `validate` is not `None` (so also for the default
      `False`); no other argument can be mistaken for either. */
  lemma DsdgenFlags(dsOutput: string, sep: char, scale: int, seed: Option<int>, validate: Option<bool>)
    ensures "-RNGSEED" in DsdgenBase(dsOutput, sep, scale, seed, validate) <==> seed.Some?
    ensures "-VALIDATE" in DsdgenBase(dsOutput, sep, scale, seed, validate) <==> validate.Some?
  {
    var r := DsdgenBase(dsOutput, sep, scale, seed, validate);
    DsdgenHeadNoFlag(dsOutput, sep, scale, seed, validate);
    if seed.Some? {
      IntNotName(seed.value, "-RNGSEED");
      IntNotName(seed.value, "-VALIDATE");
      assert r[9] == "-RNGSEED";
    }
    if validate.Some? {
      assert r[|r| - 1] == "-VALIDATE";
    }
    if "-RNGSEED" in r {
      var i :| 0 <= i < |r| && r[i] == "-RNGSEED";
      assert i >= 9;
    }
    if "-VALIDATE" in r {
      var i :| 0 <= i < |r| && r[i] == "-VALIDATE";
      assert i >= 9;
    }
  }

  /** The word after "-RNGSEED" reads back as the seed. */
  lemma DsdgenSeed(dsOutput: string, sep: char, scale: int, seed: int, validate: Option<bool>)
    ensures var r := DsdgenBase(dsOutput, sep, scale, Some(seed), validate);
            r[9] == "-RNGSEED" && ParseInt(r[10]) == Some(seed)
  {
    IntToStringParses(seed);
  }

  /** The fixed first nine arguments are neither optional flag. */
  lemma DsdgenHeadNoFlag(dsOutput: string, sep: char, scale: int, seed: Option<int>, validate: Option<bool>)
    ensures var r := DsdgenBase(dsOutput, sep, scale, seed, validate);
            forall i :: 0 <= i < 9 ==> r[i] != "-RNGSEED" && r[i] != "-VALIDATE"
  {
    var dir := Naming.ScaleDir(dsOutput, sep, scale);
    var head := ["./dsdgen", "-DIR", dir, "-SCALE", IntToString(scale), "-DELIMITER", "|", "-TERMINATE", "N"];
    HeadNoFlag(dir, IntToString(scale), head);
    var r := DsdgenBase(dsOutput, sep, scale, seed, validate);
    assert forall i :: 0 <= i < 9 ==> r[i] == r[..9][i];
  }

  lemma HeadNoFlag(dir: string, scaleText: string, head: seq<string>)
    requires |dir| > 0 && dir[|dir| - 1] == 'B' && |scaleText| > 0 && IsDigit(scaleText[|scaleText| - 1])
    requires head == ["./dsdgen", "-DIR", dir, "-SCALE", scaleText, "-DELIMITER", "|", "-TERMINATE", "N"]
    ensures forall i :: 0 <= i < 9 ==> head[i] != "-RNGSEED" && head[i] != "-VALIDATE"
  {
  }

  /** `run_dsdgen` up to the process launches: `ValueError` for a scale not
      in the configured scale factors, otherwise one argv per child
      1..total, where total defaults to the machine's cpu count. */
  function DsdgenArgvs(scale: int, scaleFactors: seq<int>, seed: Option<int>, totalCpu: Option<int>,
                       validate: Option<bool>, cpuCount: int, dsOutput: string, sep: char): (r: Result<seq<seq<string>>>)
    ensures r.Err? <==> scale !in scaleFactors
    ensures r.Err? ==> r.error == ValueError
    ensures r.Ok? ==>
              var total := if totalCpu.Some? then totalCpu.value else cpuCount;
              && |r.value| == (if total > 0 then total else 0)
              && forall n :: 0 <= n < |r.value| ==>
                   r.value[n] == DsdgenBase(dsOutput, sep, scale, seed, validate)
                                 + ["-PARALLEL", IntToString(total), "-CHILD", IntToString(n + 1)]
  {
    if scale !in scaleFactors then Err(ValueError)
    else
      var total := if totalCpu.Some? then totalCpu.value else cpuCount;
      var base := DsdgenBase(dsOutput, sep, scale, seed, validate);
      Ok(seq(if total > 0 then total else 0, n requires 0 <= n => base + ["-PARALLEL", IntToString(total), "-CHILD", IntToString(n + 1)]))
  }

  /** Each child reads back its own number and the total from its argv. */
  lemma DsdgenChildNumbers(scale: int, scaleFactors: seq<int>, seed: Option<int>, totalCpu: Option<int>,
                           validate: Option<bool>, cpuCount: int, dsOutput: string, sep: char, n: int)
    requires scale in scaleFactors
    requires 0 <= n < |DsdgenArgvs(scale, scaleFactors, seed, totalCpu, validate, cpuCount, dsOutput, sep).value|
    ensures var argv := DsdgenArgvs(scale, scaleFactors, seed, totalCpu, validate, cpuCount, dsOutput, sep).value[n];
            && ParseInt(argv[|argv| - 1]) == Some(n + 1)
            && ParseInt(argv[|argv| - 3]) == Some(if totalCpu.Some? then totalCpu.value else cpuCount)
  {
    var total := if totalCpu.Some? then totalCpu.value else cpuCount;
    var argv := DsdgenArgvs(scale, scaleFactors, seed, totalCpu, validate, cpuCount, dsOutput, sep).value[n];
    ChildTail(DsdgenBase(dsOutput, sep, scale, seed, validate), total, n + 1);
    IntAt(argv, |argv| - 1, n + 1);
    IntAt(argv, |argv| - 3, total);
  }

  lemma ChildTail(base: seq<string>, total: int, child: int)
    ensures var argv := base + ["-PARALLEL", IntToString(total), "-CHILD", IntToString(child)];
            argv[|argv| - 1] == IntToString(child) && argv[|argv| - 3] == IntToString(total)
  {
  }

  // ---------------------------------------------------------------------
  // h_setup.run_dbgen and run_qgen

  /** The argv of `dbgen` child `n` of `total`. */
  function DbgenArgv(scale: int, total: int, n: int): seq<string> {
    ["./dbgen", "-vf", "-s", IntToString(scale), "-C", IntToString(total), "-S", IntToString(n)]
  }

  /** `run_dbgen` up to the process launches: `ValueError` for a scale not
      in the configured TPC scales, otherwise one `dbgen` argv for each
      child 1..cpu count. */
  function DbgenArgvs(scale: int, tpcScale: seq<int>, cpuCount: int): (r: Result<seq<seq<string>>>)
    ensures r.Err? <==> scale !in tpcScale
    ensures r.Err? ==> r.error == ValueError
    ensures r.Ok? ==> |r.value| == (if cpuCount > 0 then cpuCount else 0)
    ensures r.Ok? ==> forall n :: 0 <= n < |r.value| ==> r.value[n] == DbgenArgv(scale, cpuCount, n + 1)
  {
    if scale !in tpcScale then Err(ValueError)
    else Ok(seq(if cpuCount > 0 then cpuCount else 0, n requires 0 <= n => DbgenArgv(scale, cpuCount, n + 1)))
  }

  /** A `dbgen` child reads its scale, the total and its own number back off
      its argv, each behind its own option. */
  lemma DbgenArgvParses(scale: int, total: int, n: int)
    ensures var argv := DbgenArgv(scale, total, n);
            && |argv| == 8 && argv[..3] == ["./dbgen", "-vf", "-s"] && argv[4] == "-C" && argv[6] == "-S"
            && ParseInt(argv[3]) == Some(scale) && ParseInt(argv[5]) == Some(total) && ParseInt(argv[7]) == Some(n)
  {
    var argv := DbgenArgv(scale, total, n);
    DbgenArgvShape(scale, total, n);
    IntAt(argv, 3, scale);
    IntAt(argv, 5, total);
    IntAt(argv, 7, n);
  }

  lemma DbgenArgvShape(scale: int, total: int, n: int)
    ensures var argv := DbgenArgv(scale, total, n);
            && |argv| == 8 && argv[..3] == ["./dbgen", "-vf", "-s"] && argv[4] == "-C" && argv[6] == "-S"
            && argv[3] == IntToString(scale) && argv[5] == IntToString(total) && argv[7] == IntToString(n)
  {
  }

  lemma IntAt(argv: seq<string>, i: nat, x: int)
    requires i < |argv| && argv[i] == IntToString(x)
    ensures ParseInt(argv[i]) == Some(x)
  {
    IntToStringParses(x);
  }

  /** `DSS_PATH` for `dbgen`: the scale directory under the TPC-H output. */
  function DssPath(hDataOut: string, sep: char, scale: int): string {
    Naming.ScaleDir(hDataOut, sep, scale)
  }

  /** `run_qgen`'s argv: "./qgen", then "-r <seed>" when a seed is given,
      then the query number last. */
  function QgenArgv(n: int, seed: Option<int>): (r: seq<string>)
    ensures |r| == (if seed.Some? then 4 else 2) && r[0] == "./qgen"
  {
    ["./qgen"] + (if seed.Some? then ["-r", IntToString(seed.value)] else []) + [IntToString(n)]
  }

  /** `qgen` reads the query number from the last argument and the seed
      from behind "-r", which is present exactly when a seed is given. */
  lemma QgenArgvParses(n: int, seed: Option<int>)
    ensures ParseInt(Last(QgenArgv(n, seed))) == Some(n)
    ensures "-r" in QgenArgv(n, seed) <==> seed.Some?
    ensures seed.Some? ==> QgenArgv(n, seed)[1] == "-r" && ParseInt(QgenArgv(n, seed)[2]) == Some(seed.value)
  {
    var r := QgenArgv(n, seed);
    QgenArgvWords(n, seed);
    IntAt(r, |r| - 1, n);
    if seed.Some? {
      IntAt(r, 2, seed.value);
    }
  }

  lemma QgenArgvWords(n: int, seed: Option<int>)
    ensures Last(QgenArgv(n, seed)) == IntToString(n)
    ensures "-r" in QgenArgv(n, seed) <==> seed.Some?
    ensures seed.Some? ==> QgenArgv(n, seed)[1] == "-r" && QgenArgv(n, seed)[2] == IntToString(seed.value)
  {
    var r := QgenArgv(n, seed);
    IntNotName(n, "-r");
    if seed.Some? {
      assert r == ["./qgen", "-r", IntToString(seed.value), IntToString(n)];
    } else {
      assert r == ["./qgen", IntToString(n)];
    }
  }

  // ---------------------------------------------------------------------
  // ds_setup.dsqgen

  /** The keyword arguments of `dsqgen`, each `None` when not passed. The
      `Y|N` options are booleans; the `<n>` options that the source passes
      through `str()` are integers; the rest are text. */
  datatype QgenOptions = QgenOptions(
    file: Option<string>, verbose: Option<bool>, help: Option<bool>, outputDir: Option<string>,
    quiet: Option<bool>, streams: Option<int>, input: Option<string>, scale: Option<int>,
    log: Option<string>, qualify: Option<bool>, distributions: Option<string>, pathSep: Option<string>,
    rngSeed: Option<int>, release: Option<bool>, template: Option<string>, count: Option<string>,
    debug: Option<bool>, filter: Option<bool>, dialect: Option<string>, directory: Option<string>)

  const NoOptions := QgenOptions(None, None, None, None, None, None, None, None, None, None,
                                 None, None, None, None, None, None, None, None, None, None)

  /** What a command line says about one option: not given, given as a bare
      flag, or given with the value that follows it. */
  datatype Seen = Absent | Flag | Value(text: string)

  /** The argument words for options in the fixed order of `table`, which
      pairs each option name with whether it takes a value. */
  function Emit(table: seq<(string, bool)>, args: seq<Seen>): seq<string>
    requires |args| == |table|
    decreases |table|
  {
    if |table| == 0 then []
    else
      (match args[0]
       case Absent => []
       case Flag => [table[0].0]
       case Value(v) => [table[0].0, v])
      + Emit(table[1..], args[1..])
  }

  /** Reading options back off a command line, given the fixed order of
      option names and whether each takes a value. */
  function Parse(words: seq<string>, table: seq<(string, bool)>): Option<seq<Seen>>
    decreases |table|
  {
    if |table| == 0 then (if |words| == 0 then Some([]) else None)
    else if |words| > 0 && words[0] == table[0].0 then
      if table[0].1 then
        if |words| < 2 then None
        else
          match Parse(words[2..], table[1..])
          case None => None
          case Some(rest) => Some([Value(words[1])] + rest)
      else
        match Parse(words[1..], table[1..])
        case None => None
        case Some(rest) => Some([Flag] + rest)
    else
      match Parse(words, table[1..])
      case None => None
      case Some(rest) => Some([Absent] + rest)
  }

  /** Options given as the table says: a value exactly for the options that
      take one. */
  predicate Conforms(table: seq<(string, bool)>, args: seq<Seen>) {
    && |args| == |table|
    && forall i :: 0 <= i < |args| ==> (args[i].Flag? ==> !table[i].1) && (args[i].Value? ==> table[i].1)
  }

  predicate DistinctNames(table: seq<(string, bool)>) {
    forall i, j :: 0 <= i < j < |table| ==> table[i].0 != table[j].0
  }

  /** A non-empty emission starts with the name of some later option. */
  lemma {:induction false} EmitStartsWithName(table: seq<(string, bool)>, args: seq<Seen>)
    requires |args| == |table| && |Emit(table, args)| > 0
    ensures exists k :: 0 <= k < |table| && Emit(table, args)[0] == table[k].0
    decreases |table|
  {
    if args[0].Absent? {
      assert Emit(table, args) == Emit(table[1..], args[1..]);
      EmitStartsWithName(table[1..], args[1..]);
      var k :| 0 <= k < |table[1..]| && Emit(table[1..], args[1..])[0] == table[1..][k].0;
      assert Emit(table, args)[0] == table[k + 1].0;
    } else {
      assert Emit(table, args)[0] == table[0].0;
    }
  }

  /** With distinct option names in a fixed order, the command line is read
      back exactly: which options were given, and their values. */
  lemma {:induction false} ParseEmit(table: seq<(string, bool)>, args: seq<Seen>)
    requires Conforms(table, args) && DistinctNames(table)
    ensures Parse(Emit(table, args), table) == Some(args)
    decreases |table|
  {
    if |table| > 0 {
      var rest := Emit(table[1..], args[1..]);
      TablesTail(table, args);
      ParseEmit(table[1..], args[1..]);
      assert [args[0]] + args[1..] == args;
      match args[0]
      case Absent =>
        assert Emit(table, args) == rest;
        if |rest| > 0 {
          LaterNameDiffers(table, args);
        }
      case Flag =>
        assert Emit(table, args) == [table[0].0] + rest;
        assert Emit(table, args)[1..] == rest;
      case Value(v) =>
        assert Emit(table, args) == [table[0].0, v] + rest;
        assert Emit(table, args)[2..] == rest;
    }
  }

  lemma TablesTail(table: seq<(string, bool)>, args: seq<Seen>)
    requires |table| > 0 && Conforms(table, args) && DistinctNames(table)
    ensures Conforms(table[1..], args[1..]) && DistinctNames(table[1..])
  {
    forall i | 0 <= i < |args[1..]|
      ensures (args[1..][i].Flag? ==> !table[1..][i].1) && (args[1..][i].Value? ==> table[1..][i].1)
    {
      assert args[1..][i] == args[i + 1] && table[1..][i] == table[i + 1];
    }
    forall i, j | 0 <= i < j < |table[1..]|
      ensures table[1..][i].0 != table[1..][j].0
    {
      assert table[1..][i] == table[i + 1] && table[1..][j] == table[j + 1];
    }
  }

  /** What the later options emit never starts with the first option's
      name. */
  lemma LaterNameDiffers(table: seq<(string, bool)>, args: seq<Seen>)
    requires |table| > 0 && |args| == |table| && DistinctNames(table)
    requires |Emit(table[1..], args[1..])| > 0
    ensures Emit(table[1..], args[1..])[0] != table[0].0
  {
    var rest := Emit(table[1..], args[1..]);
    EmitStartsWithName(table[1..], args[1..]);
    var k :| 0 <= k < |table[1..]| && rest[0] == table[1..][k].0;
    assert rest[0] == table[k + 1].0;
  }

  /** The option names of `dsqgen` in the order it emits them, and whether
      each takes a value. */
  const QgenTable: seq<(string, bool)> := [
    ("-FILE", true), ("-VERBOSE", false), ("-HELP", false), ("-OUTPUT_DIR", true), ("-QUIET", false),
    ("-STREAM", true), ("-INPUT", true), ("-SCALE", true), ("-LOG", true), ("-QUALIFY", false),
    ("-DISTRIBUTIONS", true), ("-PATH_SEP", true), ("-RNGSEED", true), ("-RELEASE", false),
    ("-TEMPLATE", true), ("-COUNT", true), ("-DEBUG", false), ("-FILTER", false),
    ("-DIALECT", true), ("-DIRECTORY", true)]

  function TextArg(v: Option<string>): (r: Seen)
    ensures !r.Flag?
  {
    if v.Some? then Value(v.value) else Absent
  }

  function IntArg(x: Option<int>): (r: Seen)
    ensures !r.Flag?
  {
    if x.Some? then Value(IntToString(x.value)) else Absent
  }

  function FlagArg(given: bool): (r: Seen)
    ensures !r.Value?
  {
    if given then Flag else Absent
  }

  /** What `dsqgen` puts on the command line for keyword argument `i` in
      table order: a flag whenever its argument is not `None`, whatever its
      value, except "-QUALIFY", which needs `qualify == True`; integers as
      `str()` of the value. */
  function QgenArg(o: QgenOptions, i: nat): (r: Seen)
    requires i < |QgenTable|
    ensures r.Flag? ==> i in FlagSlots
    ensures r.Value? ==> i !in FlagSlots
  {
    if i == 0 then TextArg(o.file)
    else if i == 1 then FlagArg(o.verbose.Some?)
    else if i == 2 then FlagArg(o.help.Some?)
    else if i == 3 then TextArg(o.outputDir)
    else if i == 4 then FlagArg(o.quiet.Some?)
    else if i == 5 then IntArg(o.streams)
    else if i == 6 then TextArg(o.input)
    else if i == 7 then IntArg(o.scale)
    else if i == 8 then TextArg(o.log)
    else if i == 9 then FlagArg(o.qualify == Some(true))
    else if i == 10 then TextArg(o.distributions)
    else if i == 11 then TextArg(o.pathSep)
    else if i == 12 then IntArg(o.rngSeed)
    else if i == 13 then FlagArg(o.release.Some?)
    else if i == 14 then TextArg(o.template)
    else if i == 15 then TextArg(o.count)
    else if i == 16 then FlagArg(o.debug.Some?)
    else if i == 17 then FlagArg(o.filter.Some?)
    else if i == 18 then TextArg(o.dialect)
    else TextArg(o.directory)
  }

  /** The positions in `QgenTable` of the options that take no value. */
  const FlagSlots: set<nat> := {1, 2, 4, 9, 13, 16, 17}

  lemma QgenTableFlags()
    ensures forall i :: 0 <= i < |QgenTable| ==> (QgenTable[i].1 <==> i !in FlagSlots)
  {
    forall i | 0 <= i < |QgenTable|
      ensures QgenTable[i].1 <==> i !in FlagSlots
    {
      if i < 10 {
        assert i in FlagSlots <==> i == 1 || i == 2 || i == 4 || i == 9;
      } else {
        assert i in FlagSlots <==> i == 13 || i == 16 || i == 17;
      }
    }
  }

  function QgenArgs(o: QgenOptions): (r: seq<Seen>)
    ensures Conforms(QgenTable, r)
  {
    QgenTableFlags();
    seq(|QgenTable|, i requires 0 <= i < |QgenTable| => QgenArg(o, i))
  }

  /** `dsqgen`'s argv: "./dsqgen" followed by the given options in their
      fixed order. */
  function DsqgenArgv(o: QgenOptions): (r: seq<string>)
    ensures |r| >= 1 && r[0] == "./dsqgen"
  {
    ["./dsqgen"] + Emit(QgenTable, QgenArgs(o))
  }

  lemma QgenNamesDistinct()
    ensures DistinctNames(QgenTable)
  {
    forall i, j | 0 <= i < j < |QgenTable|
      ensures QgenTable[i].0 != QgenTable[j].0
    {
      if i < 4 {
        NamesDifferLow(i, j);
      } else if i < 9 {
        NamesDifferMid(i, j);
      } else {
        NamesDifferHigh(i, j);
      }
    }
  }

  lemma NamesDifferLow(i: nat, j: nat)
    requires i < 4 && i < j < |QgenTable|
    ensures QgenTable[i].0 != QgenTable[j].0
  {
  }

  lemma NamesDifferMid(i: nat, j: nat)
    requires 4 <= i < 9 && i < j < |QgenTable|
    ensures QgenTable[i].0 != QgenTable[j].0
  {
  }

  lemma NamesDifferHigh(i: nat, j: nat)
    requires 9 <= i < j < |QgenTable|
    ensures QgenTable[i].0 != QgenTable[j].0
  {
  }

  /** Reading a `dsqgen` command line back gives each keyword argument as
      it was passed. */
  lemma DsqgenRoundTrip(o: QgenOptions)
    ensures Parse(DsqgenArgv(o)[1..], QgenTable) == Some(QgenArgs(o))
  {
    QgenNamesDistinct();
    ParseEmit(QgenTable, QgenArgs(o));
    assert DsqgenArgv(o)[1..] == Emit(QgenTable, QgenArgs(o));
  }

  /** How the arguments read back: text options with their value, integer
      options as the integer, flags present exactly when passed (even as
      `False`), "-QUALIFY" exactly when `qualify` is true. */
  lemma QgenArgMeaning(o: QgenOptions)
    ensures QgenArg(o, 1) == Flag <==> o.verbose.Some?
    ensures QgenArg(o, 5).Value? <==> o.streams.Some?
    ensures o.streams.Some? ==> ParseInt(QgenArg(o, 5).text) == Some(o.streams.value)
    ensures QgenArg(o, 9) == Flag <==> o.qualify == Some(true)
    ensures QgenArg(o, 15).Value? <==> o.count.Some?
    ensures o.count.Some? ==> QgenArg(o, 15).text == o.count.value
    ensures QgenArg(o, 19).Value? <==> o.directory.Some?
  {
    if o.streams.Some? {
      IntToStringParses(o.streams.value);
    }
  }

  /** With every argument `None` the command is just the binary. */
  lemma DsqgenDefaults()
    ensures DsqgenArgv(NoOptions) == ["./dsqgen"]
  {
    var args := QgenArgs(NoOptions);
    assert forall i :: 0 <= i < |args| ==> args[i] == Absent;
    EmitNothing(QgenTable, args);
  }

  lemma {:induction false} EmitNothing(table: seq<(string, bool)>, args: seq<Seen>)
    requires |args| == |table|
    requires forall i :: 0 <= i < |args| ==> args[i] == Absent
    ensures Emit(table, args) == []
    decreases |table|
  {
    if |table| > 0 {
      EmitNothing(table[1..], args[1..]);
    }
  }

  // ---------------------------------------------------------------------
  // h_setup.create_makefile

  /** The substrings `create_makefile` looks for, in dict order. */
  const MakefileKeys: seq<string> := ["CC      =", "DATABASE=", "MACHINE =", "WORKLOAD ="]

  /** The replacement line for each key, in the same order. */
  function MakefileValues(compiler: string, database: string, machine: string, workload: string): (r: seq<string>)
    ensures |r| == |MakefileKeys|
  {
    ["CC       = " + compiler, "DATABASE = " + database, "MACHINE  = " + machine, "WORKLOAD = " + workload]
  }

  /** The positions of the keys `line` holds, in increasing order. */
  function HeldKeys(line: string, keys: seq<string>): (r: seq<nat>)
    ensures forall i :: 0 <= i < |r| ==> r[i] < |keys|
    ensures forall i, j :: 0 <= i < j < |r| ==> r[i] < r[j]
    ensures forall j :: 0 <= j < |keys| ==> (j in r <==> Contains(line, keys[j]))
    decreases |keys|
  {
    if |keys| == 0 then []
    else
      var n := |keys| - 1;
      var front := HeldKeys(line, keys[..n]);
      assert forall j :: 0 <= j < n ==> keys[..n][j] == keys[j];
      front + (if Contains(line, keys[n]) then [n] else [])
  }

  /** The replacement lines of the keys found in `line`: one per key held,
      in key order. */
  function Hits(line: string, keys: seq<string>, values: seq<string>): (r: seq<string>)
    requires |values| == |keys|
    ensures |r| == |HeldKeys(line, keys)|
    ensures forall i :: 0 <= i < |r| ==> r[i] == values[HeldKeys(line, keys)[i]]
    ensures |r| == 0 <==> forall j :: 0 <= j < |keys| ==> !Contains(line, keys[j])
    decreases |keys|
  {
    if |keys| == 0 then []
    else
      var n := |keys| - 1;
      var front := Hits(line, keys[..n], values[..n]);
      HitsStep(line, keys, values, front);
      front + (if Contains(line, keys[n]) then [values[n]] else [])
  }

  /** One more key extends the hits of the keys before it. */
  lemma HitsStep(line: string, keys: seq<string>, values: seq<string>, front: seq<string>)
    requires |values| == |keys| > 0
    requires |front| == |HeldKeys(line, keys[..|keys| - 1])|
    requires forall i :: 0 <= i < |front| ==> front[i] == values[..|keys| - 1][HeldKeys(line, keys[..|keys| - 1])[i]]
    ensures var n := |keys| - 1;
            var r := front + (if Contains(line, keys[n]) then [values[n]] else []);
            && |r| == |HeldKeys(line, keys)|
            && (forall i :: 0 <= i < |r| ==> r[i] == values[HeldKeys(line, keys)[i]])
  {
    var n := |keys| - 1;
    var held := HeldKeys(line, keys);
    var prev := HeldKeys(line, keys[..n]);
    assert held == prev + (if Contains(line, keys[n]) then [n] else []);
    forall i | 0 <= i < |front|
      ensures front[i] == values[held[i]]
    {
      assert held[i] == prev[i] < n;
    }
  }

  /** `line` holds none of the keys. */
  predicate NoKey(line: string) {
    forall j :: 0 <= j < |MakefileKeys| ==> !Contains(line, MakefileKeys[j])
  }

  /** One line of makefile.suite, read with its line break: without a key
      it is kept (minus the line break); otherwise it is replaced by one
      line per key it holds, in dict order. */
  function MakefileLine(line: string, values: seq<string>): (r: seq<string>)
    requires |values| == |MakefileKeys|
    ensures |r| >= 1
    ensures NoKey(StripChars(line, Newline)) ==> r == [StripChars(line, Newline)]
    ensures !NoKey(StripChars(line, Newline)) ==>
              var held := HeldKeys(StripChars(line, Newline), MakefileKeys);
              && |r| == |held|
              && forall i :: 0 <= i < |r| ==> r[i] == values[held[i]]
  {
    var l := StripChars(line, Newline);
    var hits := Hits(l, MakefileKeys, values);
    if |hits| == 0 then [l] else hits
  }

  /** The lines `create_makefile` writes to `makefile`, in order. */
  function Makefile(lines: seq<string>, values: seq<string>): (r: seq<string>)
    requires |values| == |MakefileKeys|
    ensures |r| >= |lines|
  {
    if |lines| == 0 then [] else MakefileLine(lines[0], values) + Makefile(lines[1..], values)
  }

  /** The makefile is built line by line: the output for a concatenation is
      the output for each part, in order. */
  lemma {:induction false} MakefileAppend(a: seq<string>, b: seq<string>, values: seq<string>)
    requires |values| == |MakefileKeys|
    ensures Makefile(a + b, values) == Makefile(a, values) + Makefile(b, values)
    decreases |a|
  {
    if |a| > 0 {
      TailAppend(a, b);
      MakefileAppend(a[1..], b, values);
      ConcatAssoc(MakefileLine(a[0], values), Makefile(a[1..], values), Makefile(b, values));
    } else {
      assert a + b == b;
    }
  }

  /** The lines with their line breaks stripped. */
  function Chomped(lines: seq<string>): (r: seq<string>)
    ensures |r| == |lines|
    ensures forall i :: 0 <= i < |lines| ==> r[i] == StripChars(lines[i], Newline)
    decreases |lines|
  {
    if |lines| == 0 then []
    else
      assert forall i :: 1 <= i < |lines| ==> lines[1..][i - 1] == lines[i];
      [StripChars(lines[0], Newline)] + Chomped(lines[1..])
  }

  /** A makefile without any of the keys is copied line for line. */
  lemma {:induction false} MakefileUntouched(lines: seq<string>, values: seq<string>)
    requires |values| == |MakefileKeys|
    requires forall i :: 0 <= i < |lines| ==> NoKey(StripChars(lines[i], Newline))
    ensures Makefile(lines, values) == Chomped(lines)
    decreases |lines|
  {
    if |lines| > 0 {
      var rest := lines[1..];
      assert forall i :: 0 <= i < |rest| ==> rest[i] == lines[i + 1];
      MakefileUntouched(rest, values);
      assert MakefileLine(lines[0], values) == [StripChars(lines[0], Newline)];
    }
  }

  // ---------------------------------------------------------------------
  // ds_setup.sqlserver_defines

  const EndMarker: string := "define _END"
  const EndDefine: string := "define _END = \"\";\n"

  /** `modified()`: some line of the template already defines `_END`. */
  predicate Modified(content: string) {
    exists i :: 0 <= i < |Split(content, '\n')| && Contains(Split(content, '\n')[i], EndMarker)
  }

  /** `sqlserver_defines` on the template's content: the definition is
      appended unless a line already holds it. */
  function SqlServerDefines(content: string): (r: string)
    ensures Modified(content) ==> r == content
    ensures !Modified(content) ==> |r| > |content| && r[..|content|] == content && Modified(r)
  {
    if Modified(content) then content
    else
      AppendedDefines(content);
      content + EndDefine
  }

  /** Splitting text extended by separator-free text extends the last
      piece. */
  lemma {:induction false} SplitExtendLast(a: string, b: string, sep: char)
    requires sep !in b
    ensures var p := Split(a, sep);
            Split(a + b, sep) == p[..|p| - 1] + [Last(p) + b]
    decreases |a|
  {
    if sep !in a {
      assert sep !in a + b;
      SplitNoSep(a, sep);
      SplitNoSep(a + b, sep);
    } else {
      var k :| 0 <= k < |a| && a[k] == sep;
      var x, y := a[..k], a[k + 1..];
      assert a == x + [sep] + y;
      assert a + b == x + [sep] + (y + b);
      SplitAppend(x, y, sep);
      SplitAppend(x, y + b, sep);
      SplitExtendLast(y, b, sep);
      ExtendLastOfConcat(Split(x, sep), Split(y, sep), b);
    }
  }

  lemma ExtendLastOfConcat(px: seq<string>, q: seq<string>, b: string)
    requires |q| > 0
    ensures var p := px + q;
            p[..|p| - 1] + [Last(p) + b] == px + (q[..|q| - 1] + [Last(q) + b])
  {
    var p := px + q;
    assert p[..|p| - 1] == px + q[..|q| - 1];
  }

  lemma AppendedDefines(content: string)
    ensures Modified(content + EndDefine)
  {
    var d := "define _END = \"\";";
    assert EndDefine == d + ['\n'] + "";
    assert content + EndDefine == (content + d) + ['\n'] + "";
    SplitAppend(content + d, "", '\n');
    SplitExtendLast(content, d, '\n');
    var p := Split(content, '\n');
    var lines := Split(content + EndDefine, '\n');
    var last := Last(p) + d;
    assert lines == p[..|p| - 1] + [last] + [""];
    assert lines[|p| - 1] == last;
    assert last[|Last(p)|..|Last(p)| + |EndMarker|] == EndMarker;
    assert OccursAt(last, EndMarker, |Last(p)|);
  }

  /** Running `sqlserver_defines` again appends nothing more. */
  lemma SqlServerDefinesOnce(content: string)
    ensures SqlServerDefines(SqlServerDefines(content)) == SqlServerDefines(content)
  {
    AppendedDefines(content);
  }
}

=== FILE: compare.dfy ===
/** Result bookkeeping around the BigQuery/Snowflake comparison: reading the
    query number back out of a result-file name, and the attribute snapshot
    a comparison run records about itself. */
module Compare {
  import opened Wrappers
  import opened Text
  import TableNames

  /** `compare.splitter`: the last `_`-token of the second-to-last
      `.`-segment of a path; a path without a dot raises `IndexError`. */
  function ResultNumber(fp: string): (r: Result<string>)
    ensures r.Err? <==> '.' !in fp
    ensures r.Ok? ==> '.' !in r.value && '_' !in r.value
  {
    var x := Split(fp, '.');
    TableNames.SplitSingle(fp, '.');
    if |x| < 2 then Err(IndexError)
    else
      var y := Split(x[|x| - 2], '_');
      TableNames.SplitPiecesAvoid(x[|x| - 2], '_', '.');
      Ok(Last(y))
  }

  /** A result file named `<stem>_<n>.<ext>` gives back `n`, whatever
      directory, dots included, comes before it. */
  lemma ResultNumberOfName(dir: string, stem: string, n: string, ext: string)
    requires '.' !in stem && '.' !in n && '_' !in n && '.' !in ext
    ensures ResultNumber(dir + stem + "_" + n + "." + ext) == Ok(n)
  {
    var base := stem + "_" + n;
    var path := dir + base + "." + ext;
    assert path == dir + stem + "_" + n + "." + ext;
    if '.' in dir {
      var i := LastDot(dir);
      var p := dir[i + 1..];
      var d := dir[..i];
      assert dir == d + ['.'] + p;
      DottedPath(path, d, p, base, ext);
      NumberOfSegment(path, p, stem, n);
    } else {
      TailSegments(dir, base, ext);
      NumberOfSegment(path, dir, stem, n);
    }
  }

  lemma DottedPath(path: string, d: string, p: string, base: string, ext: string)
    requires '.' !in p && '.' !in base && '.' !in ext
    requires path == d + ['.'] + p + base + "." + ext
    ensures var x := Split(path, '.'); |x| >= 2 && x[|x| - 2] == p + base
  {
    assert path == d + ['.'] + (p + base + "." + ext);
    DottedSegments(d, p, base, ext);
  }

  /** When the second-to-last `.`-segment ends in `_<n>`, the number is
      `n`. */
  lemma NumberOfSegment(path: string, p: string, stem: string, n: string)
    requires '_' !in n
    requires var x := Split(path, '.'); |x| >= 2 && x[|x| - 2] == p + (stem + "_" + n)
    ensures ResultNumber(path) == Ok(n)
  {
    ConcatAssoc(p, stem + "_", n);
    ConcatAssoc(p, stem, "_");
    assert p + (stem + "_" + n) == (p + stem) + ['_'] + n;
    LastPieceAfterSeparator(p + stem, n, '_');
    SplitNoSep(n, '_');
  }

  /** Behind a dot, the pieces of the final name come last. */
  lemma DottedSegments(d: string, p: string, base: string, ext: string)
    requires '.' !in p && '.' !in base && '.' !in ext
    ensures var x := Split(d + ['.'] + (p + base + "." + ext), '.');
            |x| >= 2 && x[|x| - 2] == p + base
  {
    SplitAppend(d, p + base + "." + ext, '.');
    TailSegments(p, base, ext);
  }

  /** The position of the last dot. */
  function LastDot(s: string): (i: nat)
    requires '.' in s
    ensures i < |s| && s[i] == '.' && '.' !in s[i + 1..]
  {
    if s[|s| - 1] == '.' then |s| - 1
    else
      var i := LastDot(s[..|s| - 1]);
      assert s[i + 1..] == s[..|s| - 1][i + 1..] + [s[|s| - 1]];
      i
  }

  /** A dot-free base and extension split into exactly those two pieces. */
  lemma NameSegments(base: string, ext: string)
    requires '.' !in base && '.' !in ext
    ensures Split(base + "." + ext, '.') == [base, ext]
  {
    assert base + "." + ext == base + ['.'] + ext;
    SplitAppend(base, ext, '.');
    SplitNoSep(base, '.');
    SplitNoSep(ext, '.');
  }

  /** A dot-free directory tail glued to the base name still leaves the base
      as the second-to-last piece. */
  lemma TailSegments(rest: string, base: string, ext: string)
    requires '.' !in rest && '.' !in base && '.' !in ext
    ensures Split(rest + base + "." + ext, '.') == [rest + base, ext]
  {
    assert rest + base + "." + ext == (rest + base) + "." + ext;
    NameSegments(rest + base, ext);
  }

  /** Attributes `values()` never reports. */
  const SkipAttributes: seq<string> := ["result_bq", "result_sf"]

  /** An attribute `values()` reports: not private, not a raw result frame. */
  predicate IsReported(k: string) {
    |k| > 0 && k[0] != '_' && k !in SkipAttributes
  }

  /** `QueryCompare.values` over the instance dictionary, given as its
      (name, value) items in order. An empty attribute name makes `k[0]`
      raise `IndexError`. */
  function Values<V>(attrs: seq<(string, V)>): (r: Result<seq<(string, V)>>)
    ensures r.Err? <==> exists i :: 0 <= i < |attrs| && attrs[i].0 == ""
    ensures r.Ok? ==> |r.value| <= |attrs|
    ensures r.Ok? ==> forall i :: 0 <= i < |r.value| ==> r.value[i] in attrs && IsReported(r.value[i].0)
    ensures r.Ok? ==> forall i :: 0 <= i < |attrs| && IsReported(attrs[i].0) ==> attrs[i] in r.value
  {
    if |attrs| == 0 then Ok([])
    else
      var k := attrs[0].0;
      if |k| == 0 then Err(IndexError)
      else
        match Values(attrs[1..])
        case Err(e) => Err(e)
        case Ok(rest) =>
          Ok((if k[0] != '_' && k !in SkipAttributes then [attrs[0]] else []) + rest)
  }
}

=== FILE: ds_refresh.dfy ===
/** The TPC-DS refresh script ds_refresh.py: it maps the `s_*` update files
    of a `dsdgen` update directory to table names and prints one INSERT per
    data line. The directory listing and each file's lines are inputs; the
    printed lines are returned. */
module DsRefresh {
  import opened Wrappers
  import opened Text

  const Suffix: string := "_0.dat"
  const Prefix: string := "s_"

  /** Where Python's `x[:stop]` ends for a string of length `len`: a
      negative stop counts from the end, and both ends are clamped. */
  function SliceStop(len: nat, stop: int): (r: nat)
    ensures r <= len
    ensures 0 <= stop <= len ==> r == stop
  {
    if stop < 0 then (if len + stop < 0 then 0 else len + stop)
    else if stop > len then len
    else stop
  }

  /** `file[:len(file) - len(SUFFIX)]`: the name with its last six
      characters cut off, whatever they are. */
  function TableKey(file: string): (r: string)
    ensures |r| <= |file| && r == file[..|r|]
  {
    file[..SliceStop(|file|, |file| - |Suffix|)]
  }

  /** The key of any name with a six-character ending is the rest: the
      ending is not checked against "_0.dat". */
  lemma TableKeyOfEnding(table: string, ending: string)
    requires |ending| == |Suffix|
    ensures TableKey(table + ending) == table
  {
    assert (table + ending)[..|table|] == table;
  }

  /** A name shorter than the suffix is cut by the negative stop: four
      characters keep their first two. */
  lemma TableKeyShort(file: string)
    requires |file| < |Suffix|
    ensures TableKey(file) == file[..if 2 * |file| < |Suffix| then 0 else 2 * |file| - |Suffix|]
  {
  }

  /** Whether a file is an update file of some table. */
  predicate Mapped(file: string) {
    StartsWith(TableKey(file), Prefix)
  }

  /** The keys of an association list are distinct. */
  predicate DistinctKeys(m: seq<(string, nat)>) {
    forall e1, e2 :: 0 <= e1 < e2 < |m| ==> m[e1].0 != m[e2].0
  }

  /** The table key of each listed file, or `None` for a file that is not
      mapped. */
  function MappedKeys(names: seq<string>): (r: seq<Option<string>>)
    ensures |r| == |names|
    ensures forall j :: 0 <= j < |names| ==> (r[j].Some? <==> Mapped(names[j]))
    ensures forall j :: 0 <= j < |names| && r[j].Some? ==> r[j].value == TableKey(names[j])
  {
    seq(|names|, j requires 0 <= j < |names| => if Mapped(names[j]) then Some(TableKey(names[j])) else None)
  }

  /** The dict built by `d[k] = j` for each position `j` holding a key `k`,
      as an association list in first-insertion order. */
  function Assoc(ks: seq<Option<string>>): (r: seq<(string, nat)>)
    ensures DistinctKeys(r)
    ensures forall e :: 0 <= e < |r| ==> r[e].1 < |ks| && ks[r[e].1] == Some(r[e].0)
    decreases |ks|
  {
    if |ks| == 0 then []
    else
      var n := |ks| - 1;
      var m := Assoc(ks[..n]);
      assert forall e :: 0 <= e < |m| ==> ks[..n][m[e].1] == ks[m[e].1];
      if ks[n].None? then m else Put(m, ks[n].value, n)
  }

  /** `FILES`: the table keys of the mapped files in the order they were
      first seen, each with the position in the listing of the file it maps
      to; a later file with the same key replaces the earlier one in place. */
  function FileMap(names: seq<string>): (r: seq<(string, nat)>)
    ensures DistinctKeys(r)
    ensures forall e :: 0 <= e < |r| ==> r[e].1 < |names| && Mapped(names[r[e].1]) && TableKey(names[r[e].1]) == r[e].0
  {
    Assoc(MappedKeys(names))
  }

  /** The position of `key` in an association list, if it is there. */
  function Find(m: seq<(string, nat)>, key: string): (r: Option<nat>)
    ensures r.Some? ==> r.value < |m| && m[r.value].0 == key
    ensures r.None? ==> forall e :: 0 <= e < |m| ==> m[e].0 != key
    decreases |m|
  {
    if |m| == 0 then None
    else if Last(m).0 == key then Some(|m| - 1)
    else Find(m[..|m| - 1], key)
  }

  predicate HasKey(m: seq<(string, nat)>, key: string) {
    Find(m, key).Some?
  }

  /** `d[key] = v` on an ordered association list: the entry of `key` is
      replaced in place, or appended when there is none. */
  function Put(m: seq<(string, nat)>, key: string, v: nat): (r: seq<(string, nat)>)
    requires DistinctKeys(m)
    ensures DistinctKeys(r)
    ensures |r| == |m| || r == m + [(key, v)]
    ensures |r| >= |m|
    ensures forall e :: 0 <= e < |r| ==> (r[e] == (key, v) || (e < |m| && r[e] == m[e] && m[e].0 != key))
    ensures forall e :: 0 <= e < |m| && m[e].0 != key ==> r[e] == m[e]
  {
    match Find(m, key)
    case Some(e) => m[e := (key, v)]
    case None => m + [(key, v)]
  }

  lemma PutHasKey(m: seq<(string, nat)>, key: string, v: nat, k: string)
    requires DistinctKeys(m)
    requires k == key || HasKey(m, k)
    ensures HasKey(Put(m, key, v), k)
  {
    var r := Put(m, key, v);
    if k == key {
      match Find(m, key)
      case Some(e) => assert r[e].0 == k;
      case None => assert r[|m|].0 == k;
    } else {
      var e := Find(m, k).value;
      assert r[e].0 == k;
    }
    if Find(r, k).None? {
      assert false;
    }
  }

  /** Every key in the list is in the dict. */
  lemma {:induction false} AssocComplete(ks: seq<Option<string>>)
    ensures forall j :: 0 <= j < |ks| && ks[j].Some? ==> HasKey(Assoc(ks), ks[j].value)
    decreases |ks|
  {
    if |ks| > 0 {
      var n := |ks| - 1;
      var init := ks[..n];
      AssocComplete(init);
      forall j | 0 <= j < |ks| && ks[j].Some?
        ensures HasKey(Assoc(ks), ks[j].value)
      {
        if j < n {
          assert init[j] == ks[j];
        }
        AssocKeepsKey(ks, ks[j].value);
      }
    }
  }

  /** A key already in the dict, or the one just put, is in the dict after
      the next position. */
  lemma AssocKeepsKey(ks: seq<Option<string>>, k: string)
    requires |ks| > 0
    requires ks[|ks| - 1] == Some(k) || HasKey(Assoc(ks[..|ks| - 1]), k)
    ensures HasKey(Assoc(ks), k)
  {
    var n := |ks| - 1;
    var m := Assoc(ks[..n]);
    if ks[n].Some? {
      assert Assoc(ks) == Put(m, ks[n].value, n);
      PutHasKey(m, ks[n].value, n, k);
    } else {
      assert Assoc(ks) == m;
    }
  }

  /** No position after the one an entry points at holds its key. */
  predicate PointsAtLast(ks: seq<Option<string>>, r: seq<(string, nat)>) {
    forall e, j :: 0 <= e < |r| && r[e].1 < j < |ks| ==> ks[j] != Some(r[e].0)
  }

  /** Each key points at the last position holding it. */
  lemma {:induction false} AssocLast(ks: seq<Option<string>>)
    ensures PointsAtLast(ks, Assoc(ks))
    decreases |ks|
  {
    if |ks| > 0 {
      var n := |ks| - 1;
      var init := ks[..n];
      AssocLast(init);
      var m := Assoc(init);
      var r := Assoc(ks);
      forall e, j | 0 <= e < |r| && r[e].1 < j < |ks|
        ensures ks[j] != Some(r[e].0)
      {
        if ks[n].None? {
          assert r == m;
          if j < n {
            assert init[j] == ks[j];
            assert init[j] != Some(m[e].0);
          }
        } else {
          var key := ks[n].value;
          assert r == Put(m, key, n);
          if r[e] != (key, n) {
            assert e < |m| && r[e] == m[e] && m[e].0 != key;
            if j < n {
              assert init[j] == ks[j];
              assert init[j] != Some(m[e].0);
            }
          }
        }
      }
    }
  }

  /** Every mapped file's key is in `FILES`, and each key points at the
      last file of the listing with that key. */
  lemma FileMapComplete(names: seq<string>)
    ensures var r := FileMap(names);
            && (forall j :: 0 <= j < |names| && Mapped(names[j]) ==> HasKey(r, TableKey(names[j])))
            && (forall e, j :: 0 <= e < |r| && r[e].1 < j < |names| && Mapped(names[j]) ==> TableKey(names[j]) != r[e].0)
  {
    var ks := MappedKeys(names);
    AssocComplete(ks);
    AssocLast(ks);
    var r := FileMap(names);
    assert PointsAtLast(ks, r);
    forall e, j | 0 <= e < |r| && r[e].1 < j < |names| && Mapped(names[j])
      ensures TableKey(names[j]) != r[e].0
    {
      assert ks[j] == Some(TableKey(names[j]));
      assert ks[j] != Some(r[e].0);
    }
  }

  /** Two files of the same table: only the later one is read. */
  lemma LaterFileWins(a: string, b: string)
    requires Mapped(a) && TableKey(a) == TableKey(b)
    ensures FileMap([a, b]) == [(TableKey(a), 1)]
  {
    var ks := MappedKeys([a, b]);
    assert ks == [Some(TableKey(a)), Some(TableKey(a))];
    assert ks[..1] == [Some(TableKey(a))];
    assert ks[..1][..0] == [];
    assert Assoc(ks[..1]) == [(TableKey(a), 0)];
    assert Put([(TableKey(a), 0)], TableKey(a), 1) == [(TableKey(a), 1)];
  }

  // ---------------------------------------------------------------------
  // statements

  function Quote(x: string): string {
    "'" + x + "'"
  }

  function QuoteAll(xs: seq<string>): (r: seq<string>)
    ensures |r| == |xs| && forall i :: 0 <= i < |xs| ==> r[i] == Quote(xs[i])
  {
    seq(|xs|, i requires 0 <= i < |xs| => Quote(xs[i]))
  }

  /** The INSERT for one line of an update file: the stripped line is split
      on `|`, every token quoted, and the last token dropped. */
  function InsertStatement(table: string, line: string): string {
    "INSERT INTO " + table + " VALUES (" + Join(InsertValues(line), ',') + ")"
  }

  /** The quoted values of that INSERT. */
  function InsertValues(line: string): seq<string> {
    var tokens := QuoteAll(Split(Strip(line), '|'));
    tokens[..|tokens| - 1]
  }

  /** A data line with a leading non-blank and a trailing separator is
      left alone by the strip. */
  lemma DataLineStripped(fields: seq<string>)
    requires |fields| > 0 && (|fields[0]| > 0 ==> !IsSpace(fields[0][0]))
    ensures Strip(Join(fields, '|') + "|") == Join(fields, '|') + "|"
  {
    var line := Join(fields, '|') + "|";
    assert line[|line| - 1] == '|';
    JoinFirst(fields, '|');
    StripStripped(line, Whitespace);
  }

  /** Its tokens are the fields and the empty token after the separator. */
  lemma DataLineTokens(fields: seq<string>)
    requires |fields| > 0 && forall i :: 0 <= i < |fields| ==> '|' !in fields[i]
    ensures Split(Join(fields, '|') + "|", '|') == fields + [""]
  {
    SplitAppend(Join(fields, '|'), "", '|');
    assert Join(fields, '|') + "|" == Join(fields, '|') + ['|'] + "";
    SplitJoin(fields, '|');
  }

  /** A `dsdgen` data line ends in a separator, so the dropped token is the
      empty one after it and every field is inserted, quoted, in order. */
  lemma InsertOfDataLine(table: string, fields: seq<string>)
    requires forall i :: 0 <= i < |fields| ==> '|' !in fields[i]
    requires |fields| > 0 && (|fields[0]| > 0 ==> !IsSpace(fields[0][0]))
    ensures InsertStatement(table, Join(fields, '|') + "|")
            == "INSERT INTO " + table + " VALUES (" + Join(QuoteAll(fields), ',') + ")"
  {
    var line := Join(fields, '|') + "|";
    DataLineStripped(fields);
    DataLineTokens(fields);
    InsertValuesOf(line, fields + [""]);
    assert (fields + [""])[..|fields|] == fields;
  }


  /** A data line holding no fields at all, just the separator, still
      inserts one empty value. */
  lemma InsertOfBareSeparator(table: string)
    ensures InsertStatement(table, "|") == "INSERT INTO " + table + " VALUES ('')"
  {
    InsertOfDataLine(table, [""]);
    assert Join([""], '|') + "|" == "|";
    assert Quote("") == "''";
    assert QuoteAll([""]) == ["''"];
  }

  /** A line without the trailing separator loses its last field. */
  lemma InsertDropsLastField(table: string, fields: seq<string>)
    requires forall i :: 0 <= i < |fields| ==> '|' !in fields[i]
    requires |fields| >= 1
    requires Strip(Join(fields, '|')) == Join(fields, '|')
    ensures InsertStatement(table, Join(fields, '|'))
            == "INSERT INTO " + table + " VALUES (" + Join(QuoteAll(fields[..|fields| - 1]), ',') + ")"
  {
    var line := Join(fields, '|');
    SplitJoin(fields, '|');
    InsertValuesOf(line, fields);
  }

  /** The values in terms of the tokens of the stripped line. */
  lemma InsertValuesOf(line: string, toks: seq<string>)
    requires Split(Strip(line), '|') == toks
    ensures |toks| >= 1
    ensures InsertValues(line) == QuoteAll(toks[..|toks| - 1])
  {
    var t := QuoteAll(toks);
    assert t[..|t| - 1] == QuoteAll(toks[..|toks| - 1]);
  }

  /** The first character of a join is that of its first non-empty piece;
      here, of the first piece when that is non-empty. */
  lemma JoinFirst(xs: seq<string>, sep: char)
    requires |xs| > 0
    ensures |xs[0]| > 0 ==> |Join(xs, sep)| > 0 && Join(xs, sep)[0] == xs[0][0]
    ensures |xs[0]| == 0 && |xs| > 1 ==> |Join(xs, sep)| > 0 && Join(xs, sep)[0] == sep
  {
  }

  /** The lines printed for one mapped file: the "processing" comment, then
      an INSERT per line of the file. */
  function Block(dir: string, table: string, file: string, lines: seq<string>): (r: seq<string>)
    ensures |r| == |lines| + 1
    ensures r[0] == "-- processing file " + dir + file
  {
    ["-- processing file " + dir + file] + Inserts(table, lines)
  }

  /** One INSERT per line, in order. */
  function Inserts(table: string, lines: seq<string>): (r: seq<string>)
    ensures |r| == |lines|
  {
    seq(|lines|, i requires 0 <= i < |lines| => InsertStatement(table, lines[i]))
  }

  /** The blocks of the entries of `m`, in order. */
  function Blocks(dir: string, files: seq<(string, seq<string>)>, m: seq<(string, nat)>): seq<string>
    requires forall e :: 0 <= e < |m| ==> m[e].1 < |files|
    decreases |m|
  {
    if |m| == 0 then []
    else Blocks(dir, files, m[..|m| - 1]) + Block(dir, Last(m).0, files[Last(m).1].0, files[Last(m).1].1)
  }

  /** The whole script over a directory listing (names with their lines):
      one block per entry of `FILES`, in its order, so one comment per
      table and one INSERT per line of the file read for it. */
  method Script(dir: string, files: seq<(string, seq<string>)>) returns (r: seq<string>)
    ensures r == Blocks(dir, files, FileMap(Names(files)))
    ensures |r| == |FileMap(Names(files))| + LineCount(files, FileMap(Names(files)))
  {
    var m := FileMap(Names(files));
    r := [];
    var e := 0;
    while e < |m|
      invariant 0 <= e <= |m|
      invariant r == Blocks(dir, files, m[..e])
      invariant |r| == e + LineCount(files, m[..e])
    {
      var (table, idx) := m[e];
      LineCountStep(dir, files, m, e);
      r := r + Block(dir, table, files[idx].0, files[idx].1);
      e := e + 1;
    }
    assert m[..e] == m;
  }

  function Names(files: seq<(string, seq<string>)>): (r: seq<string>)
    ensures |r| == |files| && forall j :: 0 <= j < |files| ==> r[j] == files[j].0
  {
    seq(|files|, j requires 0 <= j < |files| => files[j].0)
  }

  /** The number of data lines in the files an association list points at. */
  function LineCount(files: seq<(string, seq<string>)>, m: seq<(string, nat)>): nat
    requires forall e :: 0 <= e < |m| ==> m[e].1 < |files|
    decreases |m|
  {
    if |m| == 0 then 0 else LineCount(files, m[..|m| - 1]) + |files[Last(m).1].1|
  }

  lemma LineCountStep(dir: string, files: seq<(string, seq<string>)>, m: seq<(string, nat)>, e: nat)
    requires e < |m| && forall i :: 0 <= i < |m| ==> m[i].1 < |files|
    ensures LineCount(files, m[..e + 1]) == LineCount(files, m[..e]) + |files[m[e].1].1|
    ensures Blocks(dir, files, m[..e + 1]) == Blocks(dir, files, m[..e]) + Block(dir, m[e].0, files[m[e].1].0, files[m[e].1].1)
  {
    assert m[..e + 1][..e] == m[..e];
  }
}

=== FILE: gcs.dfy ===
/** The pure parts of `gcs.GSUtilUpload`: the per-test data directory, the
    rename plan that puts the dataset prefix on generated data files before
    upload, and the reading of `gsutil` progress output. */
module Gcs {
  import opened Wrappers
  import opened Text
  import Naming

  /** The `{"h": ..., "ds": ...}[test]` lookup followed by the scale
      directory; any other test raises `KeyError`. */
  function DataTestScale(test: string, hOutput: string, dsOutput: string, sep: char, scale: int): (r: Result<string>)
    ensures r.Err? <==> test != "h" && test != "ds"
    ensures r.Err? ==> r.error == KeyError
    ensures r.Ok? ==> r.value == Naming.ScaleDir(if test == "h" then hOutput else dsOutput, sep, scale)
  {
    if test == "h" then Ok(Naming.ScaleDir(hOutput, sep, scale))
    else if test == "ds" then Ok(Naming.ScaleDir(dsOutput, sep, scale))
    else Err(KeyError)
  }

  // ---------------------------------------------------------------------
  // rename_data

  /** The basenames that do not yet carry the prefix, in listing order. */
  function Pending(names: seq<string>, prefix: string): (r: seq<string>)
    ensures |r| <= |names|
    ensures forall i :: 0 <= i < |r| ==> r[i] in names && !StartsWith(r[i], prefix)
    ensures forall i :: 0 <= i < |names| && !StartsWith(names[i], prefix) ==> names[i] in r
  {
    if |names| == 0 then []
    else (if StartsWith(names[0], prefix) then [] else [names[0]]) + Pending(names[1..], prefix)
  }

  /** The listing is filtered name by name: splitting the listing splits
      the pending names at the same place. */
  lemma {:induction false} PendingAppend(xs: seq<string>, ys: seq<string>, prefix: string)
    ensures Pending(xs + ys, prefix) == Pending(xs, prefix) + Pending(ys, prefix)
    decreases |xs|
  {
    if |xs| > 0 {
      var head := if StartsWith(xs[0], prefix) then [] else [xs[0]];
      TailAppend(xs, ys);
      PendingAppend(xs[1..], ys, prefix);
      ConcatAssoc(head, Pending(xs[1..], prefix), Pending(ys, prefix));
    } else {
      assert xs + ys == ys;
    }
  }

  /** Each name is kept or skipped in place on its own prefix test, so the
      pending names keep the listing order and each listed name is renamed
      at most as often as it is listed. */
  lemma PendingOrder(xs: seq<string>, x: string, ys: seq<string>, prefix: string)
    ensures Pending(xs + [x] + ys, prefix) ==
              Pending(xs, prefix) + (if StartsWith(x, prefix) then [] else [x]) + Pending(ys, prefix)
  {
    PendingAppend(xs + [x], ys, prefix);
    PendingAppend(xs, [x], prefix);
    PendingOne(x, prefix);
  }

  lemma PendingOne(x: string, prefix: string)
    ensures Pending([x], prefix) == if StartsWith(x, prefix) then [] else [x]
  {
    assert [x][1..] == [];
  }

  lemma PendingEmpty(names: seq<string>, prefix: string)
    ensures |Pending(names, prefix)| > 0 <==> exists i :: 0 <= i < |names| && !StartsWith(names[i], prefix)
  {
    var b := Pending(names, prefix);
    if |b| > 0 {
      assert b[0] in names;
      var i :| 0 <= i < |names| && names[i] == b[0];
      assert !StartsWith(names[i], prefix);
    }
  }

  /** One `os.rename(src, dst)`. */
  datatype Rename = Rename(src: string, dst: string)

  /** `rename_data` over the directory listing `names`: the renames it
      performs, and whether it returns `True`. Nothing is renamed, and
      `False` is returned, when every file already has the prefix. */
  function RenameData(dir: string, sep: char, names: seq<string>, prefix: string): (r: (bool, seq<Rename>))
    ensures r.0 <==> exists i :: 0 <= i < |names| && !StartsWith(names[i], prefix)
    ensures |r.1| == |Pending(names, prefix)|
    ensures forall i :: 0 <= i < |r.1| ==>
              var f := Pending(names, prefix)[i];
              r.1[i] == Rename(dir + [sep] + f, dir + [sep] + prefix + f)
  {
    var b := Pending(names, prefix);
    PendingEmpty(names, prefix);
    if |b| == 0 then (false, [])
    else (true, seq(|b|, i requires 0 <= i < |b| => Rename(dir + [sep] + b[i], dir + [sep] + prefix + b[i])))
  }

  /** The names the files carry after the renames: a name with the prefix
      is kept, any other gets the prefix put in front. This is the
      directory listing only when no renamed file lands on a name already
      listed (`Collides`); otherwise `os.rename` overwrites that file and
      two entries here name one file. */
  function Renamed(names: seq<string>, prefix: string): (r: seq<string>)
    ensures |r| == |names|
  {
    seq(|names|, i requires 0 <= i < |names| => if StartsWith(names[i], prefix) then names[i] else prefix + names[i])
  }

  /** The renames `rename_data` performs are exactly the moves from each
      listed name to its `Renamed` name: a file with the prefix is never a
      source, and every other file is moved to the prefix plus its name. */
  lemma RenameDataPlan(dir: string, sep: char, names: seq<string>, prefix: string, i: int)
    requires 0 <= i < |names|
    ensures StartsWith(names[i], prefix) ==>
              forall k :: 0 <= k < |RenameData(dir, sep, names, prefix).1| ==>
                RenameData(dir, sep, names, prefix).1[k].src != dir + [sep] + names[i]
    ensures !StartsWith(names[i], prefix) ==>
              exists k :: 0 <= k < |RenameData(dir, sep, names, prefix).1| &&
                RenameData(dir, sep, names, prefix).1[k] == Rename(dir + [sep] + names[i], dir + [sep] + Renamed(names, prefix)[i])
  {
    var plan := RenameData(dir, sep, names, prefix).1;
    var b := Pending(names, prefix);
    if StartsWith(names[i], prefix) {
      forall k | 0 <= k < |plan|
        ensures plan[k].src != dir + [sep] + names[i]
      {
        assert (dir + [sep] + b[k])[|dir| + 1..] == b[k];
        assert (dir + [sep] + names[i])[|dir| + 1..] == names[i];
      }
    } else {
      var k :| 0 <= k < |b| && b[k] == names[i];
      assert plan[k] == Rename(dir + [sep] + names[i], dir + [sep] + Renamed(names, prefix)[i]);
    }
  }

  /** Some file without the prefix is renamed onto a name already listed:
      then `os.rename` replaces that file. */
  predicate Collides(names: seq<string>, prefix: string) {
    exists i :: 0 <= i < |names| && !StartsWith(names[i], prefix) && prefix + names[i] in names
  }

  /** Without a collision, distinct listed files keep distinct names, so
      `Renamed` is the listing after the renames, one entry per file. */
  lemma RenamedDistinct(names: seq<string>, prefix: string, i: int, j: int)
    requires 0 <= i < |names| && 0 <= j < |names| && i != j && names[i] != names[j]
    requires !Collides(names, prefix)
    ensures Renamed(names, prefix)[i] != Renamed(names, prefix)[j]
  {
    var after := Renamed(names, prefix);
    if !StartsWith(names[i], prefix) && !StartsWith(names[j], prefix) {
      assert (prefix + names[i])[|prefix|..] == names[i];
      assert (prefix + names[j])[|prefix|..] == names[j];
    } else if !StartsWith(names[i], prefix) {
      assert after[i] == prefix + names[i] && after[j] == names[j];
    } else if !StartsWith(names[j], prefix) {
      assert after[j] == prefix + names[j] && after[i] == names[i];
    }
  }

  /** A collision, `["x", prefix + "x"]`: both files end up with the one
      name `prefix + "x"`, and one of them is overwritten. */
  lemma RenamedCollision(prefix: string)
    requires !StartsWith("x", prefix)
    ensures Collides(["x", prefix + "x"], prefix)
    ensures Renamed(["x", prefix + "x"], prefix)[0] == Renamed(["x", prefix + "x"], prefix)[1]
  {
    var names := ["x", prefix + "x"];
    assert (prefix + "x")[..|prefix|] == prefix;
    assert names[1] == prefix + names[0];
  }

  /** A second `rename_data` after the first one renames nothing and returns
      `False`. */
  lemma RenameDataIdempotent(dir: string, sep: char, names: seq<string>, prefix: string)
    ensures RenameData(dir, sep, Renamed(names, prefix), prefix) == (false, [])
  {
    var after := Renamed(names, prefix);
    forall i | 0 <= i < |after|
      ensures StartsWith(after[i], prefix)
    {
      if !StartsWith(names[i], prefix) {
        assert after[i] == prefix + names[i];
        assert (prefix + names[i])[..|prefix|] == prefix;
      }
    }
  }

  /** The renamed listing holds the same files: those with the prefix kept
      as they are, the others with the prefix put in front. */
  lemma RenamedNames(names: seq<string>, prefix: string, i: int)
    requires 0 <= i < |names|
    ensures StartsWith(Renamed(names, prefix)[i], prefix)
    ensures Renamed(names, prefix)[i] == names[i] || Renamed(names, prefix)[i] == prefix + names[i]
  {
    assert (prefix + names[i])[..|prefix|] == prefix;
  }

  // ---------------------------------------------------------------------
  // parse_std_err

  /** `std_err[-200:]`. */
  function Tail(s: string, n: nat): (r: string)
    ensures |r| <= n && |r| <= |s|
    ensures r == s[|s| - |r|..]
    ensures |s| <= n ==> r == s
  {
    if |s| <= n then s else s[|s| - n..]
  }

  /** Neither end is whitespace. */
  predicate Stripped(p: string) {
    |p| > 0 ==> !IsSpace(p[0]) && !IsSpace(p[|p| - 1])
  }

  /** The backslash, slash and whitespace `parse_std_err` strips from each
      progress piece, in that order. */
  function CleanPiece(p: string): (r: string)
    ensures Stripped(r)
  {
    Strip(StripChars(StripChars(p, Backslash), Slash))
  }

  /** The `\r`-separated pieces of the final 200 characters. */
  function ProgressPieces(stdErr: string): seq<string> {
    Split(Tail(stdErr, 200), '\r')
  }

  /** `parse_std_err`: the third-from-last and last `\r`-separated pieces of
      the final 200 characters, cleaned; fewer than three pieces raise
      `IndexError`. */
  function ParseStdErr(stdErr: string): (r: Result<(string, string)>)
    ensures r.Err? <==> |ProgressPieces(stdErr)| < 3
    ensures r.Ok? ==> Stripped(r.value.0) && Stripped(r.value.1)
  {
    var y := ProgressPieces(stdErr);
    if |y| < 3 then Err(IndexError)
    else Ok((CleanPiece(y[|y| - 3]), CleanPiece(y[|y| - 1])))
  }

  /** No stripped character at either end. */
  predicate Clean(p: string) {
    |p| > 0 ==> p[0] !in {'\\', '/'} && p[|p| - 1] !in {'\\', '/'} && !IsSpace(p[0]) && !IsSpace(p[|p| - 1])
  }

  lemma CleanPieceClean(p: string)
    requires Clean(p)
    ensures CleanPiece(p) == p
  {
    StripStripped(p, Backslash);
    StripStripped(p, Slash);
    StripStripped(p, Whitespace);
  }

  /** Three progress updates separated by carriage returns give back the
      first and the last update. */
  lemma ParseStdErrOfProgress(a: string, b: string, c: string)
    requires '\r' !in a && '\r' !in b && '\r' !in c
    requires |a| + |b| + |c| + 2 <= 200
    requires Clean(a) && Clean(c)
    ensures ParseStdErr(a + "\r" + b + "\r" + c) == Ok((a, c))
  {
    var s := a + "\r" + b + "\r" + c;
    ThreePieces(a, b, c);
    PickedPieces(s, a, c);
    CleanPieceClean(a);
    CleanPieceClean(c);
  }

  /** Output of exactly three updates picks the first and the third. */
  lemma PickedPieces(s: string, a: string, c: string)
    requires |ProgressPieces(s)| == 3 && ProgressPieces(s)[0] == a && ProgressPieces(s)[2] == c
    ensures ParseStdErr(s) == Ok((CleanPiece(a), CleanPiece(c)))
  {
  }

  /** Short output holding two carriage returns splits into its three
      updates. */
  lemma ThreePieces(a: string, b: string, c: string)
    requires '\r' !in a && '\r' !in b && '\r' !in c
    requires |a| + |b| + |c| + 2 <= 200
    ensures ProgressPieces(a + "\r" + b + "\r" + c) == [a, b, c]
  {
    var s := a + "\r" + b + "\r" + c;
    assert Tail(s, 200) == s;
    JoinThree(a, b, c, '\r');
    SplitJoin([a, b, c], '\r');
  }

  /** Only the final 200 characters count: earlier output is ignored. */
  lemma ParseStdErrTail(earlier: string, s: string)
    requires |s| >= 200
    ensures ParseStdErr(earlier + s) == ParseStdErr(s)
  {
    assert Tail(earlier + s, 200) == Tail(s, 200);
  }
}

=== FILE: naming.dfy ===
/** Names the benchmark derives from a test ("ds" or "h"), a scale factor
    in GB and a configuration id: the BigQuery dataset and Snowflake
    database, the Snowflake storage integration, BigQuery query labels, the
    per-scale data directory and the prefix uploaded data files carry. */
module Naming {
  import opened Wrappers
  import opened Text

  /** `str(scale) + "GB"`. */
  function ScaleTag(scale: int): string {
    IntToString(scale) + "GB"
  }

  /** `f"{test}_{scale}GB_{id}"`: the BigQuery dataset of `BQTPC` (with the
      configuration id) and the Snowflake database of `SFTPC` (with the
      run number). */
  function DatasetName(test: string, scale: int, id: string): string {
    test + "_" + ScaleTag(scale) + "_" + id
  }

  lemma ScaleTagFacts(scale: int)
    ensures '_' !in ScaleTag(scale) && ('-' !in ScaleTag(scale) <==> scale >= 0)
    ensures ParseInt(ScaleTag(scale)[..|ScaleTag(scale)| - 2]) == Some(scale)
  {
    ScaleTagChars(scale);
    ScaleTagNumber(scale);
  }

  lemma ScaleTagChars(scale: int)
    ensures '_' !in ScaleTag(scale) && ('-' !in ScaleTag(scale) <==> scale >= 0)
  {
    IntToStringSigns(scale);
    assert ScaleTag(scale) == IntToString(scale) + "GB";
  }

  lemma ScaleTagNumber(scale: int)
    ensures ParseInt(ScaleTag(scale)[..|ScaleTag(scale)| - 2]) == Some(scale)
  {
    var t := ScaleTag(scale);
    assert t[..|t| - 2] == IntToString(scale);
    IntToStringParses(scale);
  }

  /** `str(n)` holds no underscore, and a minus sign exactly when `n` is
      negative. */
  lemma IntToStringSigns(n: int)
    ensures '_' !in IntToString(n)
    ensures '-' !in IntToString(n) <==> n >= 0
  {
    var s := IntToString(n);
    assert forall i :: 0 <= i < |s| ==> s[i] != '_';
    if n < 0 {
      assert s[0] == '-';
    } else {
      NoDash(n);
    }
  }

  /** The dataset name splits back into test, scale tag and id, and the
      scale is recovered from its tag. */
  lemma DatasetNameParts(test: string, scale: int, id: string)
    requires '_' !in test && '_' !in id
    ensures Split(DatasetName(test, scale, id), '_') == [test, ScaleTag(scale), id]
    ensures ParseInt(ScaleTag(scale)[..|ScaleTag(scale)| - 2]) == Some(scale)
  {
    ScaleTagFacts(scale);
    SplitThree(test, ScaleTag(scale), id, '_');
  }

  /** `BQTPC.q_label_base`: the lower-cased `dataset-xx-desc`. */
  function LabelBase(dataset: string, desc: string): (r: string)
    ensures IsLower(r)
    ensures |r| == |dataset| + 4 + |desc|
  {
    LowerFacts(dataset + "-xx-" + desc);
    Lower(dataset + "-xx-" + desc)
  }

  /** A label base splits on `-` into the lower-cased dataset, "xx" and the
      lower-cased description. */
  lemma LabelBaseParts(dataset: string, desc: string)
    requires '-' !in dataset && '-' !in desc
    ensures Split(LabelBase(dataset, desc), '-') == [Lower(dataset), "xx", Lower(desc)]
  {
    LowerAppend(dataset + "-xx-", desc);
    LowerAppend(dataset, "-xx-");
    LowerFacts("-xx-");
    assert Lower(dataset) + "-xx-" + Lower(desc) == Lower(dataset) + ['-'] + "xx" + ['-'] + Lower(desc);
    LowerAdds(dataset, '-');
    LowerAdds(desc, '-');
    SplitThree(Lower(dataset), "xx", Lower(desc), '-');
  }

  /** The stream tag of a query label: "sNA" without a stream number. */
  function StreamTag(seqN: Option<int>): string {
    if seqN.None? then "sNA" else IntToString(seqN.value)
  }

  /** The label `query_seq` gives query `n`: the lower-cased
      `dataset-q<n>-<stream>-desc`. */
  function QueryLabel(dataset: string, n: int, seqN: Option<int>, desc: string): (r: string)
    ensures IsLower(r)
  {
    LowerFacts(dataset + "-q" + IntToString(n) + "-" + StreamTag(seqN) + "-" + desc);
    Lower(dataset + "-q" + IntToString(n) + "-" + StreamTag(seqN) + "-" + desc)
  }

  lemma NoDash(n: int)
    requires n >= 0
    ensures '-' !in IntToString(n) && IsLower(IntToString(n))
  {
    var s := IntToString(n);
    forall i | 0 <= i < |s|
      ensures s[i] != '-' && !('A' <= s[i] <= 'Z')
    {
      assert s == NatToString(n);
      assert IsDigit(s[i]);
    }
  }

  /** A query label splits on `-` into the lower-cased dataset, `q<n>`, the
      stream tag ("sna" without a stream number) and the lower-cased
      description, so each query of a stream can be told apart in the job
      history. */
  lemma QueryLabelParts(dataset: string, n: int, seqN: Option<int>, desc: string)
    requires '-' !in dataset && '-' !in desc
    requires n >= 0 && (seqN.Some? ==> seqN.value >= 0)
    ensures Split(QueryLabel(dataset, n, seqN, desc), '-')
            == [Lower(dataset), "q" + IntToString(n), if seqN.None? then "sna" else IntToString(seqN.value), Lower(desc)]
  {
    var parts := [Lower(dataset), "q" + IntToString(n), if seqN.None? then "sna" else IntToString(seqN.value), Lower(desc)];
    QueryLabelJoin(dataset, n, seqN, desc);
    LowerAdds(dataset, '-');
    LowerAdds(desc, '-');
    NoDash(n);
    if seqN.Some? {
      NoDash(seqN.value);
    }
    SplitJoin(parts, '-');
  }

  /** The label is the join on `-` of its lower-cased pieces; the number and
      the stream tag are already lower case. */
  lemma QueryLabelJoin(dataset: string, n: int, seqN: Option<int>, desc: string)
    requires n >= 0 && (seqN.Some? ==> seqN.value >= 0)
    ensures QueryLabel(dataset, n, seqN, desc)
            == Join([Lower(dataset), "q" + IntToString(n), if seqN.None? then "sna" else IntToString(seqN.value), Lower(desc)], '-')
  {
    var b := "q" + IntToString(n);
    var c := StreamTag(seqN);
    var raw := [dataset, b, c, desc];
    QueryLabelRaw(dataset, n, seqN, desc);
    LowerJoin(raw, '-');
    StreamTagLower(n, seqN);
    assert LowerAll(raw) == [Lower(dataset), Lower(b), Lower(c), Lower(desc)];
  }

  lemma QueryLabelRaw(dataset: string, n: int, seqN: Option<int>, desc: string)
    ensures QueryLabel(dataset, n, seqN, desc) == Lower(Join([dataset, "q" + IntToString(n), StreamTag(seqN), desc], '-'))
  {
    var c := StreamTag(seqN);
    var q := IntToString(n);
    JoinFour(dataset, "q" + q, c, desc, '-');
    assert "-q" == ['-'] + "q" && "-" == ['-'];
    ConcatAssoc(['-'], "q", q);
    ConcatAssoc(dataset, "-q", q);
    ConcatAssoc(dataset, ['-'], "q" + q);
  }

  /** The number and stream pieces of a label lower-case to themselves, but
      for "sNA", which becomes "sna". */
  lemma StreamTagLower(n: int, seqN: Option<int>)
    requires n >= 0 && (seqN.Some? ==> seqN.value >= 0)
    ensures Lower("q" + IntToString(n)) == "q" + IntToString(n)
    ensures Lower(StreamTag(seqN)) == if seqN.None? then "sna" else IntToString(seqN.value)
  {
    NumberTagLower(n);
    LowerFacts("q" + IntToString(n));
    var c := StreamTag(seqN);
    LowerFacts(c);
    if seqN.Some? {
      NoDash(seqN.value);
    } else {
      assert Lower(c) == [LowerChar('s'), LowerChar('N'), LowerChar('A')] == "sna";
    }
  }

  lemma NumberTagLower(n: int)
    requires n >= 0
    ensures IsLower("q" + IntToString(n))
  {
    var b := "q" + IntToString(n);
    NoDash(n);
    forall i | 0 <= i < |b|
      ensures !('A' <= b[i] <= 'Z')
    {
      if i > 0 {
        assert b[i] == IntToString(n)[i - 1];
      }
    }
  }

  /** `SFTPC.storage_integration_name`. */
  function StorageIntegration(database: string): (r: string)
    ensures EndsWith(r, "_gcs_integration") && |r| >= |database| && r[..|database|] == database
    ensures |r| == |database| + |"_gcs_integration"|
  {
    database + "_gcs_integration"
  }

  /** Distinct databases never share an integration name. */
  lemma StorageIntegrationInjective(a: string, b: string)
    requires StorageIntegration(a) == StorageIntegration(b)
    ensures a == b
  {
  }

  /** `config.sep + str(scale) + "GB"` under a base directory: the data
      directory of one scale factor. */
  function ScaleDir(base: string, sep: char, scale: int): string {
    base + [sep] + ScaleTag(scale)
  }

  /** The last path component of a scale directory is its scale tag. */
  lemma ScaleDirLast(base: string, sep: char, scale: int)
    requires !IsDigit(sep) && sep != '-' && sep != 'G' && sep != 'B'
    ensures Last(Split(ScaleDir(base, sep, scale), sep)) == ScaleTag(scale)
  {
    var t := ScaleTag(scale);
    assert sep !in t by {
      forall i | 0 <= i < |t|
        ensures t[i] != sep
      {
        if i < |IntToString(scale)| {
          assert t[i] == IntToString(scale)[i];
        }
      }
    }
    LastPieceAfterSeparator(base, t, sep);
    SplitNoSep(t, sep);
  }

  /** `test + "_" + str(scale) + "GB_"`: the prefix `GSUtilUpload.rename_data`
      puts on data files. It is the dataset name of the same test and scale
      up to its id: every dataset name is the prefix followed by the id. */
  function UploadPrefix(test: string, scale: int): (r: string)
    ensures forall id :: DatasetName(test, scale, id) == r + id
  {
    test + "_" + ScaleTag(scale) + "_"
  }
}

=== FILE: refresh.dfy ===
/** The TPC-H refresh script refresh.py: it loads the `dbgen` update files
    (new orders, their line items, order keys to delete) into an in-memory
    order table and prints one INSERT per order followed by its line items,
    then two DELETEs per key in the delete file. The files arrive here as
    their lines; the printed statements are returned. */
module Refresh {
  import opened Wrappers
  import opened Text

  /** One entry of the order table: the order's columns, the line-item rows
      attached to it in file order, and whether the delete file names it. */
  datatype Order = Order(id: int, cols: seq<string>, items: seq<seq<string>>, delete: bool)

  /** The `|`-separated columns of one stripped line. */
  function RowOf(line: string): (r: seq<string>)
    ensures |r| >= 1
  {
    Split(Strip(line), '|')
  }

  /** A line of an update file as the script reads it: the key `int()`
      makes of its first column (`None` where that raises `ValueError`) and
      its columns. */
  datatype Line = Line(key: Option<int>, row: seq<string>)

  function ParseLine(line: string): Line {
    Line(ParseInt(RowOf(line)[0]), RowOf(line))
  }

  function ParseLines(lines: seq<string>): (r: seq<Line>)
    ensures |r| == |lines| && forall j :: 0 <= j < |lines| ==> r[j] == ParseLine(lines[j])
  {
    seq(|lines|, j requires 0 <= j < |lines| => ParseLine(lines[j]))
  }

  /** The order keys of the table, in insertion order. */
  function Ids(db: seq<Order>): (r: seq<int>)
    ensures |r| == |db|
  {
    seq(|db|, k requires 0 <= k < |db| => db[k].id)
  }

  /** No order key occurs twice: the table is a dict. */
  predicate Distinct(db: seq<Order>) {
    forall k1, k2 :: 0 <= k1 < k2 < |db| ==> db[k1].id != db[k2].id
  }

  // ---------------------------------------------------------------------
  // loading orders (the first pass, over the orders file)

  /** The order table after reading the orders file: each line's key must
      parse; only the first row seen for a key is kept. */
  function LoadOrders(ls: seq<Line>): (r: Result<seq<Order>>)
    ensures r.Err? <==> exists j :: 0 <= j < |ls| && ls[j].key.None?
    ensures r.Err? ==> r.error == ValueError
    decreases |ls|
  {
    if |ls| == 0 then Ok([])
    else
      var init := ls[..|ls| - 1];
      assert forall j :: 0 <= j < |init| ==> init[j] == ls[j];
      match LoadOrders(init)
      case Err(e) => Err(e)
      case Ok(db) =>
        var line := Last(ls);
        match line.key
        case None => Err(ValueError)
        case Some(id) => if id in Ids(db) then Ok(db) else Ok(db + [Order(id, line.row, [], false)])
  }

  /** Line `j` is the first line of the file with its key. */
  predicate FirstWithKey(ls: seq<Line>, j: int)
    requires 0 <= j < |ls|
  {
    ls[j].key.Some? && forall i :: 0 <= i < j ==> ls[i].key != ls[j].key
  }

  /** Entry `o` holds the columns of the first line with its key. */
  predicate FromFirstLine(ls: seq<Line>, o: Order) {
    exists j :: 0 <= j < |ls| && FirstWithKey(ls, j) && ls[j].key == Some(o.id) && o.cols == ls[j].row
  }

  /** The loaded table is a dict with one entry per key in the file, each
      holding the columns of the first line with that key, no line items
      and no delete mark. */
  lemma LoadOrdersTable(ls: seq<Line>)
    requires LoadOrders(ls).Ok?
    ensures var db := LoadOrders(ls).value;
            && Distinct(db)
            && (forall j :: 0 <= j < |ls| ==> ls[j].key.value in Ids(db))
            && (forall k :: 0 <= k < |db| ==> db[k].items == [] && !db[k].delete)
            && (forall k :: 0 <= k < |db| ==> FromFirstLine(ls, db[k]))
  {
    LoadOrdersKeys(ls);
    LoadOrdersRows(ls);
  }

  /** A step of the load either keeps the table or appends the new key. */
  lemma LoadOrdersStep(ls: seq<Line>)
    requires |ls| > 0 && LoadOrders(ls).Ok?
    ensures LoadOrders(ls[..|ls| - 1]).Ok?
    ensures var db := LoadOrders(ls[..|ls| - 1]).value;
            var id := Last(ls).key.value;
            && Last(ls).key.Some?
            && (id in Ids(db) ==> LoadOrders(ls).value == db)
            && (id !in Ids(db) ==> LoadOrders(ls).value == db + [Order(id, Last(ls).row, [], false)])
  {
  }

  /** The table is a dict holding every key of the file, with no line items
      and no delete marks yet. */
  lemma {:induction false} LoadOrdersKeys(ls: seq<Line>)
    requires LoadOrders(ls).Ok?
    ensures var db := LoadOrders(ls).value;
            && Distinct(db)
            && (forall j :: 0 <= j < |ls| ==> ls[j].key.value in Ids(db))
            && (forall k :: 0 <= k < |db| ==> db[k].items == [] && !db[k].delete)
    decreases |ls|
  {
    if |ls| > 0 {
      var n := |ls| - 1;
      var init := ls[..n];
      LoadOrdersStep(ls);
      LoadOrdersKeys(init);
      var db := LoadOrders(init).value;
      var id := ls[n].key.value;
      assert forall j :: 0 <= j < n ==> init[j] == ls[j];
      if id !in Ids(db) {
        AppendOrder(db, Order(id, ls[n].row, [], false));
      }
    }
  }

  /** Appending an order with a new key keeps the table a dict of empty,
      unmarked entries and adds the key. */
  lemma AppendOrder(db: seq<Order>, o: Order)
    requires Distinct(db) && o.id !in Ids(db)
    requires forall k :: 0 <= k < |db| ==> db[k].items == [] && !db[k].delete
    requires o.items == [] && !o.delete
    ensures Distinct(db + [o]) && Ids(db + [o]) == Ids(db) + [o.id]
    ensures forall k :: 0 <= k < |db + [o]| ==> (db + [o])[k].items == [] && !(db + [o])[k].delete
  {
    var r := db + [o];
    assert forall k :: 0 <= k < |db| ==> r[k] == db[k] && Ids(db)[k] == db[k].id;
    assert Ids(r) == Ids(db) + [o.id];
  }

  /** Each entry holds the columns of the first line with its key. */
  lemma {:induction false} LoadOrdersRows(ls: seq<Line>)
    requires LoadOrders(ls).Ok?
    ensures var db := LoadOrders(ls).value;
            forall k :: 0 <= k < |db| ==> FromFirstLine(ls, db[k])
    decreases |ls|
  {
    if |ls| > 0 {
      var n := |ls| - 1;
      var init := ls[..n];
      LoadOrdersStep(ls);
      LoadOrdersRows(init);
      LoadOrdersKeys(init);
      var db := LoadOrders(init).value;
      var id := ls[n].key.value;
      var r := LoadOrders(ls).value;
      forall k | 0 <= k < |db|
        ensures FromFirstLine(ls, db[k])
      {
        FromFirstLineExtends(ls, db[k]);
      }
      if id !in Ids(db) {
        assert forall j :: 0 <= j < n ==> init[j] == ls[j];
        NewKeyIsFirst(ls, db);
        assert FromFirstLine(ls, r[|db|]);
        assert forall k :: 0 <= k < |db| ==> r[k] == db[k];
      }
    }
  }

  /** A first line before the last stays a first line. */
  lemma FromFirstLineExtends(ls: seq<Line>, o: Order)
    requires |ls| > 0 && FromFirstLine(ls[..|ls| - 1], o)
    ensures FromFirstLine(ls, o)
  {
    var init := ls[..|ls| - 1];
    var j :| 0 <= j < |init| && FirstWithKey(init, j) && init[j].key == Some(o.id) && o.cols == init[j].row;
    assert forall i :: 0 <= i < j ==> init[i] == ls[i];
    assert FirstWithKey(ls, j);
  }

  /** The last line is the first with its key when that key is not yet in
      the table built from the lines before it. */
  lemma NewKeyIsFirst(ls: seq<Line>, db: seq<Order>)
    requires |ls| > 0 && Last(ls).key.Some? && Last(ls).key.value !in Ids(db)
    requires forall j :: 0 <= j < |ls| - 1 ==> ls[j].key.Some? && ls[j].key.value in Ids(db)
    ensures FirstWithKey(ls, |ls| - 1)
  {
  }

  /** The keys of `db` come in the order of their first line in `ls`:
      wherever a later entry's key occurs, an earlier entry's key occurred
      before. */
  predicate FirstSeenOrder(ls: seq<Line>, db: seq<Order>) {
    forall k1, k2, j2 :: 0 <= k1 < k2 < |db| && 0 <= j2 < |ls| && ls[j2].key == Some(db[k2].id)
      ==> KeyBefore(ls, j2, db[k1].id)
  }

  /** Some line before position `j` has key `id`. */
  predicate KeyBefore(ls: seq<Line>, j: int, id: int) {
    exists j1 :: 0 <= j1 < j && j1 < |ls| && ls[j1].key == Some(id)
  }

  lemma FirstSeenAt(ls: seq<Line>, db: seq<Order>, k1: int, k2: int, j2: int)
    requires FirstSeenOrder(ls, db)
    requires 0 <= k1 < k2 < |db| && 0 <= j2 < |ls| && ls[j2].key == Some(db[k2].id)
    ensures exists j1 :: 0 <= j1 < j2 && ls[j1].key == Some(db[k1].id)
  {
    assert KeyBefore(ls, j2, db[k1].id);
  }

  /** The table lists the keys in the order of their first line. */
  lemma {:induction false} LoadOrdersFirstSeen(ls: seq<Line>)
    requires LoadOrders(ls).Ok?
    ensures FirstSeenOrder(ls, LoadOrders(ls).value)
    decreases |ls|
  {
    if |ls| > 0 {
      var init := ls[..|ls| - 1];
      LoadOrdersStep(ls);
      LoadOrdersFirstSeen(init);
      LoadOrdersTable(init);
      var db := LoadOrders(init).value;
      var r := LoadOrders(ls).value;
      assert r[..|db|] == db;
      assert |r| > |db| ==> forall j :: 0 <= j < |ls| - 1 ==> ls[j].key != Some(r[|db|].id) by {
        assert forall j :: 0 <= j < |init| ==> init[j] == ls[j];
      }
      FirstSeenExtend(ls, db, r);
    }
  }

  /** Reading one more line keeps the first-seen order, whether it adds a
      new entry at the end or none. */
  lemma FirstSeenExtend(ls: seq<Line>, db: seq<Order>, r: seq<Order>)
    requires |ls| > 0 && FirstSeenOrder(ls[..|ls| - 1], db)
    requires forall k :: 0 <= k < |db| ==> FromFirstLine(ls[..|ls| - 1], db[k])
    requires |db| <= |r| <= |db| + 1 && r[..|db|] == db
    requires |r| > |db| ==> forall j :: 0 <= j < |ls| - 1 ==> ls[j].key != Some(r[|db|].id)
    ensures FirstSeenOrder(ls, r)
  {
    var init := ls[..|ls| - 1];
    var n := |ls| - 1;
    assert forall j :: 0 <= j < |init| ==> init[j] == ls[j];
    assert forall k :: 0 <= k < |db| ==> r[k] == db[k];
    forall k1, k2, j2 | 0 <= k1 < k2 < |r| && 0 <= j2 < |ls| && ls[j2].key == Some(r[k2].id)
      ensures KeyBefore(ls, j2, r[k1].id)
    {
      if k2 < |db| {
        if j2 < n {
          assert init[j2].key == Some(db[k2].id);
          FirstSeenAt(init, db, k1, k2, j2);
          var j1 :| 0 <= j1 < j2 && init[j1].key == Some(db[k1].id);
          assert ls[j1].key == Some(r[k1].id);
        } else {
          assert FromFirstLine(init, db[k2]);
          var j :| 0 <= j < |init| && FirstWithKey(init, j) && init[j].key == Some(db[k2].id) && db[k2].cols == init[j].row;
          FirstSeenAt(init, db, k1, k2, j);
          var j1 :| 0 <= j1 < j && init[j1].key == Some(db[k1].id);
          assert ls[j1].key == Some(r[k1].id);
        }
      } else {
        assert FromFirstLine(init, db[k1]);
        var j :| 0 <= j < |init| && FirstWithKey(init, j) && init[j].key == Some(db[k1].id) && db[k1].cols == init[j].row;
        assert ls[j].key == Some(r[k1].id) && j < n <= j2;
      }
    }
  }

  // ---------------------------------------------------------------------
  // attaching line items (the pass over the line-items file)

  /** Entry `id` with one more line-item row. */
  function AddItem(db: seq<Order>, id: int, row: seq<string>): (r: seq<Order>)
    ensures |r| == |db| && Ids(r) == Ids(db)
  {
    seq(|db|, k requires 0 <= k < |db| => if db[k].id == id then db[k].(items := db[k].items + [row]) else db[k])
  }

  /** The line-item rows of the file whose key is `id`, in file order. */
  function ItemsFor(ls: seq<Line>, id: int): seq<seq<string>>
    decreases |ls|
  {
    if |ls| == 0 then []
    else ItemsFor(ls[..|ls| - 1], id) + (if Last(ls).key == Some(id) then [Last(ls).row] else [])
  }

  /** Reading the line-items file: each row is appended to its order;
      a key that does not parse raises `ValueError`, a key with no order
      `KeyError` (after the "can not find order" report). */
  function AttachItems(db: seq<Order>, ls: seq<Line>): (r: Result<seq<Order>>)
    ensures r.Err? <==> exists j :: 0 <= j < |ls| && (ls[j].key.None? || ls[j].key.value !in Ids(db))
    ensures r.Err? ==> r.error == ValueError || r.error == KeyError
    ensures r.Err? && (forall j :: 0 <= j < |ls| ==> ls[j].key.Some?) ==> r.error == KeyError
    ensures r.Err? && (forall j :: 0 <= j < |ls| && ls[j].key.Some? ==> ls[j].key.value in Ids(db)) ==> r.error == ValueError
    ensures r.Ok? ==> |r.value| == |db| && Ids(r.value) == Ids(db)
    decreases |ls|
  {
    if |ls| == 0 then Ok(db)
    else
      var init := ls[..|ls| - 1];
      assert forall j :: 0 <= j < |init| ==> init[j] == ls[j];
      match AttachItems(db, init)
      case Err(e) => Err(e)
      case Ok(cur) =>
        var line := Last(ls);
        match line.key
        case None => Err(ValueError)
        case Some(id) => if id !in Ids(cur) then Err(KeyError) else Ok(AddItem(cur, id, line.row))
  }

  /** After a successful read every order holds exactly the rows of the
      file with its key, in file order; nothing else about it changes. */
  lemma {:induction false} AttachItemsContents(db: seq<Order>, ls: seq<Line>)
    requires AttachItems(db, ls).Ok?
    ensures var r := AttachItems(db, ls).value;
            forall k :: 0 <= k < |db| ==> r[k] == db[k].(items := db[k].items + ItemsFor(ls, db[k].id))
    decreases |ls|
  {
    if |ls| > 0 {
      var init := ls[..|ls| - 1];
      assert forall j :: 0 <= j < |init| ==> init[j] == ls[j];
      AttachItemsContents(db, init);
    }
  }

  /** The number of line-item rows in the table. */
  function TotalItems(db: seq<Order>): nat
    decreases |db|
  {
    if |db| == 0 then 0 else |db[0].items| + TotalItems(db[1..])
  }

  lemma {:induction false} AddItemTotal(db: seq<Order>, id: int, row: seq<string>)
    requires Distinct(db) && id in Ids(db)
    ensures TotalItems(AddItem(db, id, row)) == TotalItems(db) + 1
    decreases |db|
  {
    var r := AddItem(db, id, row);
    assert r[1..] == AddItem(db[1..], id, row);
    assert Ids(db[1..]) == Ids(db)[1..];
    if db[0].id == id {
      assert id !in Ids(db[1..]);
      AddItemNone(db[1..], id, row);
    } else {
      AddItemTotal(db[1..], id, row);
    }
  }

  lemma AddItemNone(db: seq<Order>, id: int, row: seq<string>)
    requires id !in Ids(db)
    ensures AddItem(db, id, row) == db
  {
    assert forall k :: 0 <= k < |db| ==> Ids(db)[k] == db[k].id;
  }

  lemma DistinctIds(db: seq<Order>, r: seq<Order>)
    requires Distinct(db) && |r| == |db| && Ids(r) == Ids(db)
    ensures Distinct(r)
  {
    forall k1, k2 | 0 <= k1 < k2 < |r|
      ensures r[k1].id != r[k2].id
    {
      assert Ids(r)[k1] == Ids(db)[k1] && Ids(r)[k2] == Ids(db)[k2];
    }
  }

  /** Every line-item row lands in exactly one order: the table gains one
      row per line of the file. */
  lemma {:induction false} AttachItemsCount(db: seq<Order>, ls: seq<Line>)
    requires Distinct(db) && AttachItems(db, ls).Ok?
    ensures TotalItems(AttachItems(db, ls).value) == TotalItems(db) + |ls|
    decreases |ls|
  {
    if |ls| > 0 {
      var init := ls[..|ls| - 1];
      assert forall j :: 0 <= j < |init| ==> init[j] == ls[j];
      AttachItemsCount(db, init);
      var cur := AttachItems(db, init).value;
      DistinctIds(db, cur);
      AddItemTotal(cur, Last(ls).key.value, Last(ls).row);
    }
  }

  // ---------------------------------------------------------------------
  // the delete file (the pass over the delete keys)

  /** The table with every order named by the delete keys marked; each key
      must have parsed (`ValueError` otherwise). */
  function MarkDeletes(db: seq<Order>, keys: seq<Option<int>>): (r: Result<seq<Order>>)
    ensures r.Err? <==> exists j :: 0 <= j < |keys| && keys[j].None?
    ensures r.Err? ==> r.error == ValueError
    ensures r.Ok? ==> |r.value| == |db| && forall k :: 0 <= k < |db| ==>
              && r.value[k].(delete := db[k].delete) == db[k]
              && (r.value[k].delete <==> db[k].delete || Some(db[k].id) in keys)
    decreases |keys|
  {
    if |keys| == 0 then Ok(db)
    else
      var init := keys[..|keys| - 1];
      assert forall j :: 0 <= j < |init| ==> init[j] == keys[j];
      assert keys == init + [Last(keys)];
      match MarkDeletes(db, init)
      case Err(e) => Err(e)
      case Ok(cur) =>
        match Last(keys)
        case None => Err(ValueError)
        case Some(id) => Ok(seq(|cur|, k requires 0 <= k < |cur| => if cur[k].id == id then cur[k].(delete := true) else cur[k]))
  }

  /** The keys of the delete file: `int()` of each stripped line. */
  function DeleteKeys(lines: seq<string>): (r: seq<Option<int>>)
    ensures |r| == |lines| && forall j :: 0 <= j < |lines| ==> r[j] == ParseInt(Strip(lines[j]))
  {
    seq(|lines|, j requires 0 <= j < |lines| => ParseInt(Strip(lines[j])))
  }

  /** The stripped lines of the delete file, kept for the DELETEs. */
  function DeleteList(lines: seq<string>): (r: seq<string>)
    ensures |r| == |lines| && forall j :: 0 <= j < |lines| ==> r[j] == Strip(lines[j])
  {
    seq(|lines|, j requires 0 <= j < |lines| => Strip(lines[j]))
  }

  // ---------------------------------------------------------------------
  // the statements (the INSERT loop over the table and the DELETE loop)

  function Quote(x: string): string {
    "'" + x + "'"
  }

  function ToDate(x: string): string {
    "to_date('" + x + "')"
  }

  /** The values of an order's INSERT. */
  function OrderValues(id: int, c: seq<string>): (r: seq<string>)
    requires |c| >= 9
    ensures |r| == 9
  {
    [IntToString(id), c[1], Quote(c[2]), c[3], ToDate(c[4]), Quote(c[5]), Quote(c[6]), c[7], Quote(c[8])]
  }

  /** The INSERT for an order; a row with fewer than nine columns raises
      `IndexError`. */
  function OrderInsert(o: Order): (r: Result<string>)
    ensures r.Err? <==> |o.cols| < 9
    ensures r.Err? ==> r.error == IndexError
    ensures r.Ok? ==> r.value == "insert into orders select " + Join(OrderValues(o.id, o.cols), ',') + ";"
  {
    if |o.cols| < 9 then Err(IndexError)
    else Ok("insert into orders select " + Join(OrderValues(o.id, o.cols), ',') + ";")
  }

  /** The values of a line item's INSERT: the first eight columns as they
      are, then flags, dates and texts quoted. */
  function ItemValues(c: seq<string>): (r: seq<string>)
    requires |c| >= 16
    ensures |r| == 16 && r[..8] == c[..8]
    ensures forall i :: 8 <= i < 16 ==>
              r[i] == if 10 <= i <= 12 then "to_date('" + c[i] + "')" else "'" + c[i] + "'"
  {
    c[..8] + [Quote(c[8]), Quote(c[9]), ToDate(c[10]), ToDate(c[11]), ToDate(c[12]),
              Quote(c[13]), Quote(c[14]), Quote(c[15])]
  }

  /** The INSERT for a line item; a row with fewer than sixteen columns
      raises `IndexError`. */
  function ItemInsert(c: seq<string>): (r: Result<string>)
    ensures r.Err? <==> |c| < 16
    ensures r.Err? ==> r.error == IndexError
    ensures r.Ok? ==> r.value == "insert into lineitem select " + Join(ItemValues(c), ',') + ";"
  {
    if |c| < 16 then Err(IndexError)
    else Ok("insert into lineitem select " + Join(ItemValues(c), ',') + ";")
  }

  /** Some line-item row has fewer than sixteen columns. */
  predicate ShortItem(items: seq<seq<string>>) {
    exists i :: 0 <= i < |items| && |items[i]| < 16
  }

  /** An order whose INSERTs raise: too few columns in its own row or in
      one of its line items. */
  predicate Malformed(o: Order) {
    |o.cols| < 9 || ShortItem(o.items)
  }

  /** The INSERTs of an order's line items, in the order they were read. */
  function ItemInserts(items: seq<seq<string>>): (r: Result<seq<string>>)
    ensures r.Err? <==> ShortItem(items)
    ensures r.Err? ==> r.error == IndexError
    ensures r.Ok? ==> |r.value| == |items|
    ensures r.Ok? ==> forall i :: 0 <= i < |items| ==> ItemInsert(items[i]) == Ok(r.value[i])
    decreases |items|
  {
    ShortItemFails(items);
    MapResult(items, ItemInsert)
  }

  /** A row is short exactly when its INSERT fails. */
  lemma ShortItemFails(items: seq<seq<string>>)
    ensures ShortItem(items) <==> exists i :: 0 <= i < |items| && ItemInsert(items[i]).Err?
  {
    if ShortItem(items) {
      var i :| 0 <= i < |items| && |items[i]| < 16;
      assert ItemInsert(items[i]).Err?;
    }
  }

  /** `f` applied to every element in turn, stopping at the first failure. */
  function MapResult<A, B>(xs: seq<A>, f: A -> Result<B>): (r: Result<seq<B>>)
    ensures r.Err? <==> exists i :: 0 <= i < |xs| && f(xs[i]).Err?
    ensures r.Err? ==> exists i :: 0 <= i < |xs| && f(xs[i]) == Err(r.error)
    ensures r.Ok? ==> |r.value| == |xs| && forall i :: 0 <= i < |xs| ==> f(xs[i]) == Ok(r.value[i])
    decreases |xs|
  {
    if |xs| == 0 then Ok([])
    else
      ExistsTail(xs, (x: A) => f(x).Err?);
      match f(xs[0])
      case Err(e) => Err(e)
      case Ok(first) =>
        match MapResult(xs[1..], f)
        case Err(e) =>
          assert exists i :: 0 <= i < |xs| && f(xs[i]) == Err(e) by {
            var i :| 0 <= i < |xs[1..]| && f(xs[1..][i]) == Err(e);
            assert xs[1..][i] == xs[i + 1];
          }
          Err(e)
        case Ok(rest) =>
          assert forall i :: 1 <= i < |xs| ==> xs[i] == xs[1..][i - 1];
          Ok([first] + rest)
  }

  /** The INSERT statements for the whole table: each order's INSERT
      immediately followed by those of its line items, orders in table
      order; the delete mark plays no part. */
  function Inserts(db: seq<Order>): (r: Result<seq<string>>)
    ensures r.Err? <==> exists k :: 0 <= k < |db| && Malformed(db[k])
    ensures r.Err? ==> r.error == IndexError
    ensures r.Ok? ==> |r.value| == |db| + TotalItems(db)
    ensures r.Ok? && |db| > 0 ==> OrderInsert(db[0]) == Ok(r.value[0])
    decreases |db|
  {
    if |db| == 0 then Ok([])
    else
      MalformedCons(db);
      match OrderInsert(db[0])
      case Err(e) => Err(e)
      case Ok(s) =>
        match ItemInserts(db[0].items)
        case Err(e) => Err(e)
        case Ok(items) =>
          match Inserts(db[1..])
          case Err(e) => Err(e)
          case Ok(rest) => Ok([s] + items + rest)
  }

  /** The INSERTs of a single well-formed order: its own, then its line
      items'. */
  lemma InsertsOne(o: Order)
    requires !Malformed(o)
    ensures Inserts([o]) == Ok([OrderInsert(o).value] + ItemInserts(o.items).value)
  {
    InsertsCons([o]);
    assert [o][0] == o && [o][1..] == [];
    var x := [OrderInsert(o).value] + ItemInserts(o.items).value;
    assert Inserts([o]).value == x + [];
    assert x + [] == x;
  }

  /** One step of the INSERT loop: the first order's statements, then the
      rest's. */
  lemma InsertsCons(db: seq<Order>)
    requires |db| > 0
    ensures Inserts(db).Ok? <==> !Malformed(db[0]) && Inserts(db[1..]).Ok?
    ensures Inserts(db).Ok? ==>
              Inserts(db).value == [OrderInsert(db[0]).value] + ItemInserts(db[0].items).value + Inserts(db[1..]).value
  {
  }

  /** The INSERTs of two tables one after the other are those of the first
      followed by those of the second, and either failing fails both. */
  lemma InsertsAppend(a: seq<Order>, b: seq<Order>)
    ensures Inserts(a + b).Ok? <==> Inserts(a).Ok? && Inserts(b).Ok?
    ensures Inserts(a + b).Ok? ==> Inserts(a + b).value == Inserts(a).value + Inserts(b).value
  {
    InsertsAppendOk(a, b);
    if Inserts(a + b).Ok? {
      InsertsAppendValue(a, b);
    }
  }

  lemma {:induction false} InsertsAppendOk(a: seq<Order>, b: seq<Order>)
    ensures Inserts(a + b).Ok? <==> Inserts(a).Ok? && Inserts(b).Ok?
    decreases |a|
  {
    if |a| == 0 {
      assert a + b == b;
    } else {
      var ab := a + b;
      assert ab[0] == a[0] && ab[1..] == a[1..] + b;
      InsertsCons(a);
      InsertsCons(ab);
      InsertsAppendOk(a[1..], b);
    }
  }

  lemma {:induction false} InsertsAppendValue(a: seq<Order>, b: seq<Order>)
    requires Inserts(a).Ok? && Inserts(b).Ok?
    ensures Inserts(a + b).Ok? && Inserts(a + b).value == Inserts(a).value + Inserts(b).value
    decreases |a|
  {
    InsertsAppendOk(a, b);
    if |a| == 0 {
      assert a + b == b;
    } else {
      InsertsCons(a);
      InsertsAppendValue(a[1..], b);
      InsertsAppendStep(a, b);
    }
  }

  /** The step of `InsertsAppendValue`: the first order's statements come
      in front of both sides. */
  lemma InsertsAppendStep(a: seq<Order>, b: seq<Order>)
    requires |a| > 0 && Inserts(a).Ok? && Inserts(a + b).Ok?
    requires Inserts(a[1..]).Ok? && Inserts(b).Ok? && Inserts(a[1..] + b).Ok?
    requires Inserts(a[1..] + b).value == Inserts(a[1..]).value + Inserts(b).value
    ensures Inserts(a + b).value == Inserts(a).value + Inserts(b).value
  {
    InsertsCons(a);
    InsertsConsAppend(a, b);
    ConcatShift([OrderInsert(a[0]).value] + ItemInserts(a[0].items).value,
                Inserts(a[1..]).value, Inserts(b).value, Inserts(a + b).value, Inserts(a).value);
  }

  /** The first order of `a + b` is that of `a`. */
  lemma InsertsConsAppend(a: seq<Order>, b: seq<Order>)
    requires |a| > 0 && Inserts(a + b).Ok?
    ensures Inserts(a[1..] + b).Ok? && !Malformed(a[0])
    ensures Inserts(a + b).value
            == [OrderInsert(a[0]).value] + ItemInserts(a[0].items).value + Inserts(a[1..] + b).value
  {
    TailAppend(a, b);
    InsertsCons(a + b);
  }

  lemma ConcatShift(head: seq<string>, xs: seq<string>, ys: seq<string>, zs: seq<string>, ws: seq<string>)
    requires zs == head + (xs + ys) && ws == head + xs
    ensures zs == ws + ys
  {
  }

  lemma MalformedCons(db: seq<Order>)
    requires |db| > 0
    ensures (exists k :: 0 <= k < |db| && Malformed(db[k]))
            <==> Malformed(db[0]) || exists k :: 0 <= k < |db[1..]| && Malformed(db[1..][k])
  {
    if exists k :: 0 <= k < |db| && Malformed(db[k]) {
      var k :| 0 <= k < |db| && Malformed(db[k]);
      if k > 0 {
        assert db[1..][k - 1] == db[k];
      }
    }
  }

  /** Orders marked for deletion are inserted all the same: the INSERTs do
      not depend on the delete marks. */
  lemma {:induction false} InsertsIgnoreDelete(db: seq<Order>, marked: seq<Order>)
    requires |marked| == |db| && forall k :: 0 <= k < |db| ==> marked[k].(delete := db[k].delete) == db[k]
    ensures Inserts(marked) == Inserts(db)
    decreases |db|
  {
    if |db| > 0 {
      assert marked[0].cols == db[0].cols && marked[0].items == db[0].items && marked[0].id == db[0].id;
      InsertsIgnoreDelete(db[1..], marked[1..]);
    }
  }

  /** An order's INSERT reads back column by column when no column holds a
      comma: the key as the integer, the texts quoted, the date wrapped. */
  lemma OrderInsertFields(o: Order)
    requires |o.cols| >= 9 && forall i :: 0 <= i < 9 ==> ',' !in o.cols[i]
    ensures var v := Split(OrderInsert(o).value[26..|OrderInsert(o).value| - 1], ',');
            && v == OrderValues(o.id, o.cols)
            && ParseInt(v[0]) == Some(o.id)
            && v[2] == "'" + o.cols[2] + "'" && v[4] == "to_date('" + o.cols[4] + "')"
  {
    OrderInsertSplit(o);
    OrderValuesShape(o.id, o.cols);
  }

  lemma OrderInsertSplit(o: Order)
    requires |o.cols| >= 9 && forall i :: 0 <= i < 9 ==> ',' !in o.cols[i]
    ensures Split(OrderInsert(o).value[26..|OrderInsert(o).value| - 1], ',') == OrderValues(o.id, o.cols)
  {
    OrderValuesNoComma(o.id, o.cols);
    InsertSplit("insert into orders select ", OrderValues(o.id, o.cols));
  }

  lemma OrderValuesShape(id: int, c: seq<string>)
    requires |c| >= 9
    ensures var v := OrderValues(id, c);
            ParseInt(v[0]) == Some(id) && v[2] == "'" + c[2] + "'" && v[4] == "to_date('" + c[4] + "')"
  {
    var v := OrderValues(id, c);
    assert v[0] == IntToString(id) && v[2] == Quote(c[2]) && v[4] == ToDate(c[4]);
    IntToStringValue(id);
  }

  /** The statement text between the head and the final `;`. */
  lemma InsertBody(head: string, body: string)
    ensures (head + body + ";")[|head|..|head + body + ";"| - 1] == body
  {
  }

  /** Cutting off the head and the final `;` and splitting on commas gives
      back comma-free values. */
  lemma InsertSplit(head: string, vals: seq<string>)
    requires |vals| >= 1 && forall i :: 0 <= i < |vals| ==> ',' !in vals[i]
    ensures var s := head + Join(vals, ',') + ";";
            Split(s[|head|..|s| - 1], ',') == vals
  {
    InsertBody(head, Join(vals, ','));
    SplitJoin(vals, ',');
  }

  /** A line item's INSERT reads back column by column when no column holds
      a comma: the first eight as they are, the three dates wrapped in
      `to_date`, the flags and texts quoted. */
  lemma ItemInsertFields(c: seq<string>)
    requires |c| >= 16 && forall i :: 0 <= i < 16 ==> ',' !in c[i]
    ensures var v := Split(ItemInsert(c).value[28..|ItemInsert(c).value| - 1], ',');
            && v == ItemValues(c)
            && v[..8] == c[..8]
            && (forall i :: 10 <= i <= 12 ==> v[i] == "to_date('" + c[i] + "')")
            && (forall i :: 8 <= i < 16 && !(10 <= i <= 12) ==> v[i] == "'" + c[i] + "'")
  {
    ItemValuesNoComma(c);
    InsertSplit("insert into lineitem select ", ItemValues(c));
  }

  /** No value of a line item's INSERT holds a comma when no column does. */
  lemma ItemValuesNoComma(c: seq<string>)
    requires |c| >= 16 && forall i :: 0 <= i < 16 ==> ',' !in c[i]
    ensures forall i :: 0 <= i < 16 ==> ',' !in ItemValues(c)[i]
  {
    var vals := ItemValues(c);
    forall i | 0 <= i < 16
      ensures ',' !in vals[i]
    {
      if i < 8 {
        assert vals[i] == vals[..8][i] == c[i];
      }
    }
  }

  /** No value of an order's INSERT holds a comma when no column does. */
  lemma OrderValuesNoComma(id: int, c: seq<string>)
    requires |c| >= 9 && forall i :: 0 <= i < 9 ==> ',' !in c[i]
    ensures forall i :: 0 <= i < 9 ==> ',' !in OrderValues(id, c)[i]
  {
    var v := OrderValues(id, c);
    var t := IntToString(id);
    assert forall p :: 0 <= p < |t| ==> t[p] != ',';
    assert v[0] == t;
  }

  /** The two DELETEs for each key of the delete file, in file order. */
  function Deletes(keys: seq<string>): (r: seq<string>)
    ensures |r| == 2 * |keys|
    ensures forall i :: 0 <= i < |keys| ==>
              && r[2 * i] == "delete from orders where o_orderkey = " + keys[i] + ";"
              && r[2 * i + 1] == "delete from lineitem where l_orderkey = " + keys[i] + ";"
    decreases |keys|
  {
    if |keys| == 0 then []
    else
      ["delete from orders where o_orderkey = " + keys[0] + ";",
       "delete from lineitem where l_orderkey = " + keys[0] + ";"] + Deletes(keys[1..])
  }

  /** The whole script: load the three files, then print the INSERTs and
      the DELETEs. */
  function RefreshStatements(orders: seq<string>, items: seq<string>, deletes: seq<string>): (r: Result<(seq<string>, seq<string>)>)
    ensures (exists j :: 0 <= j < |orders| && ParseLine(orders[j]).key.None?) ==> r == Err(ValueError)
    ensures r.Ok? ==> |r.value.1| == 2 * |deletes|
  {
    var db :- LoadOrders(ParseLines(orders));
    var withItems :- AttachItems(db, ParseLines(items));
    var marked :- MarkDeletes(withItems, DeleteKeys(deletes));
    var ins :- Inserts(marked);
    Ok((ins, Deletes(DeleteList(deletes))))
  }

  /** A successful run prints one INSERT per distinct order key and one per
      line-item row, whatever the delete file says. */
  lemma RefreshInsertCount(orders: seq<string>, items: seq<string>, deletes: seq<string>)
    requires RefreshStatements(orders, items, deletes).Ok?
    ensures |RefreshStatements(orders, items, deletes).value.0| == |LoadOrders(ParseLines(orders)).value| + |items|
  {
    var db := LoadOrders(ParseLines(orders)).value;
    LoadOrdersTable(ParseLines(orders));
    var withItems := AttachItems(db, ParseLines(items)).value;
    AttachItemsCount(db, ParseLines(items));
    EmptyItems(db);
    var marked := MarkDeletes(withItems, DeleteKeys(deletes)).value;
    InsertsIgnoreDelete(withItems, marked);
  }

  lemma {:induction false} EmptyItems(db: seq<Order>)
    requires forall k :: 0 <= k < |db| ==> db[k].items == []
    ensures TotalItems(db) == 0
    decreases |db|
  {
    if |db| > 0 {
      EmptyItems(db[1..]);
    }
  }
}

=== FILE: schema_rewrite.dfy ===
/** The line pass that turns the ANSI schema files shipped with the TPC kits
    into BigQuery DDL: for TPC-DS (`schema.rewrite_ds_bq_basic`,
    `tpcds_bq.rewrite_schema`) "primary key" lines are dropped and, with a
    dataset prefix, each "create table" line is reduced to its first three
    words with the table qualified by the dataset; for TPC-H
    (`schema.rewrite_h_basic`, `h_setup.rewrite_schema`,
    `h_bq.rewrite_schema_DUP`) each "CREATE TABLE" line has its third word
    qualified and every line may be lower-cased. The text given here is the
    text after the regular-expression datatype substitution. */
module SchemaRewrite {
  import opened Wrappers
  import opened Text

  const PrimaryKey: string := "primary key"
  const DsCreate: string := "create table"
  const HCreate: string := "CREATE TABLE"

  /** A table name qualified by its dataset. */
  function Qualified(dataset: string, table: string): string {
    dataset + "." + table
  }

  lemma NoSpaceNoNewline(w: string)
    requires NoSpace(w)
    ensures '\n' !in w
  {
  }

  /** Words joined by single spaces, none holding whitespace, never hold a
      line break. */
  lemma WordsNoNewline(ws: seq<string>)
    requires forall i :: 0 <= i < |ws| ==> NoSpace(ws[i])
    ensures '\n' !in Join(ws, ' ')
  {
    forall i | 0 <= i < |ws|
      ensures '\n' !in ws[i]
    {
      NoSpaceNoNewline(ws[i]);
    }
    JoinAvoids(ws, ' ', '\n');
  }

  lemma QualifiedIsWord(dataset: string, table: string)
    ensures NoSpace(dataset) && NoSpace(table) ==>
              |Qualified(dataset, table)| > 0 && NoSpace(Qualified(dataset, table))
  {
    var q := Qualified(dataset, table);
    if NoSpace(dataset) && NoSpace(table) {
      forall i | 0 <= i < |q|
        ensures !IsSpace(q[i])
      {
        if i < |dataset| {
          assert q[i] == dataset[i];
        } else if i > |dataset| {
          assert q[i] == table[i - |dataset| - 1];
        }
      }
    }
  }

  /** Words, each non-empty and free of whitespace, joined by single spaces:
      `split()` gives them back, and the line holds no line break. */
  lemma JoinedWords(ws: seq<string>)
    ensures (forall i :: 0 <= i < |ws| ==> |ws[i]| > 0 && NoSpace(ws[i])) ==>
              WsSplit(Join(ws, ' ')) == ws && '\n' !in Join(ws, ' ')
  {
    if forall i :: 0 <= i < |ws| ==> |ws[i]| > 0 && NoSpace(ws[i]) {
      WsSplitJoin(ws);
      WordsNoNewline(ws);
    }
  }

  lemma SplitJoinLines(xs: seq<string>)
    ensures |xs| >= 1 && (forall i :: 0 <= i < |xs| ==> '\n' !in xs[i]) ==> Split(Join(xs, '\n'), '\n') == xs
  {
    if |xs| >= 1 && (forall i :: 0 <= i < |xs| ==> '\n' !in xs[i]) {
      SplitJoin(xs, '\n');
    }
  }

  // ---------------------------------------------------------------------
  // TPC-DS

  /** One input line of the TPC-DS pass: `None` when it is dropped. A
      "create table" line with fewer than three words raises `IndexError`
      when the prefix is applied. */
  function DsLine(line: string, dataset: string, prefix: bool): (r: Result<Option<string>>)
    ensures r == Ok(None) <==> Contains(line, PrimaryKey)
    ensures r.Err? <==> !Contains(line, PrimaryKey) && prefix && Contains(line, DsCreate) && |WsSplit(line)| < 3
    ensures !Contains(line, PrimaryKey) && !(prefix && Contains(line, DsCreate)) ==> r == Ok(Some(line))
    ensures r.Ok? && r.value.Some? && prefix && Contains(line, DsCreate) && NoSpace(dataset) ==>
              && WsSplit(r.value.value) == WsSplit(line)[..2] + [Qualified(dataset, WsSplit(line)[2])]
              && SingleSpaced(r.value.value)
    ensures r.Ok? && r.value.Some? && '\n' !in line && NoSpace(dataset) ==> '\n' !in r.value.value
  {
    if Contains(line, PrimaryKey) then Ok(None)
    else if Contains(line, DsCreate) && prefix then
      var toks := WsSplit(line);
      if |toks| < 3 then Err(IndexError)
      else
        var ws := toks[..2] + [Qualified(dataset, toks[2])];
        QualifiedIsWord(dataset, toks[2]);
        JoinedWords(ws);
        Ok(Some(Join(ws, ' ')))
    else Ok(Some(line))
  }

  /** The input lines without a primary-key clause, in order. */
  function WithoutKeys(lines: seq<string>): seq<string> {
    if |lines| == 0 then []
    else (if Contains(lines[0], PrimaryKey) then [] else [lines[0]]) + WithoutKeys(lines[1..])
  }

  /** The kept lines never hold a primary-key clause, and are lines of the
      input. */
  lemma {:induction false} WithoutKeysFacts(lines: seq<string>)
    ensures forall i :: 0 <= i < |WithoutKeys(lines)| ==>
              !Contains(WithoutKeys(lines)[i], PrimaryKey) && WithoutKeys(lines)[i] in lines
    decreases |lines|
  {
    if |lines| > 0 {
      WithoutKeysFacts(lines[1..]);
      var rest := WithoutKeys(lines[1..]);
      var w := WithoutKeys(lines);
      assert w == (if Contains(lines[0], PrimaryKey) then [] else [lines[0]]) + rest;
      forall i | 0 <= i < |w|
        ensures !Contains(w[i], PrimaryKey) && w[i] in lines
      {
        if !Contains(lines[0], PrimaryKey) && i > 0 {
          assert w[i] == rest[i - 1];
          assert rest[i - 1] in lines[1..];
        } else if Contains(lines[0], PrimaryKey) {
          assert w[i] == rest[i];
          assert rest[i] in lines[1..];
        }
      }
    }
  }

  /** Each output line is what the line rule makes of the matching kept
      input line. */
  predicate LinewiseDs(kept: seq<string>, out: seq<string>, dataset: string, prefix: bool) {
    |out| == |kept| && forall i :: 0 <= i < |out| ==> DsLine(kept[i], dataset, prefix) == Ok(Some(out[i]))
  }

  function DsLines(lines: seq<string>, dataset: string, prefix: bool): (r: Result<seq<string>>)
    ensures r.Err? <==> exists i :: 0 <= i < |lines| && DsLine(lines[i], dataset, prefix).Err?
    ensures r.Ok? ==> LinewiseDs(WithoutKeys(lines), r.value, dataset, prefix)
    ensures r.Ok? && NoSpace(dataset) && (forall i :: 0 <= i < |lines| ==> '\n' !in lines[i]) ==>
              forall i :: 0 <= i < |r.value| ==> '\n' !in r.value[i]
    ensures !prefix ==> r == Ok(WithoutKeys(lines))
  {
    if |lines| == 0 then Ok([])
    else
      ExistsTail(lines, l => DsLine(l, dataset, prefix).Err?);
      match DsLine(lines[0], dataset, prefix)
      case Err(e) => Err(e)
      case Ok(first) =>
        match DsLines(lines[1..], dataset, prefix)
        case Err(e) => Err(e)
        case Ok(rest) =>
          DsLinesStep(lines, first, rest, dataset, prefix);
          Ok((if first.Some? then [first.value] else []) + rest)
  }

  /** The first line's verdict extends the correspondence of the rest. */
  lemma DsLinesStep(lines: seq<string>, first: Option<string>, rest: seq<string>, dataset: string, prefix: bool)
    requires |lines| > 0 && DsLine(lines[0], dataset, prefix) == Ok(first)
    requires LinewiseDs(WithoutKeys(lines[1..]), rest, dataset, prefix)
    ensures LinewiseDs(WithoutKeys(lines), (if first.Some? then [first.value] else []) + rest, dataset, prefix)
  {
    var kept := WithoutKeys(lines);
    var tail := WithoutKeys(lines[1..]);
    var out := (if first.Some? then [first.value] else []) + rest;
    if first.Some? {
      assert kept == [lines[0]] + tail;
      forall i | 0 <= i < |out|
        ensures DsLine(kept[i], dataset, prefix) == Ok(Some(out[i]))
      {
        if i > 0 {
          assert kept[i] == tail[i - 1] && out[i] == rest[i - 1];
        }
      }
    } else {
      assert kept == tail && out == rest;
    }
  }

  /** The TPC-DS pass over a whole schema text (split and re-joined on line
      breaks); the file write is left to the caller. */
  function RewriteDsSchema(text: string, dataset: string, prefix: bool): (r: Result<string>)
    ensures r.Err? <==> exists i :: 0 <= i < |Split(text, '\n')| && DsLine(Split(text, '\n')[i], dataset, prefix).Err?
    ensures !prefix ==> r == Ok(Join(WithoutKeys(Split(text, '\n')), '\n'))
    ensures r.Ok? && NoSpace(dataset) && |WithoutKeys(Split(text, '\n'))| > 0 ==>
              LinewiseDs(WithoutKeys(Split(text, '\n')), Split(r.value, '\n'), dataset, prefix)
  {
    var lines := Split(text, '\n');
    match DsLines(lines, dataset, prefix)
    case Err(e) =>
      var j :| 0 <= j < |lines| && DsLine(lines[j], dataset, prefix).Err?;
      assert DsLine(Split(text, '\n')[j], dataset, prefix).Err?;
      Err(e)
    case Ok(out) =>
      SplitJoinLines(out);
      Ok(Join(out, '\n'))
  }

  /** `tpcds_bq.rewrite_schema` is the prefixed pass. It fails exactly when
      some "create table" line without a primary key has fewer than three
      words. Otherwise the lines without a primary key come out in order,
      one per line: each "create table" line reduced to its first two words
      and the table qualified by the dataset, every other line copied
      unchanged. */
  lemma TpcdsBqRewrite(text: string, dataset: string)
    requires NoSpace(dataset)
    ensures var kept := WithoutKeys(Split(text, '\n'));
            RewriteDsSchema(text, dataset, true).Err? <==>
              exists i :: 0 <= i < |kept| && Contains(kept[i], DsCreate) && |WsSplit(kept[i])| < 3
    ensures var kept := WithoutKeys(Split(text, '\n'));
            var r := RewriteDsSchema(text, dataset, true);
            r.Ok? && |kept| > 0 ==>
              var out := Split(r.value, '\n');
              && |out| == |kept|
              && (forall i :: 0 <= i < |kept| && !Contains(kept[i], DsCreate) ==> out[i] == kept[i])
              && (forall i :: 0 <= i < |kept| && Contains(kept[i], DsCreate) ==>
                    && WsSplit(out[i]) == WsSplit(kept[i])[..2] + [Qualified(dataset, WsSplit(kept[i])[2])]
                    && out[i] == Join(WsSplit(kept[i])[..2] + [Qualified(dataset, WsSplit(kept[i])[2])], ' '))
  {
    var lines := Split(text, '\n');
    var kept := WithoutKeys(lines);
    WithoutKeysFacts(lines);
    var r := RewriteDsSchema(text, dataset, true);
    if r.Err? {
      var j :| 0 <= j < |lines| && DsLine(lines[j], dataset, true).Err?;
      KeptLine(lines, j);
    } else {
      forall i | 0 <= i < |kept|
        ensures !(Contains(kept[i], DsCreate) && |WsSplit(kept[i])| < 3)
      {
        var j :| 0 <= j < |lines| && lines[j] == kept[i];
        assert DsLine(lines[j], dataset, true).Ok?;
      }
    }
  }

  /** A line without a primary key survives into the kept lines. */
  lemma {:induction false} KeptLine(lines: seq<string>, j: int)
    requires 0 <= j < |lines| && !Contains(lines[j], PrimaryKey)
    ensures exists i :: 0 <= i < |WithoutKeys(lines)| && WithoutKeys(lines)[i] == lines[j]
    decreases |lines|
  {
    var w := WithoutKeys(lines);
    var rest := WithoutKeys(lines[1..]);
    assert w == (if Contains(lines[0], PrimaryKey) then [] else [lines[0]]) + rest;
    if j == 0 {
      assert w[0] == lines[0];
    } else {
      assert lines[1..][j - 1] == lines[j];
      KeptLine(lines[1..], j - 1);
      var i :| 0 <= i < |rest| && rest[i] == lines[j];
      if Contains(lines[0], PrimaryKey) {
        assert w[i] == lines[j];
      } else {
        assert w[i + 1] == lines[j];
      }
    }
  }

  /** A schema without primary-key or "create table" lines passes the
      prefixed pass unchanged. */
  lemma TpcdsBqUntouched(text: string, dataset: string)
    requires NoSpace(dataset)
    requires forall i :: 0 <= i < |Split(text, '\n')| ==>
               !Contains(Split(text, '\n')[i], PrimaryKey) && !Contains(Split(text, '\n')[i], DsCreate)
    ensures RewriteDsSchema(text, dataset, true) == Ok(text)
  {
    var lines := Split(text, '\n');
    PassThrough(lines, dataset);
    KeepAll(lines);
    JoinSplit(text, '\n');
  }

  lemma {:induction false} PassThrough(lines: seq<string>, dataset: string)
    requires forall i :: 0 <= i < |lines| ==> !Contains(lines[i], PrimaryKey) && !Contains(lines[i], DsCreate)
    ensures DsLines(lines, dataset, true) == Ok(lines)
    decreases |lines|
  {
    if |lines| > 0 {
      PassThrough(lines[1..], dataset);
      assert [lines[0]] + lines[1..] == lines;
    }
  }

  lemma {:induction false} KeepAll(lines: seq<string>)
    requires forall i :: 0 <= i < |lines| ==> !Contains(lines[i], PrimaryKey)
    ensures WithoutKeys(lines) == lines
    decreases |lines|
  {
    if |lines| > 0 {
      KeepAll(lines[1..]);
      assert [lines[0]] + lines[1..] == lines;
    }
  }

  // ---------------------------------------------------------------------
  // TPC-H

  /** One line of the TPC-H pass. A "CREATE TABLE" line with fewer than
      three words raises `IndexError` when the prefix is applied. */
  function HLine(line: string, dataset: string, lower: bool, prefix: bool): (r: Result<string>)
    ensures r.Err? <==> Contains(line, HCreate) && prefix && |WsSplit(line)| < 3
    ensures !(prefix && Contains(line, HCreate)) ==> r == Ok(if lower then Lower(line) else line)
    ensures r.Ok? && lower ==> IsLower(r.value)
    ensures r.Ok? && !lower && prefix && Contains(line, HCreate) && NoSpace(dataset) ==>
              && WsSplit(r.value) == WsSplit(line)[2 := Qualified(dataset, WsSplit(line)[2])]
              && SingleSpaced(r.value)
    ensures r.Ok? && '\n' !in line && NoSpace(dataset) ==> '\n' !in r.value
  {
    if Contains(line, HCreate) && prefix then
      var toks := WsSplit(line);
      if |toks| < 3 then Err(IndexError)
      else
        var ws := toks[2 := Qualified(dataset, toks[2])];
        var joined := Join(ws, ' ');
        QualifiedIsWord(dataset, toks[2]);
        JoinedWords(ws);
        LowerAdds(joined, '\n');
        LowerFacts(joined);
        Ok(if lower then Lower(joined) else joined)
    else
      LowerFacts(line);
      LowerAdds(line, '\n');
      Ok(if lower then Lower(line) else line)
  }

  /** Lower-casing is applied last: the lowered pass fails on the same
      lines and otherwise gives the lower-cased line of the plain pass. */
  lemma HLineLowered(line: string, dataset: string, prefix: bool)
    ensures HLine(line, dataset, true, prefix).Err? <==> HLine(line, dataset, false, prefix).Err?
    ensures HLine(line, dataset, false, prefix).Ok? ==>
              HLine(line, dataset, true, prefix) == Ok(Lower(HLine(line, dataset, false, prefix).value))
  {
  }

  function HLines(lines: seq<string>, dataset: string, lower: bool, prefix: bool): (r: Result<seq<string>>)
    ensures r.Err? <==> exists i :: 0 <= i < |lines| && HLine(lines[i], dataset, lower, prefix).Err?
    ensures r.Ok? ==> |r.value| == |lines|
    ensures r.Ok? ==> forall i :: 0 <= i < |lines| ==> Ok(r.value[i]) == HLine(lines[i], dataset, lower, prefix)
  {
    if |lines| == 0 then Ok([])
    else
      ExistsTail(lines, l => HLine(l, dataset, lower, prefix).Err?);
      match HLine(lines[0], dataset, lower, prefix)
      case Err(e) => Err(e)
      case Ok(first) =>
        match HLines(lines[1..], dataset, lower, prefix)
        case Err(e) => Err(e)
        case Ok(rest) =>
          OkCons(lines, first, rest, l => HLine(l, dataset, lower, prefix));
          Ok([first] + rest)
  }

  /** A line pass that succeeds on the first line and on the rest succeeds
      line by line on the whole. */
  lemma OkCons(lines: seq<string>, first: string, rest: seq<string>, f: string -> Result<string>)
    requires |lines| > 0 && f(lines[0]) == Ok(first)
    requires |rest| == |lines| - 1 && forall i :: 0 <= i < |rest| ==> Ok(rest[i]) == f(lines[1..][i])
    ensures forall i :: 0 <= i < |lines| ==> Ok(([first] + rest)[i]) == f(lines[i])
  {
    assert forall i :: 1 <= i < |lines| ==> lines[i] == lines[1..][i - 1];
  }

  /** With every line unprefixed, `HLines` is the identity or lower-casing. */
  lemma HLinesPlain(lines: seq<string>, dataset: string, lower: bool)
    ensures HLines(lines, dataset, lower, false) == Ok(if lower then LowerAll(lines) else lines)
  {
    var want := if lower then LowerAll(lines) else lines;
    forall i | 0 <= i < |lines|
      ensures HLine(lines[i], dataset, lower, false) == Ok(want[i])
    {
    }
    var r := HLines(lines, dataset, lower, false);
    assert r.Ok?;
    forall i | 0 <= i < |lines|
      ensures r.value[i] == want[i]
    {
      assert Ok(r.value[i]) == HLine(lines[i], dataset, lower, false);
    }
    assert |r.value| == |want|;
    assert r.value == want;
  }

  /** The TPC-H pass over a whole schema text. */
  function RewriteHSchema(text: string, dataset: string, lower: bool, prefix: bool): (r: Result<string>)
    ensures r.Err? <==> exists i :: 0 <= i < |Split(text, '\n')| && HLine(Split(text, '\n')[i], dataset, lower, prefix).Err?
    ensures r.Ok? && lower ==> IsLower(r.value)
    ensures r.Ok? && NoSpace(dataset) ==> |Split(r.value, '\n')| == |Split(text, '\n')|
    ensures r.Ok? && NoSpace(dataset) ==> HLines(Split(text, '\n'), dataset, lower, prefix) == Ok(Split(r.value, '\n'))
  {
    var lines := Split(text, '\n');
    match HLines(lines, dataset, lower, prefix)
    case Err(e) =>
      var j :| 0 <= j < |lines| && HLine(lines[j], dataset, lower, prefix).Err?;
      assert HLine(Split(text, '\n')[j], dataset, lower, prefix).Err?;
      Err(e)
    case Ok(out) =>
      assert forall i :: 0 <= i < |lines| ==> '\n' !in lines[i];
      HLinesFacts(lines, out, dataset, lower, prefix);
      SplitJoinLines(out);
      JoinLower(out);
      Ok(Join(out, '\n'))
  }

  /** The rewritten lines inherit being free of line breaks from the input
      lines, and are lower-case when `lower` is set. */
  lemma HLinesFacts(lines: seq<string>, out: seq<string>, dataset: string, lower: bool, prefix: bool)
    requires HLines(lines, dataset, lower, prefix) == Ok(out)
    ensures |out| == |lines|
    ensures lower ==> forall i :: 0 <= i < |out| ==> IsLower(out[i])
    ensures NoSpace(dataset) && (forall i :: 0 <= i < |lines| ==> '\n' !in lines[i]) ==>
              forall i :: 0 <= i < |out| ==> '\n' !in out[i]
  {
    forall i | 0 <= i < |out|
      ensures Ok(out[i]) == HLine(lines[i], dataset, lower, prefix)
    {
    }
  }

  lemma {:induction false} JoinLower(xs: seq<string>)
    ensures (forall i :: 0 <= i < |xs| ==> IsLower(xs[i])) ==> IsLower(Join(xs, '\n'))
    decreases |xs|
  {
    if |xs| > 1 && forall i :: 0 <= i < |xs| ==> IsLower(xs[i]) {
      JoinLower(xs[1..]);
      var s := Join(xs, '\n');
      var t := Join(xs[1..], '\n');
      assert s == xs[0] + ['\n'] + t;
      forall i | 0 <= i < |s|
        ensures !('A' <= s[i] <= 'Z')
      {
        if i < |xs[0]| {
          assert s[i] == xs[0][i];
        } else if i > |xs[0]| {
          assert s[i] == t[i - |xs[0]| - 1];
        }
      }
    }
  }

  /** Without a prefix the TPC-H pass never fails and only lower-cases. */
  lemma HPlainIsLower(text: string, dataset: string, lower: bool)
    ensures RewriteHSchema(text, dataset, lower, false) == Ok(if lower then Lower(text) else text)
  {
    var lines := Split(text, '\n');
    HLinesPlain(lines, dataset, lower);
    JoinSplit(text, '\n');
    LowerJoin(lines, '\n');
  }

  /** `h_setup.rewrite_schema` and `h_bq.rewrite_schema_DUP` are the
      prefixed pass without lower-casing: lines without "CREATE TABLE" are
      kept verbatim at the same line number, and each "CREATE TABLE" line
      keeps its words with the third qualified. */
  lemma HSetupRewrite(text: string, dataset: string, i: int)
    requires NoSpace(dataset)
    requires RewriteHSchema(text, dataset, false, true).Ok?
    requires 0 <= i < |Split(text, '\n')|
    ensures var line := Split(text, '\n')[i];
            var out := Split(RewriteHSchema(text, dataset, false, true).value, '\n');
            && |out| == |Split(text, '\n')|
            && (!Contains(line, HCreate) ==> out[i] == line)
            && (Contains(line, HCreate) ==>
                  && WsSplit(out[i]) == WsSplit(line)[2 := Qualified(dataset, WsSplit(line)[2])]
                  && out[i] == Join(WsSplit(line)[2 := Qualified(dataset, WsSplit(line)[2])], ' '))
  {
    var lines := Split(text, '\n');
    var out := HLines(lines, dataset, false, true).value;
    assert RewriteHSchema(text, dataset, false, true).value == Join(out, '\n');
    forall j | 0 <= j < |out|
      ensures '\n' !in out[j]
    {
      assert Ok(out[j]) == HLine(lines[j], dataset, false, true);
    }
    SplitJoin(out, '\n');
    assert Ok(out[i]) == HLine(lines[i], dataset, false, true);
  }
}

=== FILE: sql_text.dfy ===
/** Handling of generated SQL text before it is submitted: splitting a query
    file into statements (`bqa.BQTPC.query_n`, `sfa.SFTPC.create_schema`),
    qualifying view names with the project and dataset
    (`bqa.BQTPC.add_view`), the Snowflake clean-up of SQL Server dialect
    (`sfa.brute_force_clean_query`), trimming `qgen` output to the query
    (`h_setup.run_qgen`) and the guard in front of `sfa.Connector.query`. */
module SqlText {
  import opened Wrappers
  import opened Text

  /** `len(q.strip()) == 0`: the text is all whitespace (see `BlankStrip`). */
  predicate Blank(q: string) {
    forall i :: 0 <= i < |q| ==> IsSpace(q[i])
  }

  /** `Blank` is exactly Python's test `len(q.strip()) == 0`. */
  lemma BlankStrip(q: string)
    ensures Blank(q) <==> |Strip(q)| == 0
  {
    if Blank(q) {
      BlankStripsAll(q);
    } else {
      var i :| 0 <= i < |q| && !IsSpace(q[i]);
      StripKeeps(q, i);
    }
  }

  lemma BlankStripsAll(q: string)
    requires Blank(q)
    ensures |Strip(q)| == 0
  {
    var t := LStrip(q, Whitespace);
    assert Strip(q) == RStrip(t, Whitespace);
  }

  lemma StripKeeps(q: string, i: nat)
    requires i < |q| && !IsSpace(q[i])
    ensures |Strip(q)| > 0
  {
    var t := LStrip(q, Whitespace);
    var r := RStrip(t, Whitespace);
    assert Strip(q) == r;
    assert i >= |q| - |t|;
    assert q[i] == t[i - (|q| - |t|)];
  }

  // ---------------------------------------------------------------------
  // statements

  /** The non-blank pieces, each with its `;` put back. */
  function Terminated(pieces: seq<string>): (r: seq<string>)
    ensures |r| <= |pieces|
  {
    if |pieces| == 0 then []
    else (if Blank(pieces[0]) then [] else [pieces[0] + ";"]) + Terminated(pieces[1..])
  }

  /** A submitted statement: a non-blank body without `;`, then `;`. */
  predicate IsStatement(s: string) {
    |s| > 0 && s[|s| - 1] == ';' && ';' !in s[..|s| - 1] && !Blank(s[..|s| - 1])
  }

  /** The pieces of the text between `;`s that are not blank, in order,
      each with its `;` put back. */
  function SplitStatements(text: string): (r: seq<string>)
    ensures forall i :: 0 <= i < |r| ==> |r[i]| > 0 && IsStatement(r[i])
  {
    TerminatedShape(Split(text, ';'));
    Terminated(Split(text, ';'))
  }

  lemma {:induction false} TerminatedShape(pieces: seq<string>)
    requires forall j :: 0 <= j < |pieces| ==> ';' !in pieces[j]
    ensures forall i :: 0 <= i < |Terminated(pieces)| ==> IsStatement(Terminated(pieces)[i])
    decreases |pieces|
  {
    if |pieces| > 0 {
      var rest := pieces[1..];
      assert forall j :: 0 <= j < |rest| ==> rest[j] == pieces[j + 1];
      TerminatedShape(rest);
      var q := pieces[0];
      if !Blank(q) {
        TerminatedOne(q);
      }
      StatementsConcat(if Blank(q) then [] else [q + ";"], Terminated(rest));
    }
  }

  lemma TerminatedOne(q: string)
    requires ';' !in q && !Blank(q)
    ensures IsStatement(q + ";")
  {
    assert (q + ";")[..|q + ";"| - 1] == q;
  }

  lemma StatementsConcat(a: seq<string>, b: seq<string>)
    requires forall i :: 0 <= i < |a| ==> IsStatement(a[i])
    requires forall i :: 0 <= i < |b| ==> IsStatement(b[i])
    ensures forall i :: 0 <= i < |a + b| ==> IsStatement((a + b)[i])
  {
    forall i | 0 <= i < |a + b|
      ensures IsStatement((a + b)[i])
    {
      if i >= |a| {
        assert (a + b)[i] == b[i - |a|];
      }
    }
  }

  lemma {:induction false} TerminatedAll(qs: seq<string>)
    requires forall i :: 0 <= i < |qs| ==> !Blank(qs[i])
    ensures Terminated(qs + [""]) == seq(|qs|, i requires 0 <= i < |qs| => qs[i] + ";")
    decreases |qs|
  {
    if |qs| == 0 {
      assert [] + [""] == [""];
      assert Blank("");
    } else {
      assert (qs + [""])[1..] == qs[1..] + [""];
      TerminatedAll(qs[1..]);
    }
  }

  lemma JoinTrailing(qs: seq<string>, sep: char)
    requires |qs| >= 1
    ensures Join(qs + [""], sep) == Join(qs, sep) + [sep]
    decreases |qs|
  {
    if |qs| > 1 {
      assert (qs + [""])[1..] == qs[1..] + [""];
      JoinTrailing(qs[1..], sep);
    }
  }

  /** A file of non-blank statements, each terminated by `;`, splits back
      into exactly those statements. */
  lemma SplitStatementsOfScript(qs: seq<string>)
    requires |qs| >= 1
    requires forall i :: 0 <= i < |qs| ==> ';' !in qs[i] && !Blank(qs[i])
    ensures SplitStatements(Join(qs, ';') + ";") == seq(|qs|, i requires 0 <= i < |qs| => qs[i] + ";")
  {
    ScriptPieces(qs);
    TerminatedAll(qs);
  }

  /** Splitting the script on `;` gives the statements and the empty
      piece after the last `;`. */
  lemma ScriptPieces(qs: seq<string>)
    requires |qs| >= 1
    requires forall i :: 0 <= i < |qs| ==> ';' !in qs[i]
    ensures Split(Join(qs, ';') + ";", ';') == qs + [""]
  {
    JoinTrailing(qs, ';');
    assert forall i :: 0 <= i < |qs + [""]| ==> ';' !in (qs + [""])[i];
    SplitJoin(qs + [""], ';');
  }

  /** A statement as `create_schema` submits it: its body stripped, then
      `;`. */
  function Restrip(q: string): string
    requires |q| > 0
  {
    Strip(q[..|q| - 1]) + ";"
  }

  /** The body of a statement, without its final `;`. */
  function Body(q: string): string
    requires |q| > 0
  {
    q[..|q| - 1]
  }

  /** `r` is a statement whose body is stripped and lies inside the body
      of the statement `q`. */
  predicate CleanedFrom(r: string, q: string) {
    && IsStatement(r)
    && Strip(Body(r)) == Body(r)
    && |q| > 0 && Contains(Body(q), Body(r))
  }

  /** Re-stripping keeps a statement a statement; its new body is stripped
      and lies inside the old one. */
  lemma RestripStatement(q: string)
    requires IsStatement(q)
    ensures CleanedFrom(Restrip(q), q)
  {
    var body := Body(q);
    var t := Strip(body);
    var r := Restrip(q);
    assert Body(r) == t && r[|r| - 1] == ';';
    StripInside(body);
    BlankStrip(body);
    StripStripped(t, Whitespace);
    assert !IsSpace(t[0]);
  }

  /** The stripped text lies inside the text, so it holds only characters
      of the text. */
  lemma StripInside(s: string)
    ensures Contains(s, Strip(s))
    ensures forall c :: c in Strip(s) ==> c in s
  {
    var t := Strip(s);
    var k := |s| - |LStrip(s, Whitespace)|;
    assert OccursAt(s, t, k);
    forall i | 0 <= i < |t|
      ensures t[i] == s[k + i]
    {
      assert s[k..k + |t|][i] == s[k + i];
    }
  }

  /** `create_schema`'s statements: for each statement of the text, in
      order, its body with surrounding whitespace removed, never blank,
      holding no `;`, then a single `;`. */
  function SchemaStatements(text: string): (r: seq<string>)
    ensures |r| == |SplitStatements(text)|
    ensures forall i :: 0 <= i < |r| ==> CleanedFrom(r[i], SplitStatements(text)[i])
  {
    var qs := SplitStatements(text);
    RestripAll(qs);
    seq(|qs|, i requires 0 <= i < |qs| => Restrip(qs[i]))
  }

  lemma RestripAll(qs: seq<string>)
    requires forall i :: 0 <= i < |qs| ==> |qs[i]| > 0 && IsStatement(qs[i])
    ensures var r := seq(|qs|, i requires 0 <= i < |qs| => Restrip(qs[i]));
            forall i :: 0 <= i < |r| ==> CleanedFrom(r[i], qs[i])
  {
    forall i | 0 <= i < |qs|
      ensures CleanedFrom(Restrip(qs[i]), qs[i])
    {
      RestripStatement(qs[i]);
    }
  }

  /** A script of statements gives each statement's body stripped and
      terminated, in order. */
  lemma SchemaStatementsOfScript(qs: seq<string>)
    requires |qs| >= 1
    requires forall i :: 0 <= i < |qs| ==> ';' !in qs[i] && !Blank(qs[i])
    ensures SchemaStatements(Join(qs, ';') + ";") == seq(|qs|, i requires 0 <= i < |qs| => Strip(qs[i]) + ";")
  {
    var text := Join(qs, ';') + ";";
    SplitStatementsOfScript(qs);
    var st := SplitStatements(text);
    var r := SchemaStatements(text);
    var want := seq(|qs|, i requires 0 <= i < |qs| => Strip(qs[i]) + ";");
    forall i | 0 <= i < |r|
      ensures r[i] == want[i]
    {
      RestripTerminated(qs[i]);
    }
  }

  lemma RestripTerminated(q: string)
    ensures Restrip(q + ";") == Strip(q) + ";"
  {
    assert (q + ";")[..|q|] == q;
  }

  // ---------------------------------------------------------------------
  // views and query_n

  /** `add_view`: every occurrence of the configured placeholder becomes
      `project.dataset.`. */
  function AddView(text: string, placeholder: string, project: string, dataset: string): string {
    Replace(text, placeholder, project + "." + dataset + ".")
  }

  /** A single placeholder in front of a view name is qualified, and nothing
      else in the text changes. */
  lemma AddViewQualifies(a: string, placeholder: string, b: string, project: string, dataset: string)
    requires |placeholder| > 0
    requires forall i :: 0 <= i < |a| ==> !OccursAt(a + placeholder + b, placeholder, i)
    requires !Contains(b, placeholder)
    ensures AddView(a + placeholder + b, placeholder, project, dataset) == a + project + "." + dataset + "." + b
  {
    ReplaceFirst(a, placeholder, b, project + "." + dataset + ".");
    ReplaceAbsent(b, placeholder, project + "." + dataset + ".");
  }

  /** Text without the placeholder is submitted unchanged. */
  lemma AddViewAbsent(text: string, placeholder: string, project: string, dataset: string)
    requires |placeholder| > 0 && !Contains(text, placeholder)
    ensures AddView(text, placeholder, project, dataset) == text
  {
    ReplaceAbsent(text, placeholder, project + "." + dataset + ".");
  }

  /** What `query_n` sends to BigQuery for one generated query: the texts
      submitted, in order, and which of them has its result captured. */
  datatype QueryPlan = QueryPlan(submitted: seq<string>, captured: nat)

  /** `query_n` after the template generation: tests other than TPC-DS and
      TPC-H give nothing; three statements (create view, query, drop view)
      and two statements capture the second; any other count submits the
      whole text as one job. */
  function QueryN(test: string, text: string, placeholder: string, project: string, dataset: string): (r: Option<QueryPlan>)
    ensures r.None? <==> test != "ds" && test != "h"
    ensures r.Some? ==> r.value.captured < |r.value.submitted| <= 3
    ensures r.Some? && |SplitStatements(text)| in {2, 3} ==>
              && |r.value.submitted| == |SplitStatements(text)|
              && r.value.captured == 1
              && forall i :: 0 <= i < |r.value.submitted| ==>
                   r.value.submitted[i] == AddView(SplitStatements(text)[i], placeholder, project, dataset)
    ensures r.Some? && |SplitStatements(text)| !in {2, 3} ==>
              r.value == QueryPlan([AddView(text, placeholder, project, dataset)], 0)
  {
    if test != "ds" && test != "h" then None
    else
      var qs := SplitStatements(text);
      if |qs| == 3 || |qs| == 2 then
        Some(QueryPlan(seq(|qs|, i requires 0 <= i < |qs| => AddView(qs[i], placeholder, project, dataset)), 1))
      else
        Some(QueryPlan([AddView(text, placeholder, project, dataset)], 0))
  }

  /** TPC-H query 15 shape: for a create-view, select, drop-view script the
      three statements are submitted in order and the select is captured. */
  lemma ViewQueryCaptured(create: string, query: string, drop: string, placeholder: string, project: string, dataset: string)
    requires ';' !in create && ';' !in query && ';' !in drop
    requires !Blank(create) && !Blank(query) && !Blank(drop)
    ensures var r := QueryN("h", create + ";" + query + ";" + drop + ";", placeholder, project, dataset);
            && r.Some?
            && r.value.submitted == [AddView(create + ";", placeholder, project, dataset),
                                    AddView(query + ";", placeholder, project, dataset),
                                    AddView(drop + ";", placeholder, project, dataset)]
            && r.value.submitted[r.value.captured] == AddView(query + ";", placeholder, project, dataset)
  {
    ThreeStatements(create, query, drop);
  }

  lemma ThreeStatements(create: string, query: string, drop: string)
    requires ';' !in create && ';' !in query && ';' !in drop
    requires !Blank(create) && !Blank(query) && !Blank(drop)
    ensures SplitStatements(create + ";" + query + ";" + drop + ";") == [create + ";", query + ";", drop + ";"]
  {
    var qs := [create, query, drop];
    JoinThree(create, query, drop, ';');
    SplitStatementsOfScript(qs);
  }

  /** A single-statement query is submitted whole, trailing text included. */
  lemma SingleQuerySubmittedWhole(query: string, placeholder: string, project: string, dataset: string)
    requires ';' !in query && !Blank(query)
    ensures QueryN("ds", query + ";", placeholder, project, dataset)
            == Some(QueryPlan([AddView(query + ";", placeholder, project, dataset)], 0))
  {
    assert Join([query], ';') == query;
    SplitStatementsOfScript([query]);
  }

  // ---------------------------------------------------------------------
  // brute_force_clean_query

  const CleanRules: seq<(string, string)> := [
    ("set rowcount", "LIMIT"), ("top 100;", "LIMIT 100;"), ("\n top 100", "\n LIMIT 100")]

  /** SQL Server dialect rewritten for Snowflake: the three replacements,
      each followed by `strip`, then one trailing "go" cut off. */
  function CleanQuery(text: string): (r: string)
    ensures |r| > 0 ==> !IsSpace(r[0])
    ensures |r| <= |Rewritten(text)|
  {
    var q := Rewritten(text);
    if EndsWith(q, "go") then q[..|q| - 2] else q
  }

  /** The three replacements, each followed by `strip`. */
  function Rewritten(text: string): (r: string)
    ensures |r| > 0 ==> !IsSpace(r[0]) && !IsSpace(r[|r| - 1])
  {
    Pass(Pass(Pass(text, 0), 1), 2)
  }

  /** Replacement `k` followed by `strip`. */
  function Pass(q: string, k: nat): (r: string)
    requires k < |CleanRules|
    ensures |r| > 0 ==> !IsSpace(r[0]) && !IsSpace(r[|r| - 1])
  {
    Strip(Replace(q, CleanRules[k].0, CleanRules[k].1))
  }

  /** None of the SQL Server forms occurs in `s`. */
  predicate NoServerForm(s: string) {
    forall k :: 0 <= k < |CleanRules| ==> !Contains(s, CleanRules[k].0)
  }

  /** A single "set rowcount" in stripped text otherwise free of the SQL
      Server forms becomes "LIMIT", and nothing else changes. */
  lemma RewrittenRowcount(a: string, b: string)
    requires NoServerForm(a) && NoServerForm(b)
    requires Strip(a + "set rowcount" + b) == a + "set rowcount" + b
    ensures Rewritten(a + "set rowcount" + b) == a + "LIMIT" + b
  {
    RowcountFirst(a, b);
    LimitRest(a, b, 1);
    LimitRest(a, b, 2);
  }

  lemma RowcountFirst(a: string, b: string)
    requires NoServerForm(a) && NoServerForm(b)
    requires Strip(a + "set rowcount" + b) == a + "set rowcount" + b
    ensures Pass(a + "set rowcount" + b, 0) == a + "LIMIT" + b
    ensures Strip(a + "LIMIT" + b) == a + "LIMIT" + b
  {
    ReplacedPass(a, "set rowcount", b, "LIMIT", 0);
  }

  lemma LimitRest(a: string, b: string, k: nat)
    requires k == 1 || k == 2
    requires NoServerForm(a) && NoServerForm(b)
    requires Strip(a + "LIMIT" + b) == a + "LIMIT" + b
    ensures Pass(a + "LIMIT" + b, k) == a + "LIMIT" + b
  {
    ClearPass(a, "LIMIT", b, k);
  }

  /** A single "top 100;" in stripped text with no other SQL Server form
      becomes "LIMIT 100;", and nothing else changes. */
  lemma RewrittenTop(a: string, b: string)
    requires NoServerForm(a) && NoServerForm(b)
    requires !Contains(a + "top 100;" + b, "set rowcount")
    requires Strip(a + "top 100;" + b) == a + "top 100;" + b
    ensures Rewritten(a + "top 100;" + b) == a + "LIMIT 100;" + b
  {
    TopFirst(a, b);
    TopSecond(a, b);
    LimitHundredRest(a, b);
  }

  lemma TopFirst(a: string, b: string)
    requires !Contains(a + "top 100;" + b, "set rowcount")
    requires Strip(a + "top 100;" + b) == a + "top 100;" + b
    ensures Pass(a + "top 100;" + b, 0) == a + "top 100;" + b
  {
    UntouchedPass(a + "top 100;" + b, 0);
  }

  lemma TopSecond(a: string, b: string)
    requires NoServerForm(a) && NoServerForm(b)
    requires Strip(a + "top 100;" + b) == a + "top 100;" + b
    ensures Pass(a + "top 100;" + b, 1) == a + "LIMIT 100;" + b
    ensures Strip(a + "LIMIT 100;" + b) == a + "LIMIT 100;" + b
  {
    ReplacedPass(a, "top 100;", b, "LIMIT 100;", 1);
  }

  lemma LimitHundredRest(a: string, b: string)
    requires NoServerForm(a) && NoServerForm(b)
    requires Strip(a + "LIMIT 100;" + b) == a + "LIMIT 100;" + b
    ensures Pass(a + "LIMIT 100;" + b, 2) == a + "LIMIT 100;" + b
  {
    ClearPass(a, "LIMIT 100;", b, 2);
  }

  /** A single "top 100" opening a line (after a line break and a space) in
      stripped text with no other SQL Server form becomes "LIMIT 100", and
      nothing else changes. */
  lemma RewrittenTopLine(a: string, b: string)
    requires NoServerForm(a) && NoServerForm(b)
    requires !Contains(a + "\n top 100" + b, "set rowcount")
    requires !Contains(a + "\n top 100" + b, "top 100;")
    requires Strip(a + "\n top 100" + b) == a + "\n top 100" + b
    ensures Rewritten(a + "\n top 100" + b) == a + "\n LIMIT 100" + b
  {
    TopLineEarly(a, b);
    TopLineLast(a, b);
  }

  lemma TopLineEarly(a: string, b: string)
    requires !Contains(a + "\n top 100" + b, "set rowcount")
    requires !Contains(a + "\n top 100" + b, "top 100;")
    requires Strip(a + "\n top 100" + b) == a + "\n top 100" + b
    ensures Pass(a + "\n top 100" + b, 0) == a + "\n top 100" + b
    ensures Pass(a + "\n top 100" + b, 1) == a + "\n top 100" + b
  {
    UntouchedPass(a + "\n top 100" + b, 0);
    UntouchedPass(a + "\n top 100" + b, 1);
  }

  lemma TopLineLast(a: string, b: string)
    requires NoServerForm(a) && NoServerForm(b)
    requires Strip(a + "\n top 100" + b) == a + "\n top 100" + b
    ensures Pass(a + "\n top 100" + b, 2) == a + "\n LIMIT 100" + b
  {
    ReplacedPass(a, "\n top 100", b, "\n LIMIT 100", 2);
  }

  /** Stripped text without the pattern of pass `k` goes through it
      unchanged. */
  lemma UntouchedPass(t: string, k: nat)
    requires k < |CleanRules| && !Contains(t, CleanRules[k].0) && Strip(t) == t
    ensures Pass(t, k) == t
  {
    ReplaceAbsent(t, CleanRules[k].0, CleanRules[k].1);
  }

  /** Pass `k` over a single occurrence of its pattern swaps in the
      replacement, and the result stays stripped. */
  lemma ReplacedPass(a: string, pat: string, b: string, rep: string, k: nat)
    requires k < |CleanRules| && CleanRules[k] == (pat, rep)
    requires |pat| > 0 && |rep| > 0 && pat[0] !in pat[1..]
    requires NoServerForm(a) && NoServerForm(b)
    requires Strip(a + pat + b) == a + pat + b
    requires |a| == 0 ==> rep[0] == pat[0] || !IsSpace(rep[0])
    requires |b| == 0 ==> rep[|rep| - 1] == pat[|pat| - 1] || !IsSpace(rep[|rep| - 1])
    ensures Pass(a + pat + b, k) == a + rep + b
    ensures Strip(a + rep + b) == a + rep + b
  {
    assert !Contains(a, CleanRules[k].0) && !Contains(b, CleanRules[k].0);
    FirstPass(a, pat, b, rep);
    StripSwap(a, pat, rep, b);
  }

  /** One replacement pass over a single occurrence of its pattern. */
  lemma FirstPass(a: string, pat: string, b: string, rep: string)
    requires |pat| > 0 && pat[0] !in pat[1..]
    requires !Contains(a, pat) && !Contains(b, pat)
    ensures Replace(a + pat + b, pat, rep) == a + rep + b
  {
    LeadingOccurrence(a, pat, b);
    ReplaceFirst(a, pat, b, rep);
    ReplaceAbsent(b, pat, rep);
  }

  /** A pass whose pattern cannot reach across `mid` leaves stripped
      `a + mid + b` alone. */
  lemma ClearPass(a: string, mid: string, b: string, k: nat)
    requires k < |CleanRules|
    requires |mid| > 0 && CleanRules[k].0[0] !in mid && mid[0] !in CleanRules[k].0
    requires NoServerForm(a) && NoServerForm(b)
    requires Strip(a + mid + b) == a + mid + b
    ensures Pass(a + mid + b, k) == a + mid + b
  {
    var pat := CleanRules[k].0;
    assert !Contains(a, pat) && !Contains(b, pat);
    NoStraddle(a, mid, b, pat);
    ReplaceAbsent(a + mid + b, pat, CleanRules[k].1);
  }

  /** Swapping a middle part keeps text stripped when the new part's ends
      are not whitespace wherever they become the text's ends. */
  lemma StripSwap(a: string, x: string, y: string, b: string)
    requires |x| > 0 && |y| > 0
    requires Strip(a + x + b) == a + x + b
    requires |a| == 0 ==> y[0] == x[0] || !IsSpace(y[0])
    requires |b| == 0 ==> y[|y| - 1] == x[|x| - 1] || !IsSpace(y[|y| - 1])
    ensures Strip(a + y + b) == a + y + b
  {
    var t := a + x + b;
    var u := a + y + b;
    assert !IsSpace(t[0]) && !IsSpace(t[|t| - 1]);
    if |a| > 0 {
      assert u[0] == a[0] == t[0];
    } else {
      assert u[0] == y[0] && t[0] == x[0];
    }
    if |b| > 0 {
      assert u[|u| - 1] == b[|b| - 1] == t[|t| - 1];
    } else {
      assert u[|u| - 1] == y[|y| - 1] && t[|t| - 1] == x[|x| - 1];
    }
    StripStripped(u, Whitespace);
  }

  /** Text that is already clean (stripped, none of the SQL Server forms,
      no trailing "go") is left alone. */
  lemma CleanQueryClean(text: string)
    requires Strip(text) == text
    requires forall k :: 0 <= k < |CleanRules| ==> !Contains(text, CleanRules[k].0)
    requires !EndsWith(text, "go")
    ensures CleanQuery(text) == text
  {
    CleanQueryOfPlain(text);
  }

  /** On stripped text with none of the SQL Server forms only the trailing
      "go" cut remains. */
  lemma CleanQueryOfPlain(t: string)
    requires Strip(t) == t
    requires forall k :: 0 <= k < |CleanRules| ==> !Contains(t, CleanRules[k].0)
    ensures Rewritten(t) == t
  {
    assert !Contains(t, CleanRules[0].0);
    assert !Contains(t, CleanRules[1].0);
    assert !Contains(t, CleanRules[2].0);
    ReplaceAbsent(t, CleanRules[0].0, CleanRules[0].1);
    ReplaceAbsent(t, CleanRules[1].0, CleanRules[1].1);
    ReplaceAbsent(t, CleanRules[2].0, CleanRules[2].1);
  }

  /** A trailing batch separator line "go" is removed, leaving the line break
      before it. */
  lemma CleanQueryDropsGo(q: string)
    requires |q| > 0 && Strip(q) == q
    requires forall k :: 0 <= k < |CleanRules| ==> !Contains(q + "\ngo", CleanRules[k].0)
    ensures CleanQuery(q + "\ngo") == q + "\n"
  {
    StrippedGo(q);
    CleanQueryOfPlain(q + "\ngo");
    GoCut(q);
  }

  lemma GoCut(q: string)
    ensures EndsWith(q + "\ngo", "go") && (q + "\ngo")[..|q| + 1] == q + "\n"
  {
    var t := q + "\ngo";
    assert t[|t| - 2..] == "go";
  }

  lemma StrippedGo(q: string)
    requires |q| > 0 && Strip(q) == q
    ensures Strip(q + "\ngo") == q + "\ngo"
  {
    var t := q + "\ngo";
    assert t[0] == q[0] && !IsSpace(t[0]);
    assert t[|t| - 1] == 'o';
    StripStripped(t, Whitespace);
  }

  // ---------------------------------------------------------------------
  // run_qgen output trimming

  /** A `qgen` output line with a trailing carriage return and line feed
      removed. */
  function CleanLine(line: string): string {
    RStrip(RStrip(line, Return), Newline)
  }

  /** The lines from the first one that is exactly "select" on; nothing when
      there is none. */
  function FromSelect(lines: seq<string>): (r: seq<string>)
    ensures |r| <= |lines|
    ensures |r| > 0 ==> r[0] == "select" && r == lines[|lines| - |r|..]
  {
    if |lines| == 0 then []
    else if lines[0] == "select" then lines
    else FromSelect(lines[1..])
  }

  lemma {:induction false} FromSelectNone(lines: seq<string>)
    ensures FromSelect(lines) == [] <==> forall i :: 0 <= i < |lines| ==> lines[i] != "select"
    decreases |lines|
  {
    if |lines| > 0 {
      FromSelectNone(lines[1..]);
      if lines[0] != "select" {
        assert forall i :: 1 <= i < |lines| ==> lines[i] == lines[1..][i - 1];
      }
    }
  }

  function CleanLines(pieces: seq<string>): (r: seq<string>)
    ensures |r| == |pieces|
  {
    seq(|pieces|, i requires 0 <= i < |pieces| => CleanLine(pieces[i]))
  }

  lemma {:induction false} FromSelectAt(lines: seq<string>, s: nat)
    requires s < |lines| && lines[s] == "select"
    requires forall j :: 0 <= j < s ==> lines[j] != "select"
    ensures FromSelect(lines) == lines[s..]
    decreases s
  {
    if s > 0 {
      FromSelectAt(lines[1..], s - 1);
      assert lines[1..][s - 1..] == lines[s..];
    }
  }

  /** The trimming loop of `run_qgen`: a `keep` flag raised by the first
      "select" line. */
  method TrimQgenOutput(stdout: string) returns (r: string)
    ensures r == Join(FromSelect(CleanLines(Split(stdout, '\n'))), '\n')
    ensures (forall i :: 0 <= i < |Split(stdout, '\n')| ==> CleanLine(Split(stdout, '\n')[i]) != "select") ==> r == ""
    ensures (exists i :: 0 <= i < |Split(stdout, '\n')| && CleanLine(Split(stdout, '\n')[i]) == "select") ==> StartsWith(r, "select")
  {
    var pieces := Split(stdout, '\n');
    var kept := KeepFromSelect(CleanLines(pieces));
    r := Join(kept, '\n');
    TrimmedShape(pieces);
  }

  method KeepFromSelect(lines: seq<string>) returns (kept: seq<string>)
    ensures kept == FromSelect(lines)
  {
    kept := [];
    var keep := false;
    ghost var s := 0;
    var k := 0;
    while k < |lines|
      invariant 0 <= k <= |lines|
      invariant !keep ==> kept == [] && forall j :: 0 <= j < k ==> lines[j] != "select"
      invariant keep ==> 0 <= s < k && lines[s] == "select" && kept == lines[s..k]
      invariant keep ==> forall j :: 0 <= j < s ==> lines[j] != "select"
    {
      var line := lines[k];
      if line == "select" && !keep {
        s := k;
      }
      if line == "select" {
        keep := true;
      }
      if keep {
        assert lines[s..k + 1] == lines[s..k] + [line];
        kept := kept + [line];
      }
      k := k + 1;
    }
    if keep {
      assert kept == lines[s..];
      FromSelectAt(lines, s);
    } else {
      FromSelectNone(lines);
    }
  }

  lemma TrimmedShape(pieces: seq<string>)
    ensures (forall i :: 0 <= i < |pieces| ==> CleanLine(pieces[i]) != "select") ==> Join(FromSelect(CleanLines(pieces)), '\n') == ""
    ensures (exists i :: 0 <= i < |pieces| && CleanLine(pieces[i]) == "select") ==> StartsWith(Join(FromSelect(CleanLines(pieces)), '\n'), "select")
  {
    var lines := CleanLines(pieces);
    FromSelectNone(lines);
    if exists i :: 0 <= i < |pieces| && CleanLine(pieces[i]) == "select" {
      var i :| 0 <= i < |pieces| && CleanLine(pieces[i]) == "select";
      assert lines[i] == "select";
      JoinStartsWith(FromSelect(lines));
    } else {
      forall i | 0 <= i < |lines|
        ensures lines[i] != "select"
      {
        assert lines[i] == CleanLine(pieces[i]);
      }
    }
  }

  lemma JoinStartsWith(xs: seq<string>)
    requires |xs| > 0
    ensures StartsWith(Join(xs, '\n'), xs[0])
  {
    if |xs| > 1 {
      assert Join(xs, '\n') == xs[0] + (['\n'] + Join(xs[1..], '\n'));
    }
  }

  // ---------------------------------------------------------------------
  // sfa.Connector.query

  /** The guard in front of the Snowflake cursor: an unconnected connector
      fails its assertion, a dry run returns nothing, otherwise the text is
      executed as given. */
  function ConnectorQuery(connected: bool, dryRun: bool, text: string): (r: Result<Option<string>>)
    ensures r.Err? <==> !connected
    ensures r.Err? ==> r.error == AssertionError
    ensures r == Ok(None) <==> connected && dryRun
    ensures r.Ok? && r.value.Some? ==> r.value.value == text
  {
    if !connected then Err(AssertionError)
    else if dryRun then Ok(None)
    else Ok(Some(text))
  }
}

=== FILE: stream_order.dfy ===
/** The TPC-H query stream ordering table (Appendix A of the TPC-H
    specification), as `tools.parse_h_stream_seq` reads it from its text
    file: two title lines and a separator line are skipped, every other line
    is one stream's tab-separated row. */
module StreamOrder {
  import opened Text

  /** Line indices the parser skips: the two title lines and line 3. */
  const Skipped: set<int> := {0, 1, 3}

  /** The lines the parser keeps, stated without the running counter: line 2
      and everything from line 4 on. */
  function DataLines(lines: seq<string>): seq<string> {
    (if |lines| > 2 then [lines[2]] else []) + (if |lines| > 4 then lines[4..] else [])
  }

  /** One more line is kept unless its index is skipped. */
  lemma DataLinesStep(lines: seq<string>, c: nat)
    requires c < |lines|
    ensures DataLines(lines[..c + 1]) == DataLines(lines[..c]) + (if c in Skipped then [] else [lines[c]])
  {
    assert lines[..c + 1][..c] == lines[..c];
    if c !in Skipped {
      assert c == 2 || c >= 4;
      if c > 4 {
        assert lines[..c + 1][4..] == lines[..c][4..] + [lines[c]];
      }
    }
  }

  /** A stream row: the stripped line split on tabs. */
  function Row(line: string): seq<string> {
    Split(Strip(line), '\t')
  }

  /** The counter loop of `parse_h_stream_seq`, up to (not including) the
      DataFrame construction: it keeps exactly `DataLines`, in order. */
  method ParseStreamOrder(lines: seq<string>) returns (rows: seq<seq<string>>)
    ensures |rows| == |DataLines(lines)|
    ensures forall i :: 0 <= i < |rows| ==> rows[i] == Row(DataLines(lines)[i])
    ensures |lines| >= 5 ==> |rows| == |lines| - 3
  {
    var kept: seq<string> := [];
    var c := 0;
    while c < |lines|
      invariant 0 <= c <= |lines|
      invariant kept == DataLines(lines[..c])
    {
      DataLinesStep(lines, c);
      if c !in Skipped {
        kept := kept + [lines[c]];
      }
      c := c + 1;
    }
    assert lines[..c] == lines;
    rows := [];
    var i := 0;
    while i < |kept|
      invariant 0 <= i <= |kept|
      invariant |rows| == i
      invariant forall j :: 0 <= j < i ==> rows[j] == Row(kept[j])
    {
      rows := rows + [Row(kept[i])];
      i := i + 1;
    }
  }
}

=== FILE: table_names.dfy ===
/** From the name of a generated data file to the table its rows load into.

    `dsdgen` writes files such as `store_sales_1_8.dat` (table, child number,
    parallel count); the loaders recover `store_sales` by dropping every
    `_`-token of the stem that `int()` accepts. The Snowflake loader does the
    same for bucket listings, and the result comparison reads the query
    number back out of a result-file name. */
module TableNames {
  import opened Wrappers
  import opened Text

  // ---------------------------------------------------------------------
  // extract_table_name (tools.py, bqa.py, tpcds_bq.py)

  /** The elements `drop` does not hold of, in their original order. */
  function Reject<T(==)>(xs: seq<T>, drop: T -> bool): (r: seq<T>)
    ensures |r| <= |xs|
    ensures forall i :: 0 <= i < |r| ==> !drop(r[i]) && r[i] in xs
    ensures forall i :: 0 <= i < |xs| && !drop(xs[i]) ==> xs[i] in r
    ensures (forall i :: 0 <= i < |xs| ==> !drop(xs[i])) ==> r == xs
  {
    if |xs| == 0 then []
    else
      var rest := Reject(xs[1..], drop);
      assert forall i :: 1 <= i < |xs| ==> xs[1..][i - 1] == xs[i];
      assert xs == [xs[0]] + xs[1..];
      (if drop(xs[0]) then [] else [xs[0]]) + rest
  }

  /** The tokens `int()` rejects, in their original order. */
  function NonIntTokens(toks: seq<string>): (r: seq<string>)
    ensures |r| <= |toks|
    ensures forall i :: 0 <= i < |r| ==> !IsIntToken(r[i]) && r[i] in toks
    ensures forall i :: 0 <= i < |toks| && !IsIntToken(toks[i]) ==> toks[i] in r
    ensures (forall i :: 0 <= i < |toks| ==> !IsIntToken(toks[i])) ==> r == toks
  {
    Reject(toks, IsIntToken)
  }

  /** The filter works element by element: splitting the input splits the
      output at the same place. */
  lemma {:induction false} RejectAppend<T>(xs: seq<T>, ys: seq<T>, drop: T -> bool)
    ensures Reject(xs + ys, drop) == Reject(xs, drop) + Reject(ys, drop)
    decreases |xs|
  {
    if |xs| > 0 {
      var head := if drop(xs[0]) then [] else [xs[0]];
      assert (xs + ys)[0] == xs[0] && (xs + ys)[1..] == xs[1..] + ys;
      RejectAppend(xs[1..], ys, drop);
      RejectCons(xs + ys, xs[0], xs[1..] + ys, drop);
      RejectCons(xs, xs[0], xs[1..], drop);
      ConcatAssoc(head, Reject(xs[1..], drop), Reject(ys, drop));
    } else {
      assert xs + ys == ys;
    }
  }

  /** One step of `Reject`: the first element, unless dropped, then the
      rest's survivors. */
  lemma RejectCons<T>(s: seq<T>, x: T, t: seq<T>, drop: T -> bool)
    requires |s| > 0 && s[0] == x && s[1..] == t
    ensures Reject(s, drop) == (if drop(x) then [] else [x]) + Reject(t, drop)
  {
  }

  /** Each token is kept or dropped in place, on its own `int()` verdict,
      so the kept tokens keep their order and multiplicity. */
  lemma NonIntTokensOrder(xs: seq<string>, x: string, ys: seq<string>)
    ensures NonIntTokens(xs + [x] + ys) ==
              NonIntTokens(xs) + (if IsIntToken(x) then [] else [x]) + NonIntTokens(ys)
  {
    RejectAppend(xs + [x], ys, IsIntToken);
    RejectAppend(xs, [x], IsIntToken);
    RejectOne(x, IsIntToken);
  }

  lemma RejectOne<T>(x: T, drop: T -> bool)
    ensures Reject([x], drop) == if drop(x) then [] else [x]
  {
    assert [x][1..] == [];
  }

  /** The part of a file name before its first dot. */
  function Stem(fName: string): string {
    Split(fName, '.')[0]
  }

  lemma {:induction false} SplitPiecesAvoid(s: string, sep: char, c: char)
    requires c !in s
    ensures forall i :: 0 <= i < |Split(s, sep)| ==> c !in Split(s, sep)[i]
    decreases |s|
  {
    if |s| > 0 {
      SplitPiecesAvoid(s[1..], sep, c);
    }
  }

  /** A split yields a single piece exactly when the separator is absent. */
  lemma SplitSingle(s: string, sep: char)
    ensures |Split(s, sep)| == 1 <==> sep !in s
  {
    if sep in s {
      var i :| 0 <= i < |s| && s[i] == sep;
      assert s == s[..i] + [sep] + s[i + 1..];
      SplitAppend(s[..i], s[i + 1..], sep);
    } else {
      SplitNoSep(s, sep);
    }
  }

  /** `tools.extract_table_name`: the `_`-tokens of the stem that are not
      integers, re-joined with `_`. The result has no dot, none of its
      `_`-tokens is an integer, and a stem without integer tokens comes back
      unchanged. */
  function ExtractTableName(fName: string): (r: string)
    ensures '.' !in r
    ensures forall i :: 0 <= i < |Split(r, '_')| ==> !IsIntToken(Split(r, '_')[i])
    ensures (forall i :: 0 <= i < |Split(Stem(fName), '_')| ==> !IsIntToken(Split(Stem(fName), '_')[i]))
            ==> r == Stem(fName)
  {
    JoinKept(Stem(fName));
    Join(NonIntTokens(Split(Stem(fName), '_')), '_')
  }

  /** Re-joining the non-integer tokens of a dot-free stem. */
  lemma JoinKept(stem: string)
    requires '.' !in stem
    ensures var r := Join(NonIntTokens(Split(stem, '_')), '_');
            && '.' !in r
            && (forall i :: 0 <= i < |Split(r, '_')| ==> !IsIntToken(Split(r, '_')[i]))
            && ((forall i :: 0 <= i < |Split(stem, '_')| ==> !IsIntToken(Split(stem, '_')[i])) ==> r == stem)
  {
    var kept := NonIntTokens(Split(stem, '_'));
    SplitPiecesAvoid(stem, '_', '.');
    JoinAvoids(kept, '_', '.');
    JoinKeptTokens(kept);
    JoinSplit(stem, '_');
  }

  /** Joining tokens none of which is an integer and splitting again gives
      no integer token, even when there are no tokens at all. */
  lemma JoinKeptTokens(kept: seq<string>)
    requires forall i :: 0 <= i < |kept| ==> !IsIntToken(kept[i]) && '_' !in kept[i]
    ensures forall i :: 0 <= i < |Split(Join(kept, '_'), '_')| ==> !IsIntToken(Split(Join(kept, '_'), '_')[i])
  {
    if |kept| > 0 {
      SplitJoin(kept, '_');
    } else {
      assert Split("", '_') == [""];
      assert Strip("") == "";
    }
  }

  /** The tokens kept are exactly the non-integer tokens of the stem, in
      order, empty tokens included. */
  lemma ExtractTableNameTokens(fName: string)
    requires |NonIntTokens(Split(Stem(fName), '_'))| > 0
    ensures Split(ExtractTableName(fName), '_') == NonIntTokens(Split(Stem(fName), '_'))
  {
    SplitJoin(NonIntTokens(Split(Stem(fName), '_')), '_');
  }

  /** An empty token (from `__` or a leading or trailing `_`) is never an
      integer, so it survives extraction. */
  lemma EmptyTokenKept(fName: string)
    requires "" in Split(Stem(fName), '_')
    ensures "" in NonIntTokens(Split(Stem(fName), '_'))
  {
    assert Strip("") == "";
  }

  /** Extraction is idempotent. */
  lemma ExtractTableNameIdempotent(fName: string)
    ensures ExtractTableName(ExtractTableName(fName)) == ExtractTableName(fName)
  {
    var r := ExtractTableName(fName);
    SplitNoSep(r, '.');
    assert Stem(r) == r;
    JoinSplit(r, '_');
  }

  /** `bqa.extract_table_name`: the same rule applied to the last
      `sep`-separated component of a path. */
  function ExtractTableNameFromPath(path: string, sep: char): (r: string)
    ensures '.' !in r
    ensures sep !in path ==> r == ExtractTableName(path)
  {
    SplitNoSepLast(path, sep);
    ExtractTableName(Last(Split(path, sep)))
  }

  lemma SplitNoSepLast(path: string, sep: char)
    ensures sep !in path ==> Last(Split(path, sep)) == path
  {
    if sep !in path {
      SplitNoSep(path, sep);
    }
  }

  /** The directory part of the path never influences the table name. */
  lemma DirectoryIgnored(dir: string, name: string, sep: char)
    ensures ExtractTableNameFromPath(dir + [sep] + name, sep) == ExtractTableNameFromPath(name, sep)
  {
    LastPieceAfterSeparator(dir, name, sep);
  }

  /** The tokens on which `int()` raises anything at all (`tpcds_bq.py` uses
      a bare `except`). */
  function FailingTokens(toks: seq<string>): seq<string> {
    if |toks| == 0 then []
    else (if ParseInt(toks[0]).None? then [toks[0]] else []) + FailingTokens(toks[1..])
  }

  /** `tpcds_bq.extract_table_name`, whose bare `except` keeps a token on any
      failure of `int()`. */
  function ExtractTableNameAnyFailure(path: string, sep: char): string {
    var stem := Stem(Last(Split(path, sep)));
    Join(FailingTokens(Split(stem, '_')), '_')
  }

  lemma {:induction false} FailingTokensAgree(toks: seq<string>)
    ensures FailingTokens(toks) == NonIntTokens(toks)
    decreases |toks|
  {
    if |toks| > 0 {
      ParseIntAccepts(toks[0]);
      FailingTokensAgree(toks[1..]);
      assert NonIntTokens(toks) == (if IsIntToken(toks[0]) then [] else [toks[0]]) + NonIntTokens(toks[1..]);
    }
  }

  /** On strings `int()` only ever raises `ValueError`, so the bare `except`
      of `tpcds_bq.py` and the `except ValueError` of `bqa.py` extract the
      same table name from every path. */
  lemma BareExceptAgrees(path: string, sep: char)
    ensures ExtractTableNameAnyFailure(path, sep) == ExtractTableNameFromPath(path, sep)
  {
    FailingTokensAgree(Split(Stem(Last(Split(path, sep))), '_'));
  }

  // ---------------------------------------------------------------------
  // threaded_upload._extract_table_name_from_gcs_filepath

  const GcsLocation: string := "gcs://tpc-benchmark-5947"

  /** Only files of the 100 GB TPC-DS data set are loaded. */
  const GcsPrefix: string := GcsLocation + "/ds_100GB_"

  /** `Ok(None)` is the `(False, None)` answer, `Ok(Some(t))` is
      `(True, t)`, and `Err(IndexError)` is the uncaught exception raised when
      the name after the prefix has no second `_`-token. */
  function GcsFilePathTable(path: string): (r: Result<Option<string>>)
    ensures r == Ok(None) <==> !StartsWith(path, GcsPrefix)
    ensures r.Err? <==> StartsWith(path, GcsPrefix) && '_' !in path[|GcsPrefix|..]
    ensures r.Ok? && r.value.Some? ==>
      var toks := Split(path[|GcsPrefix|..], '_');
      && |toks| >= 2
      && (IsIntToken(toks[1]) ==> Split(r.value.value, '_') == toks[..1])
      && (!IsIntToken(toks[1]) ==> Split(r.value.value, '_') == toks[..2])
  {
    var cut := if |GcsLocation| + 1 <= |path| then |GcsLocation| + 1 else |path|;
    var filename := path[cut..];
    if StartsWith(filename, "_data_") then
      assert !StartsWith(path, GcsPrefix) by {
        if StartsWith(path, GcsPrefix) {
          DataGuardSubsumed(path);
          assert false;
        }
      }
      Ok(None)
    else if !StartsWith(path, GcsPrefix) then Ok(None)
    else
      var rest := path[|GcsPrefix|..];
      var toks := Split(rest, '_');
      SplitSingle(rest, '_');
      if |toks| < 2 then Err(IndexError)
      else if IsIntToken(toks[1]) then
        SplitNoSep(toks[0], '_');
        assert toks[..1] == [toks[0]];
        Ok(Some(toks[0]))
      else
        assert Join(toks[..2], '_') == toks[0] + "_" + toks[1];
        SplitJoin(toks[..2], '_');
        Ok(Some(toks[0] + "_" + toks[1]))
  }

  /** A path with the data-set prefix never has `_data_` after the bucket
      location, so the debug-file guard only ever rejects paths the prefix
      test rejects as well. */
  lemma DataGuardSubsumed(path: string)
    requires StartsWith(path, GcsPrefix)
    ensures !StartsWith(path[|GcsLocation| + 1..], "_data_")
  {
    assert GcsPrefix == "gcs://tpc-benchmark-5947/ds_100GB_";
    assert path[..|GcsPrefix|] == GcsPrefix;
    assert path[|GcsLocation| + 1] == GcsPrefix[|GcsLocation| + 1] == 'd';
  }

  /** A matched table name has one or two `_`-tokens. */
  lemma GcsTableTokenCount(path: string)
    requires GcsFilePathTable(path).Ok? && GcsFilePathTable(path).value.Some?
    ensures 1 <= |Split(GcsFilePathTable(path).value.value, '_')| <= 2
  {
  }

  // ---------------------------------------------------------------------
  // threaded_upload.list_integration

  /** What the extraction says about one listed path: `Ok(Some(t))` for a
      path of table `t`, `Ok(None)` for a path that does not match, an error
      when the extraction raises. `GcsFilePathTable` is the one the listing
      uses; the grouping below holds for any. */
  type Classifier = string -> Result<Option<string>>

  /** The listed paths filed under table `t`, in listing order. */
  function PathsOf(paths: seq<string>, t: string, tableOf: Classifier): seq<string> {
    if |paths| == 0 then []
    else PathsOf(paths[..|paths| - 1], t, tableOf)
         + (if tableOf(Last(paths)) == Ok(Some(t)) then [Last(paths)] else [])
  }

  /** The listed paths that matched a table missing from `tables`. */
  function UnknownPaths(paths: seq<string>, tables: seq<string>, tableOf: Classifier): seq<string> {
    if |paths| == 0 then []
    else UnknownPaths(paths[..|paths| - 1], tables, tableOf) + UnknownOf(Last(paths), tables, tableOf)
  }

  /** `[p]` when `p` matched a table missing from `tables`, else nothing. */
  function UnknownOf(p: string, tables: seq<string>, tableOf: Classifier): seq<string> {
    var r := tableOf(p);
    if r.Ok? && r.value.Some? && r.value.value !in tables then [p] else []
  }

  /** The grouping of a listing prefix `ps`: keys are the known tables some
      path of `ps` was filed under, each with its paths in listing order. */
  ghost predicate GroupsOf(groups: map<string, seq<string>>, ps: seq<string>, tables: seq<string>, tableOf: Classifier) {
    && (forall t :: t in groups <==> t in tables && |PathsOf(ps, t, tableOf)| > 0)
    && (forall t :: t in groups ==> groups[t] == PathsOf(ps, t, tableOf))
  }

  /** Files one more listed path under its table, when that table is known. */
  function AddPath(groups: map<string, seq<string>>, p: string, tables: seq<string>, tableOf: Classifier): map<string, seq<string>> {
    var f := tableOf(p);
    if f.Ok? && f.value.Some? && f.value.value in tables then
      var t := f.value.value;
      groups[t := (if t in groups then groups[t] else []) + [p]]
    else groups
  }

  lemma AddPathStep(groups: map<string, seq<string>>, ps: seq<string>, p: string, tables: seq<string>, tableOf: Classifier)
    requires GroupsOf(groups, ps, tables, tableOf)
    ensures GroupsOf(AddPath(groups, p, tables, tableOf), ps + [p], tables, tableOf)
  {
    forall t
      ensures PathsOf(ps + [p], t, tableOf) == PathsOf(ps, t, tableOf) + (if tableOf(p) == Ok(Some(t)) then [p] else [])
    {
      PathsOfSnoc(ps, p, t, tableOf);
    }
    var f := tableOf(p);
    if f.Ok? && f.value.Some? && f.value.value in tables {
      AddKnownPath(groups, ps, p, tables, tableOf);
    }
  }

  lemma PathsOfSnoc(ps: seq<string>, p: string, t: string, tableOf: Classifier)
    ensures PathsOf(ps + [p], t, tableOf) == PathsOf(ps, t, tableOf) + (if tableOf(p) == Ok(Some(t)) then [p] else [])
  {
    assert (ps + [p])[..|ps|] == ps;
  }

  /** Filing a path of a known table touches only that table's entry. */
  lemma AddKnownPath(groups: map<string, seq<string>>, ps: seq<string>, p: string, tables: seq<string>, tableOf: Classifier)
    requires GroupsOf(groups, ps, tables, tableOf)
    requires tableOf(p).Ok? && tableOf(p).value.Some? && tableOf(p).value.value in tables
    requires forall t :: PathsOf(ps + [p], t, tableOf) == PathsOf(ps, t, tableOf) + (if tableOf(p) == Ok(Some(t)) then [p] else [])
    ensures GroupsOf(AddPath(groups, p, tables, tableOf), ps + [p], tables, tableOf)
  {
  }

  lemma UnknownStep(ps: seq<string>, p: string, tables: seq<string>, tableOf: Classifier)
    ensures UnknownPaths(ps + [p], tables, tableOf) == UnknownPaths(ps, tables, tableOf) + UnknownOf(p, tables, tableOf)
  {
    assert (ps + [p])[..|ps|] == ps;
  }

  /** The per-table grouping, and the matched paths that were only logged. */
  datatype Listing = Listing(groups: map<string, seq<string>>, unknown: seq<string>)

  /** `list_integration` after the stage listing: every path whose table
      is known is filed under that table in listing order; a table appears as
      a key exactly when some path was filed under it; matched paths of
      unknown tables are reported instead; any extraction error aborts. */
  method ListIntegration(paths: seq<string>, tables: seq<string>) returns (r: Result<Listing>)
    ensures r.Err? <==> exists i :: 0 <= i < |paths| && GcsFilePathTable(paths[i]).Err?
    ensures r.Ok? ==> forall t :: t in r.value.groups <==> t in tables && |PathsOf(paths, t, GcsFilePathTable)| > 0
    ensures r.Ok? ==> forall t :: t in r.value.groups ==> r.value.groups[t] == PathsOf(paths, t, GcsFilePathTable)
    ensures r.Ok? ==> r.value.unknown == UnknownPaths(paths, tables, GcsFilePathTable)
  {
    r := Group(paths, tables, GcsFilePathTable);
  }

  /** The loop of `list_integration`, for any classifier of paths. */
  method Group(paths: seq<string>, tables: seq<string>, tableOf: Classifier) returns (r: Result<Listing>)
    ensures r.Err? <==> exists i :: 0 <= i < |paths| && tableOf(paths[i]).Err?
    ensures r.Ok? ==> forall t :: t in r.value.groups <==> t in tables && |PathsOf(paths, t, tableOf)| > 0
    ensures r.Ok? ==> forall t :: t in r.value.groups ==> r.value.groups[t] == PathsOf(paths, t, tableOf)
    ensures r.Ok? ==> r.value.unknown == UnknownPaths(paths, tables, tableOf)
  {
    var groups: map<string, seq<string>> := map[];
    var unknown: seq<string> := [];
    var i := 0;
    while i < |paths|
      invariant 0 <= i <= |paths|
      invariant ExtractsUpTo(paths, i, tableOf)
      invariant GroupsOf(groups, paths[..i], tables, tableOf)
      invariant unknown == UnknownPaths(paths[..i], tables, tableOf)
    {
      var p := paths[i];
      var found := tableOf(p);
      if found.Err? {
        assert tableOf(paths[i]).Err?;
        return Err(found.error);
      }
      ListingStep(groups, unknown, paths, i, tables, tableOf);
      ExtractsStep(paths, i, tableOf);
      groups := AddPath(groups, p, tables, tableOf);
      unknown := unknown + UnknownOf(p, tables, tableOf);
      i := i + 1;
    }
    assert paths[..i] == paths;
    assert ExtractsUpTo(paths, |paths|, tableOf);
    GroupsOfMeans(groups, paths, tables, tableOf);
    r := Ok(Listing(groups, unknown));
  }

  /** No path before position `i` makes the extraction raise. */
  predicate ExtractsUpTo(paths: seq<string>, i: int, tableOf: Classifier)
    requires 0 <= i <= |paths|
  {
    forall j :: 0 <= j < i ==> tableOf(paths[j]).Ok?
  }

  lemma ExtractsStep(paths: seq<string>, i: int, tableOf: Classifier)
    requires 0 <= i < |paths|
    requires ExtractsUpTo(paths, i, tableOf) && tableOf(paths[i]).Ok?
    ensures ExtractsUpTo(paths, i + 1, tableOf)
  {
  }

  lemma ListingStep(groups: map<string, seq<string>>, unknown: seq<string>, paths: seq<string>, i: int, tables: seq<string>,
                    tableOf: Classifier)
    requires 0 <= i < |paths|
    requires GroupsOf(groups, paths[..i], tables, tableOf)
    requires unknown == UnknownPaths(paths[..i], tables, tableOf)
    ensures GroupsOf(AddPath(groups, paths[i], tables, tableOf), paths[..i + 1], tables, tableOf)
    ensures UnknownPaths(paths[..i + 1], tables, tableOf) == unknown + UnknownOf(paths[i], tables, tableOf)
  {
    assert paths[..i + 1] == paths[..i] + [paths[i]];
    AddPathStep(groups, paths[..i], paths[i], tables, tableOf);
    UnknownStep(paths[..i], paths[i], tables, tableOf);
  }

  lemma GroupsOfMeans(groups: map<string, seq<string>>, ps: seq<string>, tables: seq<string>, tableOf: Classifier)
    requires GroupsOf(groups, ps, tables, tableOf)
    ensures forall t :: t in groups <==> t in tables && |PathsOf(ps, t, tableOf)| > 0
    ensures forall t :: t in groups ==> groups[t] == PathsOf(ps, t, tableOf)
  {
  }
}

=== FILE: text.dfy ===
/** Python string semantics the benchmark tooling relies on: `split` on a
    one-character separator, `split()` on whitespace runs, `join`, `strip`,
    `replace`, `lower`, `startswith`/`endswith`/`in`, and `int()`/`str()` on
    integers. Strings are sequences of characters; every separator the
    modelled code splits on is a single character. */
module Text {
  import opened Wrappers

  /** The characters Python's `str.isspace()` accepts (tab to carriage
      return, the four information separators, space, next line, no-break
      space, and the Unicode space separators); `split()` and `strip()`
      without arguments treat exactly these as whitespace. */
  predicate IsSpace(c: char) {
    || c == ' '
    || '\t' <= c <= '\r'
    || '\U{001C}' <= c <= '\U{001F}'
    || c == '\U{0085}' || c == '\U{00A0}' || c == '\U{1680}'
    || '\U{2000}' <= c <= '\U{200A}'
    || c == '\U{2028}' || c == '\U{2029}' || c == '\U{202F}' || c == '\U{205F}' || c == '\U{3000}'
  }

  /** The character sets the modelled code passes to `strip`, `lstrip` and
      `rstrip`: whitespace (no argument), "\n", "\r", "\\" and "/". */
  datatype CharClass = Whitespace | Newline | Return | Backslash | Slash

  predicate Drops(k: CharClass, c: char) {
    match k
    case Whitespace => IsSpace(c)
    case Newline => c == '\n'
    case Return => c == '\r'
    case Backslash => c == '\\'
    case Slash => c == '/'
  }

  predicate NoSpace(w: string) {
    forall i :: 0 <= i < |w| ==> !IsSpace(w[i])
  }

  predicate IsDigit(c: char) {
    '0' <= c <= '9'
  }

  predicate StartsWith(s: string, p: string) {
    |p| <= |s| && s[..|p|] == p
  }

  predicate EndsWith(s: string, p: string) {
    |p| <= |s| && s[|s| - |p|..] == p
  }

  /** `p` occurs in `s` starting at index `i`. */
  predicate OccursAt(s: string, p: string, i: int) {
    0 <= i <= |s| - |p| && s[i..i + |p|] == p
  }

  /** Python's `p in s` for strings. */
  predicate Contains(s: string, p: string) {
    exists i | 0 <= i <= |s| - |p| :: OccursAt(s, p, i)
  }

  function Last<T>(xs: seq<T>): T
    requires |xs| > 0
  {
    xs[|xs| - 1]
  }

  // ---------------------------------------------------------------------
  // split / join on a one-character separator

  /** Python's `s.split(sep)`: empty pieces are kept, so the result always
      has one more piece than `s` has separators. */
  function Split(s: string, sep: char): (r: seq<string>)
    ensures |r| >= 1
    ensures forall i :: 0 <= i < |r| ==> sep !in r[i]
    decreases |s|
  {
    if |s| == 0 then [""]
    else
      var rest := Split(s[1..], sep);
      if s[0] == sep then [""] + rest
      else [[s[0]] + rest[0]] + rest[1..]
  }

  /** Python's `sep.join(xs)`. */
  function Join(xs: seq<string>, sep: char): string {
    if |xs| == 0 then ""
    else if |xs| == 1 then xs[0]
    else xs[0] + [sep] + Join(xs[1..], sep)
  }

  lemma JoinThree(a: string, b: string, c: string, sep: char)
    ensures Join([a, b, c], sep) == a + [sep] + b + [sep] + c
  {
    assert [a, b, c][1..] == [b, c];
    assert [b, c][1..] == [c];
    assert Join([c], sep) == c;
    assert Join([b, c], sep) == b + [sep] + c;
  }

  lemma JoinFour(a: string, b: string, c: string, d: string, sep: char)
    ensures Join([a, b, c, d], sep) == a + [sep] + b + [sep] + c + [sep] + d
  {
    assert [a, b, c, d][1..] == [b, c, d];
    JoinThree(b, c, d, sep);
  }

  /** Joining the pieces of a split gives back the original text. */
  lemma {:induction false} JoinSplit(s: string, sep: char)
    ensures Join(Split(s, sep), sep) == s
    decreases |s|
  {
    if |s| > 0 {
      var rest := Split(s[1..], sep);
      JoinSplit(s[1..], sep);
      if s[0] == sep {
        assert Split(s, sep) == [""] + rest;
        assert ([""] + rest)[1..] == rest;
      } else {
        var r := Split(s, sep);
        assert r == [[s[0]] + rest[0]] + rest[1..];
        if |rest| == 1 {
          assert s == [s[0]] + s[1..];
        } else {
          assert r[1..] == rest[1..];
          assert Join(rest, sep) == rest[0] + [sep] + Join(rest[1..], sep);
          assert s == [s[0]] + s[1..];
        }
      }
    }
  }

  /** Text without the separator splits into itself. */
  lemma {:induction false} SplitNoSep(a: string, sep: char)
    requires sep !in a
    ensures Split(a, sep) == [a]
    decreases |a|
  {
    if |a| > 0 {
      SplitNoSep(a[1..], sep);
      assert a == [a[0]] + a[1..];
    }
  }

  /** Splitting distributes over a separator occurrence. */
  lemma {:induction false} SplitAppend(a: string, b: string, sep: char)
    ensures Split(a + [sep] + b, sep) == Split(a, sep) + Split(b, sep)
    decreases |a|
  {
    if |a| == 0 {
      SplitAtSep(b, sep);
    } else {
      SplitAppend(a[1..], b, sep);
      SplitAppendStep(a, b, sep);
    }
  }

  /** A leading separator splits off an empty piece. */
  lemma SplitAtSep(b: string, sep: char)
    ensures Split([sep] + b, sep) == [""] + Split(b, sep)
  {
    assert ([sep] + b)[1..] == b;
  }

  /** The step of `SplitAppend`: the first character of `a` goes to the
      first piece on both sides. */
  lemma SplitAppendStep(a: string, b: string, sep: char)
    requires |a| > 0
    requires Split(a[1..] + [sep] + b, sep) == Split(a[1..], sep) + Split(b, sep)
    ensures Split(a + [sep] + b, sep) == Split(a, sep) + Split(b, sep)
  {
    var s := a + [sep] + b;
    assert s[0] == a[0] && s[1..] == a[1..] + [sep] + b;
    if a[0] == sep {
      SplitStepSep(a, s, sep, Split(a[1..], sep), Split(b, sep));
    } else {
      SplitStepChar(a, s, sep, Split(a[1..], sep), Split(b, sep));
    }
  }

  lemma SplitStepSep(a: string, s: string, sep: char, xs: seq<string>, ys: seq<string>)
    requires |a| > 0 && |s| > 0 && a[0] == sep && s[0] == sep
    requires Split(a[1..], sep) == xs && Split(s[1..], sep) == xs + ys
    ensures Split(s, sep) == Split(a, sep) + ys
  {
    SplitConsSep(s, sep, xs + ys);
    SplitConsSep(a, sep, xs);
    ConcatAssoc([""], xs, ys);
  }

  /** A sequence is the part before position `i`, the element there and
      the part after. */
  lemma SliceAround<T>(s: seq<T>, i: int)
    requires 0 <= i < |s|
    ensures s == s[..i] + [s[i]] + s[i + 1..]
  {
  }

  lemma ConcatAssoc<T>(xs: seq<T>, ys: seq<T>, zs: seq<T>)
    ensures xs + (ys + zs) == xs + ys + zs
  {
  }

  /** Past its first element, a concatenation is the first part's tail
      followed by the second part. */
  lemma TailAppend<T>(a: seq<T>, b: seq<T>)
    requires |a| > 0
    ensures (a + b)[0] == a[0] && (a + b)[1..] == a[1..] + b
  {
  }

  /** Some element satisfies `p` exactly when the first does or some
      element of the rest does. */
  lemma ExistsTail<T>(xs: seq<T>, p: T -> bool)
    requires |xs| > 0
    ensures (exists i :: 0 <= i < |xs| && p(xs[i])) <==>
              p(xs[0]) || exists i :: 0 <= i < |xs[1..]| && p(xs[1..][i])
  {
    if exists i :: 0 <= i < |xs[1..]| && p(xs[1..][i]) {
      var i :| 0 <= i < |xs[1..]| && p(xs[1..][i]);
      assert xs[1..][i] == xs[i + 1];
    }
    if exists i :: 0 <= i < |xs| && p(xs[i]) {
      var i :| 0 <= i < |xs| && p(xs[i]);
      if i > 0 {
        assert xs[1..][i - 1] == xs[i];
      }
    }
  }

  lemma SplitStepChar(a: string, s: string, sep: char, xs: seq<string>, ys: seq<string>)
    requires |a| > 0 && |s| > 0 && a[0] != sep && s[0] == a[0]
    requires Split(a[1..], sep) == xs && Split(s[1..], sep) == xs + ys
    ensures Split(s, sep) == Split(a, sep) + ys
  {
    SplitConsChar(s, sep, xs + ys);
    SplitConsChar(a, sep, xs);
    HeadMerge(a[0], xs, ys);
  }

  lemma SplitConsSep(s: string, sep: char, rest: seq<string>)
    requires |s| > 0 && s[0] == sep && Split(s[1..], sep) == rest
    ensures Split(s, sep) == [""] + rest
  {
  }

  lemma SplitConsChar(s: string, sep: char, rest: seq<string>)
    requires |s| > 0 && s[0] != sep && Split(s[1..], sep) == rest
    ensures |rest| > 0 && Split(s, sep) == [[s[0]] + rest[0]] + rest[1..]
  {
  }

  /** One step of `Split`, stated on its own. */
  lemma SplitCons(s: string, sep: char)
    requires |s| > 0
    ensures var rest := Split(s[1..], sep);
            Split(s, sep) == if s[0] == sep then [""] + rest else [[s[0]] + rest[0]] + rest[1..]
  {
  }

  lemma HeadMerge(c: char, ra: seq<string>, rb: seq<string>)
    requires |ra| > 0
    ensures var rest := ra + rb;
            [[c] + rest[0]] + rest[1..] == [[c] + ra[0]] + ra[1..] + rb
  {
    var rest := ra + rb;
    assert rest[0] == ra[0];
    assert rest[1..] == ra[1..] + rb;
  }

  /** Splitting a join gives back the pieces, provided none of them holds
      the separator. */
  lemma {:induction false} SplitJoin(xs: seq<string>, sep: char)
    requires |xs| >= 1
    requires forall i :: 0 <= i < |xs| ==> sep !in xs[i]
    ensures Split(Join(xs, sep), sep) == xs
    decreases |xs|
  {
    SplitNoSep(xs[0], sep);
    if |xs| > 1 {
      SplitJoin(xs[1..], sep);
      SplitJoinStep(xs, sep);
    }
  }

  lemma SplitJoinStep(xs: seq<string>, sep: char)
    requires |xs| > 1 && sep !in xs[0]
    requires Split(Join(xs[1..], sep), sep) == xs[1..]
    ensures Split(Join(xs, sep), sep) == xs
  {
    SplitNoSep(xs[0], sep);
    SplitAppend(xs[0], Join(xs[1..], sep), sep);
    assert [xs[0]] + xs[1..] == xs;
  }

  /** Three separator-free pieces joined by the separator split back. */
  lemma SplitThree(a: string, b: string, c: string, sep: char)
    requires sep !in a && sep !in b && sep !in c
    ensures Split(a + [sep] + b + [sep] + c, sep) == [a, b, c]
  {
    JoinThree(a, b, c, sep);
    SplitJoin([a, b, c], sep);
  }

  /** Joining pieces none of which holds `c` (with a separator other than `c`)
      gives text without `c`. */
  lemma {:induction false} JoinAvoids(xs: seq<string>, sep: char, c: char)
    requires c != sep
    requires forall i :: 0 <= i < |xs| ==> c !in xs[i]
    ensures c !in Join(xs, sep)
    decreases |xs|
  {
    if |xs| > 1 {
      JoinAvoids(xs[1..], sep, c);
    }
  }

  /** The last piece of a split ignores everything up to the last separator. */
  lemma LastPieceAfterSeparator(dir: string, name: string, sep: char)
    ensures Last(Split(dir + [sep] + name, sep)) == Last(Split(name, sep))
  {
    SplitAppend(dir, name, sep);
  }

  // ---------------------------------------------------------------------
  // strip

  /** Python's `s.lstrip(chars)`, with `cs` naming the characters of
      `chars`. */
  function LStrip(s: string, cs: CharClass): (r: string)
    ensures |r| <= |s| && r == s[|s| - |r|..]
    ensures |r| > 0 ==> !Drops(cs, r[0]) && !Drops(cs, s[|s| - |r|])
    ensures forall i :: 0 <= i < |s| - |r| ==> Drops(cs, s[i])
    decreases |s|
  {
    if |s| > 0 && Drops(cs, s[0]) then LStrip(s[1..], cs) else s
  }

  /** Python's `s.rstrip(chars)`. */
  function RStrip(s: string, cs: CharClass): (r: string)
    ensures |r| <= |s| && r == s[..|r|]
    ensures |r| > 0 ==> !Drops(cs, r[|r| - 1])
    ensures forall i :: |r| <= i < |s| ==> Drops(cs, s[i])
    decreases |s|
  {
    if |s| > 0 && Drops(cs, s[|s| - 1]) then RStrip(s[..|s| - 1], cs) else s
  }

  /** Python's `s.strip(chars)`: the longest middle part that neither starts
      nor ends with a dropped character. */
  function StripChars(s: string, cs: CharClass): (r: string)
    ensures |r| > 0 ==> !Drops(cs, r[0]) && !Drops(cs, r[|r| - 1])
    ensures OccursAt(s, r, |s| - |LStrip(s, cs)|)
  {
    var t := LStrip(s, cs);
    RStripKeepsFirst(t, cs);
    PrefixOfSuffix(s, t, RStrip(t, cs));
    RStrip(t, cs)
  }

  /** Right-stripping text that starts with a kept character keeps it. */
  lemma RStripKeepsFirst(t: string, cs: CharClass)
    requires |t| > 0 ==> !Drops(cs, t[0])
    ensures var r := RStrip(t, cs);
            |r| > 0 ==> !Drops(cs, r[0]) && !Drops(cs, r[|r| - 1])
  {
    var r := RStrip(t, cs);
    if |r| > 0 {
      FirstOfPrefix(t, r);
    }
  }

  lemma FirstOfPrefix(t: string, r: string)
    requires 0 < |r| <= |t| && r == t[..|r|]
    ensures r[0] == t[0]
  {
  }

  lemma PrefixOfSuffix(s: string, t: string, r: string)
    requires |t| <= |s| && t == s[|s| - |t|..]
    requires |r| <= |t| && r == t[..|r|]
    ensures OccursAt(s, r, |s| - |t|)
  {
    SliceOfSuffix(s, |s| - |t|, |r|);
  }

  lemma SliceOfSuffix(s: string, k: nat, n: nat)
    requires k + n <= |s|
    ensures s[k..][..n] == s[k..k + n]
  {
  }

  /** Python's `s.strip()`. */
  function Strip(s: string): (r: string)
    ensures |r| > 0 ==> !IsSpace(r[0]) && !IsSpace(r[|r| - 1])
  {
    StripChars(s, Whitespace)
  }

  /** Text that neither starts nor ends with a dropped character is left
      alone by the strip. */
  lemma StripStripped(s: string, cs: CharClass)
    requires |s| > 0 ==> !Drops(cs, s[0]) && !Drops(cs, s[|s| - 1])
    ensures StripChars(s, cs) == s
  {
  }

  // ---------------------------------------------------------------------
  // split() on whitespace runs

  /** Length of the leading run of non-whitespace characters. */
  function WordLen(s: string): (n: nat)
    ensures n <= |s|
    ensures forall i :: 0 <= i < n ==> !IsSpace(s[i])
    ensures n < |s| ==> IsSpace(s[n])
    decreases |s|
  {
    if |s| == 0 || IsSpace(s[0]) then 0 else 1 + WordLen(s[1..])
  }

  /** Python's `s.split()`: maximal runs of non-whitespace, with leading and
      trailing whitespace ignored. */
  function WsSplit(s: string): (r: seq<string>)
    ensures forall i :: 0 <= i < |r| ==> |r[i]| > 0 && NoSpace(r[i])
    decreases |s|
  {
    if |s| == 0 then []
    else if IsSpace(s[0]) then WsSplit(s[1..])
    else
      var n := WordLen(s);
      [s[..n]] + WsSplit(s[n..])
  }

  lemma {:induction false} WordLenOfWord(w: string, t: string)
    requires NoSpace(w)
    requires |t| == 0 || IsSpace(t[0])
    ensures WordLen(w + t) == |w|
    decreases |w|
  {
    if |w| > 0 {
      assert (w + t)[1..] == w[1..] + t;
      WordLenOfWord(w[1..], t);
    } else {
      assert w + t == t;
    }
  }

  /** Single-space joining of words is undone by `split()`. */
  lemma {:induction false} WsSplitJoin(ws: seq<string>)
    requires forall i :: 0 <= i < |ws| ==> |ws[i]| > 0 && NoSpace(ws[i])
    ensures WsSplit(Join(ws, ' ')) == ws
    decreases |ws|
  {
    if |ws| == 1 {
      WordLenOfWord(ws[0], "");
      assert ws[0] + "" == ws[0];
      assert ws[0][|ws[0]|..] == "";
    } else if |ws| > 1 {
      var s := Join(ws, ' ');
      var tail := Join(ws[1..], ' ');
      assert s == ws[0] + ([' '] + tail);
      WordLenOfWord(ws[0], [' '] + tail);
      assert s[..|ws[0]|] == ws[0];
      assert s[|ws[0]|..] == [' '] + tail;
      assert ([' '] + tail)[1..] == tail;
      WsSplitJoin(ws[1..]);
      assert [ws[0]] + ws[1..] == ws;
    }
  }

  /** Text that is exactly its words joined by single spaces: it has no
      leading, trailing or doubled whitespace, so its words fix it. */
  predicate SingleSpaced(s: string) {
    Join(WsSplit(s), ' ') == s
  }

  /** Two single-spaced texts with the same words are the same text. */
  lemma SingleSpacedUnique(s: string, t: string)
    requires SingleSpaced(s) && SingleSpaced(t) && WsSplit(s) == WsSplit(t)
    ensures s == t
  {
  }

  // ---------------------------------------------------------------------
  // lower

  /** `str.lower()` on the ASCII letters. */
  function LowerChar(c: char): char {
    if 'A' <= c <= 'Z' then (c as int + 32) as char else c
  }

  function Lower(s: string): (r: string)
    ensures |r| == |s|
  {
    seq(|s|, i requires 0 <= i < |s| => LowerChar(s[i]))
  }

  predicate IsLower(s: string) {
    forall i :: 0 <= i < |s| ==> !('A' <= s[i] <= 'Z')
  }

  /** Lower-casing leaves no upper-case letter, is idempotent, and keeps
      every character that is not an upper-case letter in place. */
  lemma LowerFacts(s: string)
    ensures IsLower(Lower(s))
    ensures Lower(Lower(s)) == Lower(s)
    ensures forall i :: 0 <= i < |s| && !('A' <= s[i] <= 'Z') ==> Lower(s)[i] == s[i]
    ensures IsLower(s) ==> Lower(s) == s
  {
  }

  lemma LowerAppend(a: string, b: string)
    ensures Lower(a + b) == Lower(a) + Lower(b)
  {
  }

  /** Lower-casing every piece. */
  function LowerAll(xs: seq<string>): (r: seq<string>)
    ensures |r| == |xs|
  {
    seq(|xs|, i requires 0 <= i < |xs| => Lower(xs[i]))
  }

  /** Lower-casing commutes with joining on a separator that is not an
      upper-case letter. */
  lemma {:induction false} LowerJoin(xs: seq<string>, sep: char)
    requires !('A' <= sep <= 'Z')
    ensures Lower(Join(xs, sep)) == Join(LowerAll(xs), sep)
    decreases |xs|
  {
    if |xs| > 1 {
      LowerJoin(xs[1..], sep);
      assert LowerAll(xs)[1..] == LowerAll(xs[1..]);
      LowerAppend(xs[0], [sep] + Join(xs[1..], sep));
      LowerAppend([sep], Join(xs[1..], sep));
    }
  }

  /** Lower-casing only produces a character other than a lower-case letter
      from that same character. */
  lemma LowerAdds(s: string, c: char)
    requires !('a' <= c <= 'z')
    ensures c in Lower(s) ==> c in s
  {
    if c in Lower(s) {
      var i :| 0 <= i < |s| && Lower(s)[i] == c;
      assert s[i] == c;
    }
  }

  // ---------------------------------------------------------------------
  // replace

  /** Python's `s.replace(pat, rep)`: a left-to-right scan that replaces
      non-overlapping occurrences; an empty `pat` inserts `rep` around every
      character. */
  function Replace(s: string, pat: string, rep: string): string
    decreases |s|
  {
    if |pat| == 0 then InsertEverywhere(s, rep)
    else if |s| < |pat| then s
    else if s[..|pat|] == pat then rep + Replace(s[|pat|..], pat, rep)
    else [s[0]] + Replace(s[1..], pat, rep)
  }

  function InsertEverywhere(s: string, rep: string): string
    decreases |s|
  {
    if |s| == 0 then rep else rep + [s[0]] + InsertEverywhere(s[1..], rep)
  }

  /** Nothing but occurrences of `pat` is touched: text without `pat` is
      returned unchanged. */
  lemma {:induction false} ReplaceAbsent(s: string, pat: string, rep: string)
    requires |pat| > 0
    requires !Contains(s, pat)
    ensures Replace(s, pat, rep) == s
    decreases |s|
  {
    if |s| >= |pat| {
      assert s[..|pat|] != pat by {
        assert s[0..0 + |pat|] == s[..|pat|];
        assert !OccursAt(s, pat, 0);
      }
      assert !Contains(s[1..], pat) by {
        if Contains(s[1..], pat) {
          var i :| 0 <= i <= |s[1..]| - |pat| && OccursAt(s[1..], pat, i);
          assert s[i + 1..i + 1 + |pat|] == pat;
          assert OccursAt(s, pat, i + 1);
        }
      }
      ReplaceAbsent(s[1..], pat, rep);
      assert s == [s[0]] + s[1..];
    }
  }

  /** Replacing a pattern by itself changes nothing. */
  lemma {:induction false} ReplaceSame(s: string, pat: string)
    ensures Replace(s, pat, pat) == s
    decreases |s|
  {
    if |pat| == 0 {
      InsertEmpty(s);
    } else if |s| >= |pat| {
      if s[..|pat|] == pat {
        ReplaceSame(s[|pat|..], pat);
        assert s == s[..|pat|] + s[|pat|..];
      } else {
        ReplaceSame(s[1..], pat);
        assert s == [s[0]] + s[1..];
      }
    }
  }

  /** The scan replaces the first occurrence of `pat` and resumes after it:
      text before it that holds no occurrence is copied unchanged. */
  lemma {:induction false} ReplaceFirst(a: string, pat: string, b: string, rep: string)
    requires |pat| > 0
    requires forall i :: 0 <= i < |a| ==> !OccursAt(a + pat + b, pat, i)
    ensures Replace(a + pat + b, pat, rep) == a + rep + Replace(b, pat, rep)
    decreases |a|
  {
    var s := a + pat + b;
    if |a| == 0 {
      assert s == pat + b;
      assert s[..|pat|] == pat;
      assert s[|pat|..] == b;
    } else {
      assert s[..|pat|] != pat by {
        assert s[0..0 + |pat|] == s[..|pat|];
        assert !OccursAt(s, pat, 0);
      }
      assert s[1..] == a[1..] + pat + b;
      NoOccurrenceShift(s, pat, |a|);
      ReplaceFirst(a[1..], pat, b, rep);
      assert Replace(s, pat, rep) == [s[0]] + Replace(s[1..], pat, rep);
      assert s[0] == a[0];
      assert a == [a[0]] + a[1..];
    }
  }

  /** No occurrence before `n` in `s` means none before `n - 1` in `s[1..]`. */
  lemma NoOccurrenceShift(s: string, pat: string, n: int)
    requires 0 < n <= |s|
    requires forall i :: 0 <= i < n ==> !OccursAt(s, pat, i)
    ensures forall i :: 0 <= i < n - 1 ==> !OccursAt(s[1..], pat, i)
  {
    forall i | 0 <= i < n - 1
      ensures !OccursAt(s[1..], pat, i)
    {
      assert !OccursAt(s, pat, i + 1);
      if i + |pat| <= |s| - 1 {
        assert s[i + 1..i + 1 + |pat|] == s[1..][i..i + |pat|];
      }
    }
  }

  /** A pattern that shares neither its first character with `mid` nor
      `mid`'s first character with itself cannot occur across `mid`: it is
      absent from `a + mid + b` when it is absent from `a` and from `b`. */
  lemma NoStraddle(a: string, mid: string, b: string, pat: string)
    requires |pat| > 0 && |mid| > 0
    requires pat[0] !in mid && mid[0] !in pat
    requires !Contains(a, pat) && !Contains(b, pat)
    ensures !Contains(a + mid + b, pat)
  {
    var s := a + mid + b;
    forall i | 0 <= i <= |s| - |pat|
      ensures !OccursAt(s, pat, i)
    {
      if i + |pat| <= |a| {
        assert s[i..i + |pat|] == a[i..i + |pat|];
        assert !OccursAt(a, pat, i);
      } else if i >= |a| + |mid| {
        var k := i - |a| - |mid|;
        assert s[i..i + |pat|] == b[k..k + |pat|];
        assert !OccursAt(b, pat, k);
      } else if i >= |a| {
        assert s[i..i + |pat|][0] == s[i] == mid[i - |a|];
        assert mid[i - |a|] != pat[0];
      } else {
        assert s[i..i + |pat|][|a| - i] == s[|a|] == mid[0];
        assert mid[0] != pat[|a| - i];
      }
    }
  }

  /** A pattern whose first character does not recur in it cannot start in
      text free of it and run into its own occurrence right after. */
  lemma LeadingOccurrence(a: string, pat: string, b: string)
    requires |pat| > 0 && pat[0] !in pat[1..]
    requires !Contains(a, pat)
    ensures forall i :: 0 <= i < |a| ==> !OccursAt(a + pat + b, pat, i)
  {
    var s := a + pat + b;
    forall i | 0 <= i < |a|
      ensures !OccursAt(s, pat, i)
    {
      if i + |pat| <= |a| {
        assert s[i..i + |pat|] == a[i..i + |pat|];
        assert !OccursAt(a, pat, i);
      } else if i + |pat| <= |s| {
        var j := |a| - i;
        assert s[i..i + |pat|][j] == s[|a|] == pat[0];
        assert pat[j] == pat[1..][j - 1];
        assert pat[j] != pat[0];
      }
    }
  }

  lemma {:induction false} InsertEmpty(s: string)
    ensures InsertEverywhere(s, "") == s
    decreases |s|
  {
    if |s| > 0 {
      InsertEmpty(s[1..]);
      assert s == [s[0]] + s[1..];
    }
  }

  // ---------------------------------------------------------------------
  // int() and str() on integers

  function DigitValue(c: char): nat
    requires IsDigit(c)
  {
    c as int - '0' as int
  }

  function DigitChar(d: nat): (c: char)
    requires d < 10
    ensures IsDigit(c) && DigitValue(c) == d
  {
    "0123456789"[d]
  }

  /** Python's `str(n)` for a non-negative integer. */
  function NatToString(n: nat): (r: string)
    ensures |r| > 0
    ensures forall i :: 0 <= i < |r| ==> IsDigit(r[i])
  {
    if n < 10 then [DigitChar(n)] else NatToString(n / 10) + [DigitChar(n % 10)]
  }

  /** Python's `str(n)` for an integer. */
  function IntToString(n: int): (r: string)
    ensures |r| > 0
    ensures forall i :: 0 <= i < |r| ==> IsDigit(r[i]) || (i == 0 && r[i] == '-')
    ensures IsDigit(r[|r| - 1])
  {
    if n < 0 then "-" + NatToString(-n) else NatToString(n)
  }

  /** The digit part Python's `int()` accepts: ASCII digits, with single
      underscores allowed between two digits. */
  predicate IsDigitPart(t: string) {
    && |t| > 0
    && IsDigit(t[0])
    && IsDigit(t[|t| - 1])
    && forall i :: 0 <= i < |t| ==> DigitPartChar(t, i)
  }

  /** Position `i` of `t` holds a digit, or an underscore between two digits. */
  predicate DigitPartChar(t: string, i: int)
    requires 0 <= i < |t|
  {
    IsDigit(t[i]) || (t[i] == '_' && 0 < i < |t| - 1 && IsDigit(t[i - 1]) && IsDigit(t[i + 1]))
  }

  /** `int(x)` succeeds: after stripping whitespace, an optional sign and a
      digit part. */
  predicate IsIntToken(x: string) {
    var t := Strip(x);
    |t| > 0 && if t[0] == '+' || t[0] == '-' then IsDigitPart(t[1..]) else IsDigitPart(t)
  }

  /** Right-to-left scan of a digit part, skipping one underscore before a
      digit; `None` is the `ValueError`. */
  function ParseDigitPart(t: string): Option<nat>
    decreases |t|
  {
    if |t| == 0 || !IsDigit(t[|t| - 1]) then None
    else if |t| == 1 then Some(DigitValue(t[0]))
    else
      var init := if t[|t| - 2] == '_' then t[..|t| - 2] else t[..|t| - 1];
      match ParseDigitPart(init)
      case None => None
      case Some(v) => Some(v * 10 + DigitValue(t[|t| - 1]))
  }

  /** Python's `int(x)` on a string; `None` stands for the `ValueError`. */
  function ParseInt(x: string): Option<int> {
    var t := Strip(x);
    if |t| == 0 then None
    else if t[0] == '+' || t[0] == '-' then
      match ParseDigitPart(t[1..])
      case None => None
      case Some(v) =>
        var n: int := if t[0] == '-' then -(v as int) else v;
        Some(n)
    else
      match ParseDigitPart(t) case None => None case Some(v) => Some(v)
  }

  /** A digit part minus its last digit, or minus an underscore and the
      last digit, is still a digit part, and conversely. */
  lemma DigitPartDropLast(t: string, k: nat)
    requires |t| >= 2 && IsDigit(t[|t| - 1])
    requires k == (if t[|t| - 2] == '_' then 2 else 1)
    ensures IsDigitPart(t) <==> IsDigitPart(t[..|t| - k])
  {
    var init := t[..|t| - k];
    if IsDigitPart(t) {
      assert DigitPartChar(t, |t| - 2);
      forall i | 0 <= i < |init|
        ensures DigitPartChar(init, i)
      {
        assert DigitPartChar(t, i);
      }
    }
    if IsDigitPart(init) {
      forall i | 0 <= i < |t|
        ensures DigitPartChar(t, i)
      {
        if i < |init| {
          assert DigitPartChar(init, i);
        }
      }
    }
  }

  lemma {:induction false} ParseDigitPartAccepts(t: string)
    ensures ParseDigitPart(t).Some? <==> IsDigitPart(t)
    decreases |t|
  {
    if |t| >= 2 && IsDigit(t[|t| - 1]) {
      var k: nat := if t[|t| - 2] == '_' then 2 else 1;
      ParseDigitPartAccepts(t[..|t| - k]);
      DigitPartDropLast(t, k);
    } else if |t| == 1 && IsDigit(t[0]) {
      assert DigitPartChar(t, 0);
    }
  }

  /** The scanning parser succeeds on exactly the strings the grammar of
      `int()` accepts. */
  lemma ParseIntAccepts(x: string)
    ensures ParseInt(x).Some? <==> IsIntToken(x)
  {
    var t := Strip(x);
    if |t| > 0 {
      ParseDigitPartAccepts(t);
      ParseDigitPartAccepts(t[1..]);
    }
  }

  lemma NotSpace(c: char)
    requires IsDigit(c) || c == '-'
    ensures !IsSpace(c)
  {
  }

  lemma {:induction false} NatToStringParses(n: nat)
    ensures ParseDigitPart(NatToString(n)) == Some(n)
  {
    if n >= 10 {
      NatToStringParses(n / 10);
      var s := NatToString(n);
      assert s[..|s| - 1] == NatToString(n / 10);
    }
  }

  /** `int(str(n)) == n`. */
  lemma IntToStringParses(n: int)
    ensures ParseInt(IntToString(n)) == Some(n)
    ensures IsIntToken(IntToString(n))
  {
    IntToStringValue(n);
    ParseIntAccepts(IntToString(n));
  }

  lemma IntToStringValue(n: int)
    ensures ParseInt(IntToString(n)) == Some(n)
  {
    if n < 0 {
      ParseNegative(n);
    } else {
      ParseNatural(n);
    }
  }

  lemma ParseNegative(k: int)
    requires k < 0
    ensures ParseInt(IntToString(k)) == Some(k)
  {
    var m: nat := 0 - k;
    var s := IntToString(k);
    assert s == "-" + NatToString(m);
    IntToStringStripped(k);
    assert s[1..] == NatToString(m);
    NatToStringParses(m);
    assert s[0] == '-' && ParseDigitPart(s[1..]) == Some(m);
  }

  lemma ParseNatural(n: nat)
    ensures ParseInt(IntToString(n)) == Some(n)
  {
    assert IntToString(n) == NatToString(n);
    IntToStringStripped(n);
    NatToStringParses(n);
  }

  /** `str(n)` has no surrounding whitespace. */
  lemma IntToStringStripped(n: int)
    ensures Strip(IntToString(n)) == IntToString(n)
  {
    var s := IntToString(n);
    NotSpace(s[0]);
    NotSpace(s[|s| - 1]);
    StripStripped(s, Whitespace);
  }
}

=== FILE: wrappers.dfy ===
/** Failure-carrying values that stand in for the exceptions the benchmark
    tooling raises (an `IndexError` from a short token list, a `ValueError`
    from `int()`, a `KeyError` from a dictionary lookup, a failed `assert`). */
module Wrappers {

  datatype Option<+T> = None | Some(value: T)

  /** The Python exception classes the modelled code can raise. */
  datatype PyError = IndexError | ValueError | KeyError | AssertionError

  /** A computation that either returns a value or raises one of the
      exceptions above; usable with `:-`. */
  datatype Result<+T> = Ok(value: T) | Err(error: PyError) {

    predicate IsFailure() {
      Err?
    }

    function PropagateFailure<U>(): Result<U>
      requires Err?
    {
      Err(error)
    }

    function Extract(): T
      requires Ok?
    {
      value
    }
  }
}
